=== FILE: README.md ===
# Clawdbot-Python gateway core in Dafny

This project models the bookkeeping at the centre of the Clawdbot-Python
message gateway and proves properties of it:

- **Memory store** (`Memory`, memory.dfy). There is an interaction cache of at most 100
  entries that evicts the oldest first, and a cache of "important" memory entries. Both
  write through to two durable tables. The tables are sequences of rows, and a
  `storeFails` flag says whether opening the database raises. The module covers
  storing, the recent-interaction merge of cache and table, search, expiry cleanup,
  the health report and close.
- **Gateway** (`Core`, gateway.dfy). It holds the `initialized` and `running` flags, the
  routing table from `"<source>_to_<destination>"` keys to the three routing handlers,
  and the event bus. The bus calls each topic's observers in registration order and
  swallows their failures. Every routing method also returns, as a ghost result, the
  observer calls it made, in order.
- **Tool registry** (`Tools`, registry.dfy). It maps names to tools, where a name is
  derived from the class name. It also builds schemas, runs tools behind a wrapper
  that turns failures into results, and validates parameters, filling in defaults.
- **Built-in tools** (`BuiltinTools`, builtin.dfy). This covers the shell tool's
  blocklist and the replies of the mock search, browser, message, gateway and
  sessions tools.
- **Channels** (`Channels`, channels.dfy). The mock channel keeps a bounded queue and
  a recipient set. The channel manager derives channel ids, runs the pre-send handler
  chain and the post-send handlers, applies the recipient and text fallbacks, and broadcasts to running channels.
- **Agents** (`Agents`, agents.dfy). The keyword-driven reply chooser, the reply map,
  and the agent manager's registry with its default id.

Shared modules model Python's own vocabulary:

- `Values`: dynamically typed values, `dict.get`, truthiness and error texts.
- `Text`: `str.lower`, `in`, `str.replace(p, '')`, `str.join` and `str(int)`.
- `Collections`: slicing, comprehensions and `list.remove`.
- `Sorting`: a stable `sort` and `sorted(...)[:n]`.
- `Wrappers`: `Option`, `Result` and `Outcome`. A raised exception is `Err(str(e))`
  or `Fail(str(e))`.

Clocks and generated ids are parameters. `Env` carries `now`, its
`strftime` text and the `timestamp()` suffix of fresh ids.

Where the system's documented intentions and the code disagree, the model
follows the code:

- Reads on a down store do not fall back to the caches. `search_memory` always
  queries the table. `get_recent_interactions` queries it whenever a user filter is
  given or the cache holds fewer than `limit` entries. Either way, a failing database
  makes the call raise (`Memory.MemoryManager.GetRecentInteractions`,
  `Memory.MemoryManager.SearchMemory`).
- Search does not hide entries past their expiry. `search_memory` filters the cache
  and the table by text and category only (src/memory/manager.py:313-359), so an
  expired entry is returned until `cleanup_expired_entries` removes it
  (`Memory.MemoryManager.SearchMemory`, `Memory.SearchMergeSpec`).
- The gateway has no terminal stopped state and no guard on `initialize`.
  `_cleanup_resources` leaves `initialized` set. So `start` succeeds again after
  `shutdown`, on a gateway whose routing table is empty (`Core.Gateway.Shutdown`).
- Errors are plain exceptions carrying messages such as "Gateway is not running".
  The model keeps the message, not an error type.
- With a memory manager attached, `_route_channel_to_agent` never succeeds once the
  default agent has answered:
  - the record it stores carries an ISO *string* timestamp (src/core/gateway.py:201);
  - `store_interaction` calls `.isoformat()` on it (src/memory/manager.py:177);
  - so the store raises, and the handler emits `error_occurred` and raises again.

  The model follows the code here (`Core.Gateway.ChannelToAgentFailsWithMemory`).

## Model

| member | source | states |
|---|---|---|
| Text.LowerIdempotent | src/agents/manager.py:66 | lower-casing an already lower-cased string changes nothing |
| Text.ContainsIff | src/agents/manager.py:68 | the left-to-right `sub in s` scan answers true exactly when `sub` occurs at some index of `s` |
| Text.RemoveAllUnchangedIff | src/tools/registry.py:34 | `s.replace(p, '')` returns `s` unchanged exactly when `p` does not occur in `s` |
| Text.NatToStringInjective | src/channels/manager.py:267 | different counts give different decimal numerals |
| Collections.KeysOf | src/tools/registry.py:105 | `list(m.keys())` lists every key of the map exactly once |
| Collections.PutEach | src/memory/manager.py:121-132 | the loop that stores each loaded row under its id yields the map with each element put in order, a later one overwriting an earlier one |
| Collections.PopEach | src/memory/manager.py:404-405 | `m.pop(k, None)` over a list of ids leaves exactly the entries whose key is not listed, with their values unchanged |
| Collections.RemoveFirstSpec | src/core/gateway.py:348-352 | `list.remove` with the ValueError swallowed cuts out exactly the first occurrence, and changes nothing when the element is absent |
| Sorting.TopSpec | src/memory/manager.py:308-309 | `sort(reverse=True)` then `[:n]` gives `min(n, len)` elements, sorted, a sub-multiset of the input, and leaves an element out only when all `n` kept ones rank at least as high |
| Sorting.TopUnique | src/memory/manager.py:355-359 | sorting and truncating never duplicates an id |
| Sorting.TopOfSuperset | src/memory/manager.py:355-359 | when the top `n` of a part all survive into the whole, the top `n` of the whole leave out an element of the part only when `n` elements ranking at least as high are kept |
| Sorting.TopKeepsShort | src/memory/manager.py:308-309 | a list no longer than `n` loses nothing to the cut |
| Sorting.InsertStable | src/memory/manager.py:308 | inserting an element puts it ahead of its own rank and keeps the order within every rank |
| Sorting.SortByStable | src/memory/manager.py:308 | the sort is stable: the elements of each rank keep their input order |
| Memory.NewerIsTotalPreorder | src/memory/manager.py:118 | newest-first order by timestamp is total and transitive |
| Memory.MoreRelevantIsTotalPreorder | src/memory/manager.py:140 | the (importance, timestamp) descending order is total and transitive |
| Memory.BuildInteraction | src/memory/manager.py:158-184 | a timestamp that is not a datetime makes the store raise the `isoformat` AttributeError; with a datetime timestamp, truthy metadata holding a datetime makes `json.dumps` raise its TypeError before any column is bound |
| Memory.DatetimeMetadataRefused | src/memory/manager.py:182 | metadata `{'at': <datetime>}` is refused with "Object of type datetime is not JSON serializable" |
| Memory.BuildInteractionOkIff | src/memory/manager.py:158-184 | building and binding an interaction succeeds exactly when the timestamp is a datetime, the metadata is falsy or has a JSON form, every text column gets a string and the session id is a string or None |
| Memory.BuildInteractionFields | src/memory/manager.py:158-167 | the built interaction holds the caller's values, and for absent keys a generated `int_` id, `'unknown'` source and user, `''` texts and the clock's time |
| Memory.BuildMemoryEntry | src/memory/manager.py:210-234 | a timestamp that is not a datetime makes the store raise the `isoformat` AttributeError |
| Memory.BuildMemoryEntryFields | src/memory/manager.py:210-218 | the built entry holds the caller's values, and for absent keys a generated `mem_` id, category `'general'`, content `''`, tags `[]` and importance 0.5; an expiry is kept exactly when it is truthy |
| Memory.EvictStep | src/memory/manager.py:197-199 | deleting the first id of the oldest-first list keeps the invariant of the eviction loop: the rest are still listed oldest first, and every deleted entry is older than every kept one |
| Memory.EvictOldest | src/memory/manager.py:191-199 | the trimmed cache is a sub-map of the input holding `min(size, 100)` entries, and every evicted entry is at most as new as every kept one |
| Memory.RecentRows | src/memory/manager.py:115-120 | start-up loads at most 100 interactions, all from the table |
| Memory.ImportantRows | src/memory/manager.py:136-142 | start-up loads at most 50 entries, each from the table and with importance above 0.7 or no expiry |
| Memory.AppendNewIds | src/memory/manager.py:343-355 | the de-duplicating loop keeps the cache hits as a prefix, appends only table rows, covers every row's id and never repeats an id |
| Memory.LoadedInteractionsValid | src/memory/manager.py:121-132 | caching rows read back from the table keeps the interaction cache keyed by id and holding only stored interactions |
| Memory.LoadedMemoriesValid | src/memory/manager.py:143-153 | caching rows read back from the table keeps the memory cache keyed by id and holding only stored entries |
| Memory.InsertedInteractionValid | src/memory/manager.py:170-185 | inserting a row with a fresh id keeps primary keys unique and the cache valid |
| Memory.SubCacheValid | src/memory/manager.py:188-199 | what eviction leaves of the cache plus the new interaction is still a valid cache |
| Memory.UserRowsSpec | src/memory/manager.py:251-272 | the user-filtered query returns at most `limit` of that user's rows, newest first and with no id twice; it leaves one of the user's rows out only when `limit` rows at least as new are returned |
| Memory.CachedSize | src/memory/manager.py:276-284 | the cache slice is shorter than `limit` exactly when the cache holds fewer than `limit` interactions, so the table is queried only then |
| Memory.CacheValues | src/memory/manager.py:276-280 | the cache's values, one per key, are id-unique and are exactly the cached interactions |
| Memory.OtherRowsSpec | src/memory/manager.py:285-304 | the rows fetched beside the cache slice are table rows whose ids the slice does not hold, so together they repeat no id |
| Memory.OtherRowsFilled | src/memory/manager.py:285-304 | the table query beside the cache slice leaves out an uncached row only when it returns `limit - len(cached)` rows, each at least as new |
| Memory.ShortCacheFilled | src/memory/manager.py:282-309 | with fewer than `limit` cached, an uncached table row is cut only when `limit` interactions are returned and every uncached one among them is at least as new |
| Memory.TableFilled | src/memory/manager.py:282-309 | the table fills what the cache leaves: an uncached table row is missing from the result only when the result is full and every uncached returned row is at least as new |
| Memory.MergedParts | src/memory/manager.py:283-306 | the cache slice plus the fetched rows repeat no id, come from the cache or the table, and are the cache slice alone when the cache holds at least `limit` entries |
| Memory.KeptOrOutranked | src/memory/manager.py:306-309 | a cached interaction either survives the final sort and cut or is outranked by all `limit` interactions returned |
| Memory.NewestUnique | src/memory/manager.py:308-309 | the final cut holds at most `limit` interactions, newest first, with no id twice |
| Memory.MergedSources | src/memory/manager.py:306-309 | every returned interaction comes from the cache or the table, and only from the cache when the cache alone fills `limit` |
| Memory.CachedOutranked | src/memory/manager.py:306-309 | the final cut leaves a cached interaction out only when `limit` interactions at least as new are returned |
| Memory.MergedRecentSpec | src/memory/manager.py:276-309 | the unfiltered recent interactions satisfy all of the above together, including the fill from the table when the cache is short |
| Memory.MergedShape | src/memory/manager.py:276-309 | the merged recent list has at most `limit` interactions, newest first, no id twice, each from the cache or the table, and only cached ones when the cache alone fills the limit |
| Memory.MergedComplete | src/memory/manager.py:276-309 | a cached interaction, or a table row whose id is not cached, is left out only when `limit` newer ones are returned |
| Memory.HitsAmongStored | src/memory/manager.py:318-322 | every collected hit is a cache hit stored under one of the scanned keys |
| Memory.HitsAmongComplete | src/memory/manager.py:318-322 | every cache hit under a scanned key is collected |
| Memory.HitsAmongUnique | src/memory/manager.py:318-322 | scanning distinct keys collects no id twice |
| Memory.HitsAmongAllKeys | src/memory/manager.py:318-322 | over all keys, the hits are exactly the cache hits, each once |
| Memory.ScanCache | src/memory/manager.py:318-322 | the cache loop returns exactly the cached entries in the category whose lower-cased content or space-joined tags contain the lower-cased query, with no id twice |
| Memory.SearchMergeSpec | src/memory/manager.py:343-359 | cache hits plus the new table rows, sorted by (importance, timestamp) descending and cut to `limit`, give at most `limit` entries, sorted, with no id twice, each a cache hit or a matching row in the category; a cache hit or a matching table row is left out only when `limit` entries at least as relevant are returned |
| Memory.MatchingRowsOutranked | src/memory/manager.py:323-359 | a table row that matches the query and the category is cut from the merged result only when `limit` entries at least as relevant are returned |
| Memory.ExpiredIdsOfCache | src/memory/manager.py:392-396 | a cached entry's id is among the expired ids exactly when its expiry is set and before now |
| Memory.NoExpiredIds | src/memory/manager.py:399 | with no expired id, nothing is deleted |
| Memory.CleanedCacheValid | src/memory/manager.py:399-405 | the cache without its expired entries is valid for the table without them |
| Memory.MemoryManager.constructor | src/memory/manager.py:45-58 | the database file is `memory_dir/memory.db`, and both caches start empty |
| Memory.MemoryManager.Initialize | src/memory/manager.py:60-70 | fails, with both caches unchanged, exactly when the database cannot be opened; otherwise it puts the newest interactions and the retained entries into the caches, adding at most 100 and 50 |
| Memory.MemoryManager.LoadRecentInteractions | src/memory/manager.py:113-132 | the interaction cache gains the newest rows under their ids, at most 100 more entries, and stays valid |
| Memory.MemoryManager.LoadImportantMemories | src/memory/manager.py:134-153 | the memory cache gains the most relevant retained rows under their ids, at most 50 more entries, and stays valid |
| Memory.MemoryManager.StoreInteraction | src/memory/manager.py:155-205 | raises when the database is down, when building fails or on a duplicate id, and then leaves the table and the cache unchanged; otherwise it appends the row, then caches the interaction and evicts the oldest down to 100 |
| Memory.MemoryManager.InsertInteractionRow | src/memory/manager.py:170-185 | a fresh id is appended to the table as it reads back |
| Memory.MemoryManager.CacheInteraction | src/memory/manager.py:187-199 | the cache gains the interaction and keeps the newest 100 entries |
| Memory.MemoryManager.StoreMemory | src/memory/manager.py:207-245 | raises, changing nothing, when the database is down, building fails or the id exists; otherwise it appends the row and caches the entry if and only if its importance is above 0.7 |
| Memory.MemoryManager.GetRecentInteractions | src/memory/manager.py:247-311 | with a non-empty user, the user's newest rows; without one, the merged newest interactions, filled from the table when the cache holds fewer than `limit`; raises when the database is down and the table is needed |
| Memory.MemoryManager.SearchMemory | src/memory/manager.py:313-359 | raises exactly when the database is down; otherwise a search result as described for `SearchMergeSpec`, in which no matching cache entry or table row is missing unless `limit` more relevant ones are returned |
| Memory.MemoryManager.CleanupExpiredEntries | src/memory/manager.py:386-408 | deletes exactly the rows whose expiry is set and before now, and drops exactly the cached entries that have expired, leaving the others unchanged |
| Memory.MemoryManager.HealthCheck | src/memory/manager.py:410-436 | reports the table sizes and the number of cached interactions plus cached entries, or the error when the database cannot be opened |
| Memory.MemoryManager.Close | src/memory/manager.py:438-443 | both caches are emptied and the tables stay |
| Core.WithDefaultObservers | src/core/gateway.py:79-87 | each starting topic gets the gateway's own observer appended last, and other topics are untouched |
| Core.SystemToInternalUnrouted | src/core/gateway.py:145-149 | the key `system_to_internal` is not in the routing table, so the system notification finds no route |
| Core.Emitted | src/core/gateway.py:330-337 | an event reaches every observer of its topic once, in registration order, and none for an unknown topic |
| Core.EmittedAfterRegister | src/core/gateway.py:339-344 | a newly registered observer is called last, after all earlier ones |
| Core.EmittedAfterRemove | src/core/gateway.py:346-352 | removing drops exactly the call of the observer's first registration, and removing an unregistered one changes nothing |
| Core.EmittedAfterRemovePresent | src/core/gateway.py:348-350 | for a registered observer, removal drops the call at its first index and keeps the others in order |
| Core.RemoveUndoesRegister | src/core/gateway.py:339-352 | registering an observer that was not there and removing it again restores the table |
| Core.InteractionRecord | src/core/gateway.py:195-202 | the stored record's timestamp is already an ISO string |
| Core.IsoStampedRecordNeverStored | src/memory/manager.py:160-177 | a record with an ISO-string timestamp is never stored: the store fails, or the string has no `isoformat` |
| Core.Gateway.constructor | src/core/gateway.py:24-46 | no components, both flags cleared, an empty routing table and an empty list for each of the four starting topics |
| Core.Gateway.Initialize | src/core/gateway.py:48-87 | the components are attached, the table holds exactly the three routes, the gateway's own observers are appended, and `initialized` is set |
| Core.Gateway.Start | src/core/gateway.py:89-101 | fails, leaving `running` as it was, exactly when not initialized; otherwise the gateway runs and every channel is started |
| Core.Gateway.Stop | src/core/gateway.py:103-112 | always clears `running` and stops every channel |
| Core.Gateway.Cleanup | src/core/gateway.py:126-138 | the routing table is emptied, every topic keeps an empty list, and the components are detached |
| Core.Gateway.Shutdown | src/core/gateway.py:114-124 | stop, then clean up; `initialized` is left as it was |
| Core.Gateway.EmitEvent | src/core/gateway.py:330-337 | the loop makes exactly the calls `Emitted` describes |
| Core.Gateway.RegisterEventHandler | src/core/gateway.py:339-344 | the topic is created on first use and the observer appended |
| Core.Gateway.RemoveEventHandler | src/core/gateway.py:346-352 | the first registration of the observer goes; an unknown topic or observer is ignored |
| Core.Gateway.ChannelToAgentFailsWithMemory | src/core/gateway.py:194-213 | with a memory manager attached and a default agent, the handler always raises: the store is down, or the `isoformat` AttributeError |
| Core.Gateway.AgentToChannelNeedsChannelId | src/core/gateway.py:219-222 | a message without a truthy `channel_id` returns None without sending |
| Core.Gateway.HealthReport | src/core/gateway.py:290-308 | the gateway is reported healthy exactly when running, and the components are exactly the attached managers |
| Core.Gateway.Notification | src/core/gateway.py:275-288 | a notification type other than the three known ones gets the generic "handled" reply |
| Core.Gateway.InternalResult | src/core/gateway.py:250-263 | a system notification and a health check go to their handlers, and any other type gives None |
| Core.Gateway.RouteChannelToAgent | src/core/gateway.py:174-213 | the result is the default agent's reply when no memory manager is attached; with one attached the store always raises (`ChannelToAgentFailsWithMemory`), so the interaction table and cache are left unchanged; each failure emits `error_occurred` with the channel-to-agent context and is raised again |
| Core.Gateway.RouteAgentToChannel | src/core/gateway.py:215-248 | a truthy channel id makes the channel manager send: the named channel's queue and recipients change as its `send_message` delivers the pre-processed message, every other channel keeps them, and the result is announced as `agent_response`; a failed send emits `error_occurred` and is raised again |
| Core.Gateway.Dispatch | src/core/gateway.py:160-161 | the handler the route names runs, with its result and calls; memory never changes, the channels change only as `_route_agent_to_channel` sends, and the other routes leave them untouched |
| Core.Gateway.Deliver | src/core/gateway.py:151-172 | `message_received` goes out before the handler and `message_processed` after it; the handler's result is returned unchanged; a raising handler ends the call before `message_processed`; memory and channel state change only as the handler does |
| Core.Gateway.RouteMessage | src/core/gateway.py:140-172 | refused with no event and no state change when not running; an unknown key returns None with no event and no state change; otherwise the message is delivered as `Deliver` states |
| Tools.ToolName | src/tools/registry.py:34 | a tool's name is never longer than its class name |
| Tools.ReadFileToolName | src/tools/registry.py:34 | `ReadFileTool` is registered as `readfile` |
| Tools.ToolNameIsLowerIff | src/tools/registry.py:34 | the name is the lower-cased class name exactly when that contains no `tool` |
| Tools.RequiredNames | src/tools/registry.py:76 | the `required` list has at most one name per parameter |
| Tools.RequiredNamesSnoc | src/tools/registry.py:76 | the `required` list follows declaration order: one more parameter appends its name exactly when it is required |
| Tools.RequiredNamesMembers | src/tools/registry.py:76 | a name is in `required` exactly when a required parameter has it |
| Tools.Properties | src/tools/registry.py:70-75 | the schema's properties have exactly the parameters' names as keys |
| Tools.PropertiesOfUnique | src/tools/registry.py:70-75 | each uniquely named parameter is described by its own type and description |
| Tools.Schema | src/tools/registry.py:63-78 | the schema names the tool by its derived name, and its description is None exactly when the tool class has no docstring (`__doc__`, line 35) |
| Tools.ValidateErrIff | src/tools/registry.py:143-147 | validation raises exactly when a required parameter without a default is missing, and names the first such one |
| Tools.ValidateKeys | src/tools/registry.py:142-150 | a successful validation keeps exactly the declared names that were given or have a default, and drops undeclared keys |
| Tools.ValidateErrPersists | src/tools/registry.py:143-147 | once a prefix of the parameters fails, the whole validation fails the same way |
| Tools.ValidateValues | src/tools/registry.py:144-149 | a given value is passed through, and an absent parameter takes its non-None default |
| Tools.ToolRegistry.constructor | src/tools/registry.py:84-86 | the registry starts empty |
| Tools.ToolRegistry.Register | src/tools/registry.py:88-91 | inserts or overwrites the tool under its name |
| Tools.ToolRegistry.Unregister | src/tools/registry.py:93-97 | deletes the name if present, and otherwise changes nothing |
| Tools.ToolRegistry.GetTool | src/tools/registry.py:99-101 | a tool exactly for a registered name |
| Tools.ToolRegistry.ListTools | src/tools/registry.py:103-105 | every registered name exactly once |
| Tools.ToolRegistry.GetToolSchema | src/tools/registry.py:107-110 | the tool's schema, and None for an unknown name |
| Tools.ToolRegistry.GetAllSchemas | src/tools/registry.py:112-114 | one schema per registered tool, each some tool's schema, and every registered tool's schema among them |
| Tools.ToolRegistry.ExecuteTool | src/tools/registry.py:116-134 | an unknown name gives a failure saying "not found", a raising tool a failure carrying its message, otherwise success with the value; success holds exactly when there is no error |
| Tools.ToolRegistry.ValidateParameters | src/tools/registry.py:136-150 | raises for an unknown tool; otherwise the loop computes `Validate` over the declared parameters |
| BuiltinTools.FirstMatch | src/tools/builtin.py:87-89 | no pattern matches exactly when none occurs, and a match is the first pattern in list order that occurs |
| BuiltinTools.ExecGuard | src/tools/builtin.py:85-89 | a command is refused exactly when its lower-cased form contains a dangerous pattern, and the refusal names the first one in list order |
| BuiltinTools.ExecRefusalIgnoresShell | src/tools/builtin.py:85-91 | a refused command never reaches the shell, and the reply is the refusal message |
| BuiltinTools.RedirectionRefused | src/tools/builtin.py:85-89 | any command containing `>` is refused |
| BuiltinTools.WebSearchRun | src/tools/builtin.py:138-150 | the reply holds exactly `num_results` items, or none for a negative count |
| BuiltinTools.WebSearchHitsEmbedQuery | src/tools/builtin.py:142-146 | every hit names the query in its title and its snippet |
| BuiltinTools.BrowserRun | src/tools/builtin.py:170-185 | an invalid URL gives the format error; a valid one gives page data exactly for `get_content` and otherwise the "not implemented" message |
| BuiltinTools.MessageRun | src/tools/builtin.py:207-214 | `message_sent` is the message's length |
| BuiltinTools.GatewayRun | src/tools/builtin.py:231-254 | data exactly for `status` and `config_get`, and otherwise the "not implemented" message |
| BuiltinTools.SessionsRun | src/tools/builtin.py:274-305 | data exactly for `list` (two sessions) and `status`, and otherwise the "not implemented" message |
| Channels.KindOf | src/channels/manager.py:278-286 | an unknown type name gives a mock channel, and only then |
| Channels.ChannelIdInjective | src/channels/manager.py:267 | the count a derived id was made from is determined by the id |
| Channels.Trimmed | src/channels/manager.py:76-80 | the queue after an append is a suffix of it; at most 100 are kept as they are, and more are cut to the last 50 |
| Channels.LastItems | src/channels/manager.py:93 | `q[-limit:]` keeps the last `limit` items for a positive limit, the whole queue for 0, and drops the first `-limit` for a negative one |
| Channels.LatestMessage | src/channels/manager.py:76-93 | the message just sent is what `get_messages(1)` returns, however full the queue was |
| Channels.ChannelReplySpec | src/channels/manager.py:63-89 | a send fails exactly on an unhashable recipient (mock only) or a text that does not slice; a reply reports success and names the channel, and a placeholder's reply names the recipient |
| Channels.Channel.constructor | src/channels/manager.py:18-22 | a stopped channel of the derived kind with the default configuration and an empty queue and recipient set |
| Channels.Channel.Start | src/channels/manager.py:53-56 | the channel runs |
| Channels.Channel.Stop | src/channels/manager.py:58-61 | the channel stops |
| Channels.Channel.SendMessage | src/channels/manager.py:63-89 | the reply is `ChannelReply`; the mock channel records the recipient and appends the message, trimming the queue, and no other channel kind changes state |
| Channels.Channel.GetMessages | src/channels/manager.py:91-93 | the last `limit` queued messages under Python's slice rules |
| Channels.PreSendSnoc | src/channels/manager.py:316-320 | the handler chain applies each handler to the previous one's result |
| Channels.PreSendAllRaise | src/channels/manager.py:317-320 | handlers that all raise leave the message as their in-place edits made it, and untouched when they edit nothing |
| Channels.PostSendSnoc | src/channels/manager.py:329-332 | each post-send handler is given the reply as the previous ones left it |
| Channels.PostSendEditsOnly | src/channels/manager.py:329-334 | a post-send handler's return value and exception are dropped: handlers that edit nothing in place leave the reply as the channel made it |
| Channels.RecipientOf | src/channels/manager.py:323 | `recipient_id` when truthy, else `user_id`, else `'unknown'` |
| Channels.TextOf | src/channels/manager.py:324 | `text` when present, else `message`, else `''` |
| Channels.PlainMessageDelivered | src/channels/manager.py:323-327 | a message with a string text and a non-empty string recipient is delivered by every kind of channel |
| Channels.BroadcastEntrySuccess | src/channels/manager.py:343-352 | a broadcast entry is the reply as the post-send handlers left it when the send did not raise, and otherwise a failure carrying the exception's text; with post-send handlers that edit nothing, it reports success exactly when the send did not raise |
| Channels.ChannelManager.constructor | src/channels/manager.py:234-250 | no channels, and the four empty handler lists |
| Channels.ChannelManager.CreateChannel | src/channels/manager.py:265-296 | the id is `type_channel_<count>` and is never already in use, so a channel of the derived kind is added, started, and replaces none |
| Channels.ChannelManager.Initialize | src/channels/manager.py:252-263 | the existing channels stay; each enabled type, then `mock`, gets a new channel made for it under the id `type_channel_<count>` for the count of channels before it |
| Channels.ChannelManager.CreateNext | src/channels/manager.py:257-261 | one step of the creation loop: the channel for the next type is added under the id `type_channel_<count>`, every channel already present stays, and the count grows by one |
| Channels.CreatedGrows | src/channels/manager.py:252-263 | adding the channel for the next type under a fresh id extends the record of channels created so far |
| Channels.ChannelManager.GetChannel | src/channels/manager.py:298-300 | a channel exactly for a known id |
| Channels.ChannelManager.RunPreSend | src/channels/manager.py:315-320 | the loop applies the pre-send handlers in order; the message becomes what a handler returns, or, when it raises, the dict as that handler changed it in place |
| Channels.ChannelManager.RunPostSend | src/channels/manager.py:329-334 | the loop gives each post-send handler the reply; the reply keeps every in-place edit, and what a handler returns or raises is dropped |
| Channels.ChannelManager.SendMessage | src/channels/manager.py:302-336 | an unknown id gets the "not found" failure without any handler or send; otherwise the channel's reply to the processed message as the post-send handlers edited it in place, and the target's queue and recipients become what its delivery makes of them (a mock channel appends and trims, a placeholder keeps both); no other channel changes |
| Channels.ChannelManager.BroadcastTo | src/channels/manager.py:344-353 | one round of the broadcast: the reply after the post-send handlers, or the exception captured as a failure entry; that channel's queue and recipients change as its delivery makes them, and every other channel keeps its own |
| Channels.ChannelManager.BroadcastMessage | src/channels/manager.py:338-355 | exactly the running channels get an entry, each the reply after the post-send handlers or the captured failure; each running channel has delivered the pre-processed message once, and every stopped channel keeps its queue and recipients |
| Channels.ChannelManager.SendToEach | src/channels/manager.py:341-353 | the broadcast loop over the given channels: exactly they get an entry, each the reply after the post-send handlers or the captured failure; each of them holds the queue and recipients one delivery makes of those recorded before the loop, every other channel keeps the recorded ones, and no running flag changes |
| Channels.ChannelManager.BroadcastEnds | src/channels/manager.py:338-355 | a finished broadcast over a set of channels gives entries for exactly that set, each the post-send reply or the captured failure; the channels in the set hold what one delivery makes of their recorded state and the others keep it |
| Channels.ChannelManager.SendThrough | src/channels/manager.py:314-336 | one send through a known channel: the reply is the channel's reply to the pre-processed message, edited in place by the post-send handlers; the channel's queue and recipients become what that delivery makes of them, and its invariant is kept |
| Channels.ChannelManager.RegisterMessageHandler | src/channels/manager.py:381-387 | an unknown event gets a new list, and the handler is appended |
| Channels.ChannelManager.ListChannels | src/channels/manager.py:389-391 | every channel id exactly once |
| Channels.ChannelManager.SetListening | src/channels/manager.py:357-379 | every channel ends up running or stopped as asked |
| Channels.ChannelManager.Shutdown | src/channels/manager.py:417-430 | every channel is stopped, then the registry is emptied |
| Agents.IntentOf | src/agents/manager.py:66-82 | the reply kind follows the keyword order, each case an if-and-only-if: a greeting word wins, then help, then time or date, then name, and the echo exactly when no keyword occurs |
| Agents.IntentIgnoresCase | src/agents/manager.py:66 | the choice does not depend on letter case |
| Agents.WhichIsAGreeting | src/agents/manager.py:68 | "which" contains "hi" and is greeted |
| Agents.EchoQuotesInput | src/agents/manager.py:79-82 | a message that matches no keyword is quoted back in the reply |
| Agents.Agent.ProcessMessage | src/agents/manager.py:37-59 | succeeds exactly when the content (default `''`) is a string; other content raises the slicing TypeError or the missing-`lower` AttributeError |
| Agents.Agent.ProcessMessageReply | src/agents/manager.py:52-57 | a reply names the agent, carries the generated response and echoes the request |
| Agents.StrList | src/agents/manager.py:130 | the capability list has one entry per enabled tool |
| Agents.FilledConfig | src/agents/manager.py:186-193 | given entries are kept, and a missing name, model or capability list is filled from the id and the settings |
| Agents.AgentManager.constructor | src/agents/manager.py:110-119 | no agents and no default id |
| Agents.AgentManager.Initialize | src/agents/manager.py:121-165 | the default and the secondary agent are stored, and the default id names the default agent |
| Agents.AgentManager.GetAgent | src/agents/manager.py:167-169 | the agent exactly for a known id |
| Agents.AgentManager.GetDefaultAgent | src/agents/manager.py:171-175 | none while the default id is falsy or unknown, otherwise the agent stored under it |
| Agents.AgentManager.CreateAgent | src/agents/manager.py:181-204 | the agent is stored under its id, generated when absent, replacing any agent of that id; an unhashable id raises and changes nothing |
| Agents.AgentManager.RemoveAgent | src/agents/manager.py:206-214 | true and deleted exactly when present; otherwise false and nothing changes |
| Agents.AgentManager.ListAgents | src/agents/manager.py:216-218 | every agent id exactly once |
| Agents.AgentManager.ProcessMessageForUser | src/agents/manager.py:220-233 | with no default agent, the "No available agents" map and no processing; otherwise the default agent's reply |
| Agents.AgentManager.BroadcastMessage | src/agents/manager.py:235-250 | one entry per agent: its reply when processing succeeds, and otherwise a map of the exception's text under `error` and the time under `timestamp` |
| Agents.AgentManager.Shutdown | src/agents/manager.py:271-285 | every agent is dropped |

## Left out

- I/O of every kind: SQL text, the SQLite connection, JSON encoding and decoding, and
  `datetime.fromisoformat`. A table row holds what reading it back gives, timestamps
  are integer instants, and `Value.Iso` stands for an ISO string without spelling it out.
- The SQL `LIKE` test of `search_memory` is the parameter `likeMatch`. SQL's string
  matching is not modelled.
- `_create_tables` (src/memory/manager.py:72-109). Its only modelled effect is that it
  raises when the database cannot be opened.
- `get_daily_note` and `save_daily_note` (src/memory/manager.py:361-384), because they
  are file I/O.
- The read and write file tools and the shell itself (src/tools/builtin.py:17-67, 91-116).
  The shell is a parameter of `BuiltinTools.ExecRun`, and URL parsing is the `ParsedUrl`
  argument of `BuiltinTools.BrowserRun`.
- Tool replies that are JSON text are kept as the `Value` the tool serialises. The
  exception-to-text fallbacks of the mock tools cannot fire on the modelled inputs.
- `inspect.signature` reflection (src/tools/registry.py:39-57). A tool's parameters
  are given data.
- Concurrency. `asyncio.gather` in `start_listening`, `stop_listening` and the
  shutdowns runs the calls one after another, and every coroutine runs to completion
  without interleaving.
- Logging, and the timestamps and generated ids taken from the clock, which are
  parameters.
- The observers' own effects. An observer is data that says whether it raises. The
  gateway's default observers only log.
- A handler is modelled by what one call does: the argument as the handler leaves
  it, and what it returns or raises. A handler that keeps a reference to the message
  dict and changes it later is not captured. That includes a dict a mock channel has
  already queued as `extra`. Handlers are functions of their argument, so a handler
  whose own state changes its answer from one call to the next is not captured.
- `message_data.copy()` (src/channels/manager.py:315) is shallow, but the model copies
  the whole value. A pre-send handler that edits a nested dict in place changes the
  caller's `message_data` in the source. That edit then reaches later broadcast
  rounds, which Channels.ChannelManager.BroadcastMessage and Channels.ChannelManager.Round
  start again from the caller's unchanged message.
- The health checks of the channel manager, the channels and the agent manager. In the
  gateway they are the `health` parameter.
- `Agent.initialize`, `Agent.execute_tool` and `Agent.shutdown`, and the agents'
  `is_running`, `last_activity` and `created_at`. These only feed the agent manager's
  health report, which is not modelled either.
- `AgentManager.get_default_agent_id` is read as the field `defaultAgentId`.
- Agents.AgentManager.CreateAgent: the defaults are filled into a new map. The
  caller's `agent_config` dictionary is not updated in place, so aliasing of that
  dictionary is not captured.
- Memory.EvictOldest: entries with equal timestamps may be evicted in any order. The
  source breaks such ties by dictionary insertion order.
- Memory.MemoryManager.GetRecentInteractions, Memory.MemoryManager.SearchMemory and
  Channels.Channel.GetMessages:
  - limits are natural numbers in the memory store, so a negative SQL `LIMIT` or
    negative slice there is not modelled;
  - `get_messages` does take any integer.
- Memory.MemoryManager.CleanupExpiredEntries and Memory.ExpiredIdsOfCache: instants are integers and are read
  as whole seconds. `datetime(expires_at) < datetime(?)` (src/memory/manager.py:394)
  drops fractional seconds and converts UTC offsets before comparing, which the
  model does not capture.
- Text.Lower: lower-casing is ASCII only. Unicode case mapping is not modelled.
- Memory.BuildInteraction: SQLite type affinity is not modelled. The TEXT columns of
  src/memory/manager.py:74-99 also take ints, floats and booleans, and the `id` column
  takes NULL. The model refuses such values with "unsupported value", and the source
  inserts them.
- Memory.BuildInteractionOkIff: its success condition is the model's, so it leaves out
  the non-string column values that SQLite would store.
- Memory.MemoryManager.StoreInteraction: fails, leaving the table unchanged, on the
  column values `BuildInteraction` refuses, which the source would insert.
- Memory.BuildMemoryEntry: refuses values the source stores. `json.dumps(tags)` accepts
  any JSON value, such as None or a list of numbers, but the model takes only a list of
  strings (src/memory/manager.py:229). The model takes an importance only as an int or
  a float, so a bool, None or a string is refused. Its text columns have the same
  affinity gap as those of `BuildInteraction`.
- Memory.MemoryManager.StoreMemory: an importance of None or a string makes the source
  insert and commit the row first. Only then does `importance > 0.7`
  (src/memory/manager.py:236) raise TypeError. The model fails before the insert, so
  such a row is missing from its table.
- Memory.MemoryManager.constructor: `dbPath` is `memoryDir + "/memory.db"`. The path
  normalisation of `pathlib` (for `.`, an empty name or a trailing slash) is not
  modelled.
- Agents.Agent.ProcessMessage: the `Value.Iso` text that `isoformat()` returns is not
  accepted as message content, although in the source it is an ordinary `str`. The same
  holds for a channel id given to Channels.ChannelManager.SendMessage and for the text
  columns of Memory.BuildInteraction.
- Values.Render: `str()` is spelled out only for None, booleans, integers and strings.
  Other values render as a placeholder naming their type.
- Dictionary iteration order. Listings (`Collections.KeysOf`) and the broadcast and
  health loops leave the order open.
- The HTTP layer, the command-line entry point, configuration loading, the demo
  script and the generic channel transports, which are not part of this model.

=== FILE: agents.dfy ===
/** The agents of src/agents/manager.py: an agent answers a message with a
    canned reply chosen by keywords, and the agent manager keeps agents by
    id together with the id of the default agent. An agent's running flag
    and activity times only feed the health report and are not modelled. */
module Agents {
  import opened Wrappers
  import opened Values
  import opened Text
  import opened Collections

  /** The settings the agent manager reads. */
  datatype Settings = Settings(defaultModel: string, enabledTools: seq<string>, fallbackModels: seq<string>)

  /** The kinds of canned reply `_generate_response` chooses between. */
  datatype Intent = Greeting | Help | Clock | Name | Echo

  /** The keyword tests of `_generate_response`, in their order, on the
      lower-cased input; a keyword may sit inside a longer word. */
  function IntentOf(input: string): (intent: Intent)
    ensures var lower := Lower(input);
      var greets := Contains(lower, "hello") || Contains(lower, "hi") || Contains(lower, "hey");
      (intent == Greeting <==> greets) &&
      (intent == Help <==> !greets && Contains(lower, "help")) &&
      (intent == Clock <==> !greets && !Contains(lower, "help") && (Contains(lower, "time") || Contains(lower, "date"))) &&
      (intent == Name <==> !greets && !Contains(lower, "help") && !Contains(lower, "time") && !Contains(lower, "date") && Contains(lower, "name")) &&
      (intent == Echo <==> !greets && !Contains(lower, "help") && !Contains(lower, "time") && !Contains(lower, "date") && !Contains(lower, "name"))
  {
    var lower := Lower(input);
    if Contains(lower, "hello") || Contains(lower, "hi") || Contains(lower, "hey") then Greeting
    else if Contains(lower, "help") then Help
    else if Contains(lower, "time") || Contains(lower, "date") then Clock
    else if Contains(lower, "name") then Name
    else Echo
  }

  /** The choice ignores case. */
  lemma IntentIgnoresCase(input: string)
    ensures IntentOf(Lower(input)) == IntentOf(input)
  {
    LowerIdempotent(input);
  }

  /** Keywords match inside words: "which" contains "hi" and is greeted. */
  lemma WhichIsAGreeting()
    ensures IntentOf("which") == Greeting
  {
    var lower := Lower("which");
    assert lower == "which" by {
      assert forall i :: 0 <= i < 5 ==> lower[i] == LowerChar("which"[i]);
    }
    assert OccursAt(lower, "hi", 1);
    ContainsIff(lower, "hi");
  }

  const GreetingReply := "Hello there! I'm an AI agent powered by Clawdbot-Python. How can I assist you today?"
  const HelpReply :=
    "I'm an AI assistant. I can help with various tasks using my tools. " +
    "Try asking me to read a file, execute a command, or search the web."
  /** The echo reply is the message quoted between these two texts. */
  const EchoOpening := "I received your message: '"
  const EchoClosing :=
    "'. I'm an AI agent capable of using various tools. " +
    "I can read files, execute safe commands, search the web, and more. What would you like me to help you with?"

  /** `_generate_response` for agent `id`; `env.clockText` is the clock
      rendered with '%Y-%m-%d %H:%M:%S'. */
  function Respond(input: string, id: Value, env: Env): string
  {
    match IntentOf(input)
    case Greeting => GreetingReply
    case Help => HelpReply
    case Clock => "The current time is " + env.clockText + " UTC."
    case Name => "I'm an AI agent powered by Clawdbot-Python, running with ID " + Render(id) + "."
    case Echo => EchoOpening + input + EchoClosing
  }

  /** A message no keyword matches is quoted back in the reply. */
  lemma EchoQuotesInput(input: string, id: Value, env: Env)
    requires IntentOf(input) == Echo
    ensures Contains(Respond(input, id, env), input)
  {
    ContainsMiddle(EchoOpening, input, EchoClosing);
  }

  /** An agent: its id and its configuration. */
  datatype Agent = Agent(id: Value, config: Dict)
  {
    /** `process_message`: the content (default '') is sliced for the debug
        line and then lower-cased, so it must be a string. */
    function ProcessMessage(data: Dict, env: Env): (r: Result<Dict>)
      ensures var content := GetOr(data, "content", Str(""));
        (r.Ok? <==> content.Str?) &&
        (!Sliceable(content) ==> r == Err(SliceError(content))) &&
        (Sliceable(content) && !content.Str? ==> r == Err(NoAttributeError(content, "lower")))
    {
      var content := GetOr(data, "content", Str(""));
      if !Sliceable(content) then Err(SliceError(content))
      else if !content.Str? then Err(NoAttributeError(content, "lower"))
      else
        Ok(map["agent_id" := id, "response" := Str(Respond(content.s, id, env)),
               "timestamp" := Iso(env.now), "original_request" := Obj(data)])
    }

    /** A reply names the agent, carries the generated response and echoes
        the request. */
    lemma ProcessMessageReply(data: Dict, env: Env)
      requires ProcessMessage(data, env).Ok?
      ensures var reply := ProcessMessage(data, env).value; var content := GetOr(data, "content", Str(""));
        "agent_id" in reply && reply["agent_id"] == id &&
        "original_request" in reply && reply["original_request"] == Obj(data) &&
        "response" in reply && reply["response"] == Str(Respond(content.s, id, env))
    {
    }
  }

  const DefaultAgentId := "default-agent"
  const SecondaryAgentId := "secondary-agent"

  function StrList(names: seq<string>): (v: Value)
    ensures v.List? && |v.items| == |names|
  {
    List(Map(names, (s: string) => Str(s)))
  }

  /** The agent `initialize` creates as the default. */
  function DefaultAgent(settings: Settings): Agent
  {
    Agent(Str(DefaultAgentId), map[
      "id" := Str(DefaultAgentId), "name" := Str("Default Agent"), "model" := Str(settings.defaultModel),
      "capabilities" := StrList(settings.enabledTools), "temperature" := Real(0.7), "max_tokens" := Int(1000)])
  }

  /** The second agent `initialize` creates: it runs on the first fallback model. */
  function SecondaryAgent(settings: Settings): Agent
  {
    var model := if settings.fallbackModels != [] then settings.fallbackModels[0] else "gpt-3.5-turbo";
    Agent(Str(SecondaryAgentId), map[
      "id" := Str(SecondaryAgentId), "name" := Str("Secondary Agent"), "model" := Str(model),
      "capabilities" := StrList(settings.enabledTools), "temperature" := Real(0.5), "max_tokens" := Int(500)])
  }

  /** `create_agent`'s defaults: the given entries are kept, and a missing
      name, model or capability list is filled in. */
  function FilledConfig(config: Dict, id: Value, settings: Settings): (filled: Dict)
    ensures filled.Keys == config.Keys + {"name", "model", "capabilities"}
    ensures forall k :: k in config ==> filled[k] == config[k]
    ensures "name" !in config ==> filled["name"] == Str("Agent-" + Render(id))
    ensures "model" !in config ==> filled["model"] == Str(settings.defaultModel)
    ensures "capabilities" !in config ==> filled["capabilities"] == StrList(settings.enabledTools)
  {
    var named := if "name" in config then config else config["name" := Str("Agent-" + Render(id))];
    var modelled := if "model" in named then named else named["model" := Str(settings.defaultModel)];
    if "capabilities" in modelled then modelled else modelled["capabilities" := StrList(settings.enabledTools)]
  }

  /** The reply when no default agent is available. */
  function NoAgents(env: Env): Dict
  {
    map["error" := Str("No available agents"), "timestamp" := Iso(env.now)]
  }

  /** The agent manager: agents by id and the default agent's id. */
  class AgentManager {
    const settings: Settings
    var agents: map<Value, Agent>
    var defaultAgentId: Value

    /** Each agent is stored under its own (hashable) id. */
    ghost predicate Valid()
      reads this
    {
      Hashable(defaultAgentId) && forall k :: k in agents ==> Hashable(k) && agents[k].id == k
    }

    constructor (settings: Settings)
      ensures Valid() && this.settings == settings
      ensures agents == map[] && defaultAgentId == Null
    {
      this.settings := settings;
      agents := map[];
      defaultAgentId := Null;
    }

    /** `initialize`: the default agent, then the secondary one. */
    method Initialize()
      requires Valid()
      modifies this`agents, this`defaultAgentId
      ensures Valid()
      ensures agents == old(agents)[Str(DefaultAgentId) := DefaultAgent(settings)][Str(SecondaryAgentId) := SecondaryAgent(settings)]
      ensures defaultAgentId == Str(DefaultAgentId)
      ensures GetDefaultAgent() == Some(DefaultAgent(settings))
    {
      agents := agents[Str(DefaultAgentId) := DefaultAgent(settings)];
      defaultAgentId := Str(DefaultAgentId);
      agents := agents[Str(SecondaryAgentId) := SecondaryAgent(settings)];
    }

    /** `get_agent`. */
    function GetAgent(id: Value): (r: Option<Agent>)
      requires Hashable(id)
      reads this
      ensures r.Some? <==> id in agents
      ensures r.Some? ==> r.value == agents[id]
    {
      if id in agents then Some(agents[id]) else None
    }

    /** `get_default_agent`: none while the default id is falsy. */
    function GetDefaultAgent(): (r: Option<Agent>)
      requires Valid()
      reads this
      ensures r.Some? <==> Truthy(defaultAgentId) && defaultAgentId in agents
      ensures r.Some? ==> r.value == agents[defaultAgentId] && r.value.id == defaultAgentId
    {
      if Truthy(defaultAgentId) then GetAgent(defaultAgentId) else None
    }

    /** `create_agent`: the id defaults to a generated one; the agent is
        stored under it, replacing any agent of that id. An unhashable id
        raises when it is used as the dictionary key. */
    method CreateAgent(config: Dict, env: Env) returns (r: Result<Agent>)
      requires Valid()
      modifies this`agents
      ensures Valid()
      ensures var id := GetOr(config, "id", Str("agent_" + env.freshId));
        (r.Ok? <==> Hashable(id)) &&
        (r.Err? ==> r.error == UnhashableError(id) && agents == old(agents)) &&
        (r.Ok? ==> r.value == Agent(id, FilledConfig(config, id, settings)) && agents == old(agents)[id := r.value])
    {
      var id := GetOr(config, "id", Str("agent_" + env.freshId));
      var agent := Agent(id, FilledConfig(config, id, settings));
      if !Hashable(id) {
        return Err(UnhashableError(id));
      }
      agents := agents[id := agent];
      r := Ok(agent);
    }

    /** `remove_agent`: true and deleted when present, false and nothing
        changed otherwise. */
    method RemoveAgent(id: Value) returns (removed: bool)
      requires Valid() && Hashable(id)
      modifies this`agents
      ensures Valid()
      ensures removed <==> id in old(agents)
      ensures agents == old(agents) - {id}
      ensures !removed ==> agents == old(agents)
    {
      if id in agents {
        agents := agents - {id};
        return true;
      }
      return false;
    }

    /** `list_agents`. */
    method ListAgents() returns (ids: seq<Value>)
      ensures forall k :: k in ids <==> k in agents
      ensures Distinct(ids) && |ids| == |agents|
    {
      ids := KeysOf(agents);
    }

    /** `process_message_for_user`: the default agent answers; without
        one, an error map is returned and nothing is processed. */
    function ProcessMessageForUser(userId: string, data: Dict, env: Env): (r: Result<Dict>)
      requires Valid()
      reads this
      ensures GetDefaultAgent().None? ==> r == Ok(NoAgents(env))
      ensures GetDefaultAgent().Some? ==> r == agents[defaultAgentId].ProcessMessage(data, env)
    {
      match GetDefaultAgent()
      case None => Ok(NoAgents(env))
      case Some(agent) => agent.ProcessMessage(data, env)
    }

    /** `broadcast_message`: every agent's reply, or its exception as an
        error entry. */
    function BroadcastMessage(data: Dict, env: Env): (results: map<Value, Value>)
      reads this
      ensures results.Keys == agents.Keys
      ensures forall k :: k in results && agents[k].ProcessMessage(data, env).Ok? ==>
        results[k] == Obj(agents[k].ProcessMessage(data, env).value)
      ensures forall k :: k in results && agents[k].ProcessMessage(data, env).Err? ==>
        results[k] == Obj(map["error" := Str(agents[k].ProcessMessage(data, env).error), "timestamp" := Iso(env.now)])
    {
      map k | k in agents ::
        match agents[k].ProcessMessage(data, env)
        case Ok(reply) => Obj(reply)
        case Err(e) => Obj(map["error" := Str(e), "timestamp" := Iso(env.now)])
    }

    /** `shutdown`: every agent is dropped. */
    method Shutdown()
      requires Valid()
      modifies this`agents
      ensures Valid() && agents == map[]
    {
      agents := map[];
    }
  }
}

=== FILE: builtin.dfy ===
/** The pure parts of the built-in tools of src/tools/builtin.py: the shell
    tool's blocklist, the mock web search, the browser, message, gateway and
    sessions tools' replies. A reply is either plain text or a value that
    the tool serialises as JSON. */
module BuiltinTools {
  import opened Wrappers
  import opened Values
  import opened Text

  datatype Reply = Text(text: string) | Json(value: Value)

  /** The substrings that make `ExecTool` refuse a command, in checking order. */
  const DangerousPatterns: seq<string> := ["rm -rf", ">", "/dev/", "mv ", "dd "]

  /** `patterns[i]` occurs in `text` and no earlier pattern does. */
  ghost predicate FirstMatchAt(patterns: seq<string>, text: string, i: int)
  {
    0 <= i < |patterns| && Contains(text, patterns[i]) &&
    forall j :: 0 <= j < i ==> !Contains(text, patterns[j])
  }

  /** The first pattern, in list order, that occurs in `text`. */
  function FirstMatch(patterns: seq<string>, text: string): (r: Option<string>)
    ensures r.None? <==> forall i :: 0 <= i < |patterns| ==> !Contains(text, patterns[i])
    ensures r.Some? ==> exists i :: FirstMatchAt(patterns, text, i) && patterns[i] == r.value
  {
    if patterns == [] then None
    else if Contains(text, patterns[0]) then Some(patterns[0])
    else
      var r := FirstMatch(patterns[1..], text);
      assert forall i :: 1 <= i < |patterns| ==> patterns[i] == patterns[1..][i - 1];
      if r.Some? then
        assert exists i :: FirstMatchAt(patterns, text, i) && patterns[i] == r.value by {
          var i :| FirstMatchAt(patterns[1..], text, i) && patterns[1..][i] == r.value;
          assert FirstMatchAt(patterns, text, i + 1);
        }
        r
      else r
  }

  function Refusal(pattern: string): string
  {
    "Error: Dangerous command pattern detected: " + pattern
  }

  /** The blocklist check of `ExecTool.run`: the refusal, or None when the
      command may be handed to the shell. */
  function ExecGuard(command: string): (refusal: Option<string>)
    ensures refusal.None? <==> forall i :: 0 <= i < |DangerousPatterns| ==> !Contains(Lower(command), DangerousPatterns[i])
    ensures refusal.Some? ==>
      exists i :: FirstMatchAt(DangerousPatterns, Lower(command), i) && refusal.value == Refusal(DangerousPatterns[i])
  {
    match FirstMatch(DangerousPatterns, Lower(command))
    case Some(pattern) => Some(Refusal(pattern))
    case None => None
  }

  /** `ExecTool.run`; `shell` stands for running the command in a
      subprocess and rendering its output. */
  function ExecRun(command: string, shell: string -> string): string
  {
    match ExecGuard(command)
    case Some(refusal) => refusal
    case None => shell(command)
  }

  /** A refused command never reaches the shell: the reply is the same
      whatever the shell would have done. */
  lemma ExecRefusalIgnoresShell(command: string, shell1: string -> string, shell2: string -> string)
    requires ExecGuard(command).Some?
    ensures ExecRun(command, shell1) == ExecRun(command, shell2)
    ensures Contains(ExecRun(command, shell1), "Error: Dangerous command pattern detected: ")
  {
    ContainsPrefix("Error: Dangerous command pattern detected: ", ExecGuard(command).value[43..]);
    assert ExecGuard(command).value == "Error: Dangerous command pattern detected: " + ExecGuard(command).value[43..];
  }

  /** A command writing through a redirection is refused. */
  lemma RedirectionRefused(prefix: string, suffix: string)
    ensures ExecGuard(prefix + ">" + suffix).Some?
  {
    var lower := Lower(prefix + ">" + suffix);
    assert lower[|prefix|] == LowerChar('>') == '>';
    assert lower[|prefix|..|prefix| + 1] == ">";
    assert OccursAt(lower, ">", |prefix|);
    ContainsIff(lower, ">");
    assert DangerousPatterns[1] == ">";
  }

  /** One mock search hit for `query`. */
  function SearchHit(query: string): Value
  {
    Obj(map[
      "title" := Str("Mock result for " + query),
      "url" := Str("https://example.com"),
      "snippet" := Str("This is a mock search result for the query: " + query)])
  }

  /** `WebSearchTool.run`: `range(num_results)` is empty for a negative count. */
  function WebSearchRun(query: string, numResults: int): (r: Reply)
    ensures r.Json? && r.value.Obj? && "results" in r.value.fields && r.value.fields["results"].List?
    ensures |r.value.fields["results"].items| == if numResults < 0 then 0 else numResults
  {
    var n := if numResults < 0 then 0 else numResults;
    Json(Obj(map[
      "query" := Str(query),
      "num_results" := Int(numResults),
      "results" := List(seq(n, i => SearchHit(query)))]))
  }

  /** Every mock hit names the query in its title and its snippet. */
  lemma WebSearchHitsEmbedQuery(query: string, numResults: int, i: nat)
    requires i < |WebSearchRun(query, numResults).value.fields["results"].items|
    ensures var hit := WebSearchRun(query, numResults).value.fields["results"].items[i];
      hit.Obj? && "title" in hit.fields && "snippet" in hit.fields &&
      hit.fields["title"].Str? && Contains(hit.fields["title"].s, query) &&
      hit.fields["snippet"].Str? && Contains(hit.fields["snippet"].s, query)
  {
    ContainsSuffix("Mock result for ", query);
    ContainsSuffix("This is a mock search result for the query: ", query);
  }

  /** What `urlparse` extracts from a URL; parsing itself is not modelled. */
  datatype ParsedUrl = ParsedUrl(scheme: string, netloc: string)

  /** `BrowserTool.run`. */
  function BrowserRun(url: string, parsed: ParsedUrl, operation: string): (r: Reply)
    ensures parsed.scheme == "" || parsed.netloc == "" ==> r == Text("Error: Invalid URL format: " + url)
    ensures parsed.scheme != "" && parsed.netloc != "" ==>
      (r.Json? <==> operation == "get_content") &&
      (operation != "get_content" ==> r == Text("Operation '" + operation + "' not implemented in mock browser tool"))
  {
    if parsed.scheme == "" || parsed.netloc == "" then Text("Error: Invalid URL format: " + url)
    else if operation == "get_content" then
      Json(Obj(map[
        "url" := Str(url),
        "title" := Str("Mock page for " + parsed.netloc),
        "content_preview" := Str("This is a mock preview of the content at " + url),
        "status_code" := Int(200)]))
    else Text("Operation '" + operation + "' not implemented in mock browser tool")
  }

  /** `MessageTool.run`: nothing is sent; the reply reports the message length. */
  function MessageRun(channel: string, recipient: string, message: string): (r: Reply)
    ensures r.Json? && r.value.Obj? && "message_sent" in r.value.fields
    ensures r.value.fields["message_sent"] == Int(|message|)
  {
    Json(Obj(map[
      "channel" := Str(channel),
      "recipient" := Str(recipient),
      "message_sent" := Int(|message|),
      "status" := Str("mock_sent"),
      "timestamp" := Str("2024-01-29T04:30:00Z")]))
  }

  /** The operations `GatewayTool` implements. */
  const GatewayOperations: set<string> := {"status", "config_get"}

  /** `GatewayTool.run`. */
  function GatewayRun(operation: string): (r: Reply)
    ensures r.Json? <==> operation in GatewayOperations
    ensures operation !in GatewayOperations ==>
      r == Text("Operation '" + operation + "' not implemented in mock gateway tool")
  {
    if operation == "status" then
      Json(Obj(map[
        "status" := Str("running"),
        "uptime" := Str("1 hour"),
        "connected_channels" := List([Str("whatsapp"), Str("telegram")]),
        "active_agents" := Int(1),
        "memory_usage" := Str("128 MB"),
        "timestamp" := Str("2024-01-29T04:30:00Z")]))
    else if operation == "config_get" then
      Json(Obj(map[
        "server_host" := Str("0.0.0.0"),
        "server_port" := Int(8000),
        "log_level" := Str("INFO"),
        "workspace_dir" := Str("~/clawd"),
        "enabled_channels" := List([Str("whatsapp"), Str("telegram"), Str("discord")])]))
    else Text("Operation '" + operation + "' not implemented in mock gateway tool")
  }

  /** The operations `SessionsTool` implements. */
  const SessionsOperations: set<string> := {"list", "status"}

  function MockSession(id: string, user: string, channel: string, created: string, last: string, active: bool): Value
  {
    Obj(map[
      "session_id" := Str(id),
      "user_id" := Str(user),
      "channel" := Str(channel),
      "created_at" := Str(created),
      "last_activity" := Str(last),
      "active" := Bool(active)])
  }

  /** `SessionsTool.run`. */
  function SessionsRun(operation: string): (r: Reply)
    ensures r.Json? <==> operation in SessionsOperations
    ensures operation == "list" ==> r.value.List? && |r.value.items| == 2
    ensures operation !in SessionsOperations ==>
      r == Text("Operation '" + operation + "' not implemented in mock sessions tool")
  {
    if operation == "list" then
      Json(List([
        MockSession("session_001", "user_123", "whatsapp", "2024-01-29T04:00:00Z", "2024-01-29T04:30:00Z", true),
        MockSession("session_002", "user_456", "telegram", "2024-01-29T03:45:00Z", "2024-01-29T04:15:00Z", false)]))
    else if operation == "status" then
      Json(Obj(map[
        "total_sessions" := Int(2),
        "active_sessions" := Int(1),
        "recent_messages" := Int(15),
        "timestamp" := Str("2024-01-29T04:30:00Z")]))
    else Text("Operation '" + operation + "' not implemented in mock sessions tool")
  }
}

=== FILE: channels.dfy ===
/** The channel layer of src/channels/manager.py: channels that deliver
    messages (a mock channel that records what it sends and three
    placeholder transports that only acknowledge), and the manager that
    creates them under derived ids, runs the pre-send handler chain,
    works out recipient and text, and broadcasts to running channels.

    A message dictionary is a `Dict`; the fields a handler or caller puts
    in it are arbitrary `Value`s, so the places where Python would raise on
    a value of the wrong type (a non-dict after the handlers, an unhashable
    recipient, a text that cannot be sliced) are modelled as `Err`. */
module Channels {
  import opened Wrappers
  import opened Values
  import opened Text
  import opened Collections

  /** The concrete channel classes; `create_channel` picks one by type name. */
  datatype ChannelKind = WhatsApp | Telegram | Discord | Mock

  /** `create_channel`'s dispatch: unknown type names give a mock channel. */
  function KindOf(channelType: string): (kind: ChannelKind)
    ensures kind.Mock? <==> channelType !in {"whatsapp", "telegram", "discord"}
  {
    if channelType == "whatsapp" then WhatsApp
    else if channelType == "telegram" then Telegram
    else if channelType == "discord" then Discord
    else Mock
  }

  /** `f"{channel_type}_channel_{len(self.channels)}"`. */
  function ChannelId(channelType: string, n: nat): string
  {
    channelType + "_channel_" + NatToString(n)
  }

  /** The counter part of a derived id determines it: the numeral is the
      digit run after the last `_`, whatever the type name contains. */
  lemma ChannelIdInjective(t1: string, n1: nat, t2: string, n2: nat)
    requires ChannelId(t1, n1) == ChannelId(t2, n2)
    ensures n1 == n2
  {
    var id := ChannelId(t1, n1);
    var s1, s2 := NatToString(n1), NatToString(n2);
    NatToStringDigits(n1);
    NatToStringDigits(n2);
    // the `_` before each spelling's numeral sits where the other has a digit
    assert id[|id| - |s1| - 1] == '_';
    assert ChannelId(t2, n2)[|id| - |s2| - 1] == '_';
    if |s1| != |s2| {
      assert false;
    } else {
      assert s1 == id[|id| - |s1|..] == s2;
      NatToStringInjective(n1, n2);
    }
  }

  /** The default configuration `create_channel` gives every channel. */
  function DefaultConfig(channelType: string): Dict
  {
    map["type" := Str(channelType), "enabled" := Bool(true), "rate_limit" := Int(30), "timeout" := Int(30)]
  }

  /** The most messages a mock channel keeps before trimming, and how many
      it keeps when it trims. */
  const QueueLimit := 100
  const QueueKeep := 50

  /** One `message_obj` of the mock channel's queue. */
  datatype SentMessage = SentMessage(id: string, recipient: Value, message: Value, timestamp: Value, channelId: string, extra: Dict)

  /** The queue after an append: longer than 100, it is cut to its last 50. */
  function Trimmed(q: seq<SentMessage>): (r: seq<SentMessage>)
    ensures |r| <= |q| && r == q[|q| - |r|..]
    ensures |q| <= QueueLimit ==> r == q
    ensures |q| > QueueLimit ==> |r| == QueueKeep
  {
    if |q| > QueueLimit then q[|q| - QueueKeep..] else q
  }

  /** `q[-limit:]` with Python's slice rules: a positive limit keeps the
      last `limit` items, zero keeps everything (`[-0:]` is `[0:]`), and a
      negative limit drops the first `-limit` items. */
  function LastItems<T>(q: seq<T>, limit: int): (r: seq<T>)
    ensures |r| <= |q| && r == q[|q| - |r|..]
    ensures limit > 0 ==> |r| == if limit < |q| then limit else |q|
    ensures limit == 0 ==> r == q
    ensures limit < 0 ==> |r| == if -limit < |q| then |q| + limit else 0
  {
    var start := -limit;
    if start < 0 then (if |q| + start < 0 then q else q[|q| + start..])
    else if start < |q| then q[start..]
    else []
  }

  /** The message just sent is the one `get_messages(1)` reports, however
      full the queue was. */
  lemma LatestMessage(q: seq<SentMessage>, m: SentMessage)
    ensures LastItems(Trimmed(q + [m]), 1) == [m]
  {
    var t := Trimmed(q + [m]);
    assert t[|t| - 1] == m;
  }

  /** The reply of a channel's `send_message`, or the error it raises:
      the mock channel adds the recipient to a set first, and every channel
      slices the text for its debug line. */
  function ChannelReply(kind: ChannelKind, id: string, recipient: Value, message: Value, env: Env): Result<Dict>
  {
    if kind.Mock? && !Hashable(recipient) then Err(UnhashableError(recipient))
    else if !Sliceable(message) then Err(SliceError(message))
    else
      match kind
      case Mock =>
        Ok(map["success" := Bool(true), "message_id" := Str("msg_" + env.freshId),
               "sent_at" := Iso(env.now), "channel" := Str(id)])
      case _ =>
        var prefix := match kind case WhatsApp => "wa_msg_" case Telegram => "tg_msg_" case _ => "dc_msg_";
        Ok(map["success" := Bool(true), "message_id" := Str(prefix + env.freshId),
               "sent_at" := Iso(env.now), "channel" := Str(id), "recipient" := recipient])
  }

  /** A channel's send fails exactly on an unhashable recipient (mock
      channel only) or a text that does not slice; a reply always reports
      success and names the channel, and a placeholder's names the recipient. */
  lemma ChannelReplySpec(kind: ChannelKind, id: string, recipient: Value, message: Value, env: Env)
    ensures var r := ChannelReply(kind, id, recipient, message, env);
      (r.Ok? <==> (kind.Mock? ==> Hashable(recipient)) && Sliceable(message)) &&
      (kind.Mock? && !Hashable(recipient) ==> r == Err(UnhashableError(recipient))) &&
      (r.Ok? ==> "success" in r.value && r.value["success"] == Bool(true)) &&
      (r.Ok? ==> "channel" in r.value && r.value["channel"] == Str(id)) &&
      (r.Ok? && !kind.Mock? ==> "recipient" in r.value && r.value["recipient"] == recipient)
  {
  }

  /** A channel. Only the mock channel has a queue and a recipient set;
      the placeholder transports keep theirs empty. */
  class Channel {
    const id: string
    const channelType: string
    const kind: ChannelKind
    const config: Dict
    /** The value of `len(self.channels)` the id was derived from. */
    ghost const serial: nat
    var running: bool
    var queue: seq<SentMessage>
    var recipients: set<Value>

    /** The queue stays bounded, and whoever a queued message went to is
        among the recorded recipients. */
    ghost predicate Valid()
      reads this`queue, this`recipients
    {
      |queue| <= QueueLimit &&
      (forall i :: 0 <= i < |queue| ==> queue[i].recipient in recipients) &&
      (!kind.Mock? ==> queue == [] && recipients == {})
    }

    constructor (channelId: string, channelType: string, ghost serial: nat)
      ensures Valid()
      ensures id == channelId && this.channelType == channelType && kind == KindOf(channelType)
      ensures config == DefaultConfig(channelType) && this.serial == serial
      ensures !running && queue == [] && recipients == {}
    {
      id := channelId;
      this.channelType := channelType;
      kind := KindOf(channelType);
      config := DefaultConfig(channelType);
      this.serial := serial;
      running := false;
      queue := [];
      recipients := {};
    }

    /** The channel was made for `channelType`: its kind and configuration
        are the ones that type name selects. */
    predicate MadeFor(channelType: string)
    {
      this.channelType == channelType && kind == KindOf(channelType) && config == DefaultConfig(channelType)
    }

    /** `start`. */
    method Start()
      modifies this`running
      ensures running
    {
      running := true;
    }

    /** `stop`. */
    method Stop()
      modifies this`running
      ensures !running
    {
      running := false;
    }

    /** `send_message`. The mock channel records the recipient, queues the
        message and trims the queue before it slices the text, so a text
        that does not slice raises after the message has been queued. */
    method SendMessage(recipient: Value, message: Value, extra: Dict, env: Env) returns (r: Result<Dict>)
      requires Valid()
      modifies this`queue, this`recipients
      ensures Valid()
      ensures r == ChannelReply(kind, id, recipient, message, env)
      ensures kind.Mock? && Hashable(recipient) ==>
        recipients == old(recipients) + {recipient} &&
        queue == Trimmed(old(queue) + [SentMessage("msg_" + env.freshId, recipient, message, Iso(env.now), id, extra)])
      ensures !(kind.Mock? && Hashable(recipient)) ==> queue == old(queue) && recipients == old(recipients)
    {
      if kind.Mock? {
        if !Hashable(recipient) {
          return Err(UnhashableError(recipient));
        }
        recipients := recipients + {recipient};
        var sent := SentMessage("msg_" + env.freshId, recipient, message, Iso(env.now), id, extra);
        queue := queue + [sent];
        if |queue| > QueueLimit {
          queue := queue[|queue| - QueueKeep..];
        }
      }
      if !Sliceable(message) {
        return Err(SliceError(message));
      }
      r := ChannelReply(kind, id, recipient, message, env);
    }

    /** `MockChannel.get_messages`. */
    function GetMessages(limit: int): (r: seq<SentMessage>)
      requires kind.Mock?
      reads this
      ensures r == LastItems(queue, limit)
      ensures forall i :: 0 <= i < |r| ==> r[i] in queue
    {
      LastItems(queue, limit)
    }
  }

  /** What one call of a handler does: `edited` is its argument as the
      handler leaves it (a dict may be changed in place), `outcome` what it
      returns or the exception it raises. */
  datatype Run = Run(edited: Value, outcome: Result<Value>)

  /** A message handler; `call` stands for the coroutine. */
  datatype Handler = Handler(name: string, call: Value -> Run)

  /** The handlers change no argument in place. */
  ghost predicate EditsNothing(handlers: seq<Handler>)
  {
    forall i, w :: 0 <= i < |handlers| ==> handlers[i].call(w).edited == w
  }

  /** One step of the pre-send loop: the message becomes what the handler
      returns, or, when it raises, stays the object it was given, with
      whatever the handler changed in it before raising. */
  function ApplyHandler(h: Handler, v: Value): Value
  {
    var run := h.call(v);
    match run.outcome
    case Ok(w) => w
    case Err(_) => run.edited
  }

  /** The pre-send handlers applied in order to the message. */
  function PreSend(handlers: seq<Handler>, v: Value): Value
  {
    if handlers == [] then v else PreSend(handlers[1..], ApplyHandler(handlers[0], v))
  }

  /** Running one more handler after a chain applies it to the chain's result. */
  lemma {:induction false} PreSendSnoc(handlers: seq<Handler>, h: Handler, v: Value)
    ensures PreSend(handlers + [h], v) == ApplyHandler(h, PreSend(handlers, v))
  {
    if handlers != [] {
      assert (handlers + [h])[1..] == handlers[1..] + [h];
      PreSendSnoc(handlers[1..], h, ApplyHandler(handlers[0], v));
    }
  }

  /** The in-place edits of `handlers` alone, made in order. */
  function Edits(handlers: seq<Handler>, v: Value): Value
  {
    if handlers == [] then v else Edits(handlers[1..], handlers[0].call(v).edited)
  }

  /** Handlers that all raise leave the message as their in-place edits
      made it, and untouched when they edit nothing. */
  lemma {:induction false} PreSendAllRaise(handlers: seq<Handler>, v: Value)
    requires forall i, w :: 0 <= i < |handlers| ==> handlers[i].call(w).outcome.Err?
    ensures PreSend(handlers, v) == Edits(handlers, v)
    ensures EditsNothing(handlers) ==> PreSend(handlers, v) == v
  {
    if handlers != [] {
      PreSendAllRaise(handlers[1..], handlers[0].call(v).edited);
      if EditsNothing(handlers) {
        assert handlers[0].call(v).edited == v;
        assert EditsNothing(handlers[1..]) by {
          forall i, w | 0 <= i < |handlers[1..]|
            ensures handlers[1..][i].call(w).edited == w
          {
            assert handlers[1..][i] == handlers[i + 1];
          }
        }
      }
    }
  }

  /** One step of the post-send loop: the handler is given the reply and may
      change it in place; what it returns or raises is dropped. A dict
      changed in place is still a dict, so a run that reports any other
      value is read as leaving the reply as it was. */
  function EditReply(h: Handler, reply: Dict): Dict
  {
    var edited := h.call(Obj(reply)).edited;
    if edited.Obj? then edited.fields else reply
  }

  /** The post-send handlers applied in order to the reply. */
  function PostSend(handlers: seq<Handler>, reply: Dict): Dict
  {
    if handlers == [] then reply else PostSend(handlers[1..], EditReply(handlers[0], reply))
  }

  /** Running one more handler after a chain lets it edit the chain's result. */
  lemma {:induction false} PostSendSnoc(handlers: seq<Handler>, h: Handler, reply: Dict)
    ensures PostSend(handlers + [h], reply) == EditReply(h, PostSend(handlers, reply))
  {
    if handlers != [] {
      assert (handlers + [h])[1..] == handlers[1..] + [h];
      PostSendSnoc(handlers[1..], h, EditReply(handlers[0], reply));
    }
  }

  /** Post-send handlers change the reply only by editing it in place:
      handlers that edit nothing leave it as the channel made it, whatever
      they return or raise. */
  lemma {:induction false} PostSendEditsOnly(handlers: seq<Handler>, reply: Dict)
    ensures EditsNothing(handlers) ==> PostSend(handlers, reply) == reply
  {
    if handlers != [] && EditsNothing(handlers) {
      assert EditReply(handlers[0], reply) == reply by {
        assert handlers[0].call(Obj(reply)).edited == Obj(reply);
      }
      assert EditsNothing(handlers[1..]) by {
        forall i, w | 0 <= i < |handlers[1..]|
          ensures handlers[1..][i].call(w).edited == w
        {
          assert handlers[1..][i] == handlers[i + 1];
        }
      }
      PostSendEditsOnly(handlers[1..], reply);
    }
  }

  /** The reply `send_message` returns once the post-send handlers have run
      on the channel's reply; they do not run when the channel raised. */
  function AfterPostSend(handlers: seq<Handler>, r: Result<Dict>): Result<Dict>
  {
    match r
    case Ok(reply) => Ok(PostSend(handlers, reply))
    case Err(e) => Err(e)
  }

  /** `processed.get('recipient_id') or processed.get('user_id', 'unknown')`. */
  function RecipientOf(fields: Dict): (r: Value)
    ensures "recipient_id" in fields && Truthy(fields["recipient_id"]) ==> r == fields["recipient_id"]
    ensures !("recipient_id" in fields && Truthy(fields["recipient_id"])) ==>
      r == (if "user_id" in fields then fields["user_id"] else Str("unknown"))
  {
    var direct := Get(fields, "recipient_id");
    if Truthy(direct) then direct else GetOr(fields, "user_id", Str("unknown"))
  }

  /** `processed.get('text', processed.get('message', ''))`. */
  function TextOf(fields: Dict): (r: Value)
    ensures "text" in fields ==> r == fields["text"]
    ensures "text" !in fields ==> r == (if "message" in fields then fields["message"] else Str(""))
  {
    GetOr(fields, "text", GetOr(fields, "message", Str("")))
  }

  /** What the manager's `send_message` returns for a known channel, given
      the message after the pre-send handlers. */
  function Delivery(kind: ChannelKind, id: string, processed: Value, env: Env): Result<Dict>
  {
    if !processed.Obj? then Err(NoAttributeError(processed, "get"))
    else ChannelReply(kind, id, RecipientOf(processed.fields), TextOf(processed.fields), env)
  }

  /** The queue and recipient set channel `id` of `kind` holds after it is
      sent `processed`, from `queue` and `recipients`: a mock channel given a
      dict with a hashable recipient records the recipient and queues the
      message, trimming the queue; in every other case both stay as they were. */
  function AfterDelivery(kind: ChannelKind, id: string, processed: Value, env: Env,
                         queue: seq<SentMessage>, recipients: set<Value>): (seq<SentMessage>, set<Value>)
  {
    if processed.Obj? && kind.Mock? && Hashable(RecipientOf(processed.fields)) then
      var recipient := RecipientOf(processed.fields);
      (Trimmed(queue + [SentMessage("msg_" + env.freshId, recipient, TextOf(processed.fields), Iso(env.now), id, processed.fields)]),
       recipients + {recipient})
    else
      (queue, recipients)
  }

  /** A plain message, a dict whose recipient and text are strings, is
      delivered by every kind of channel. */
  lemma PlainMessageDelivered(kind: ChannelKind, id: string, data: Dict, env: Env)
    requires "text" in data && data["text"].Str?
    requires "recipient_id" in data && data["recipient_id"].Str? && data["recipient_id"].s != ""
    ensures Delivery(kind, id, Obj(data), env).Ok?
  {
    ChannelReplySpec(kind, id, RecipientOf(data), TextOf(data), env);
  }

  /** The failure dictionary for an unknown channel id. */
  function NotFound(channelId: string, env: Env): Dict
  {
    map["success" := Bool(false), "error" := Str("Channel " + channelId + " not found"), "timestamp" := Iso(env.now)]
  }

  /** A broadcast entry: the channel's reply, or the exception captured as a failure. */
  function BroadcastEntry(r: Result<Dict>, env: Env): Value
  {
    match r
    case Ok(reply) => Obj(reply)
    case Err(e) => Obj(map["success" := Bool(false), "error" := Str(e), "timestamp" := Iso(env.now)])
  }

  /** A broadcast entry holds the reply as the post-send handlers left it
      when sending to that channel did not raise, and otherwise a failure
      carrying the exception's text. When the post-send handlers edit
      nothing, the entry reports success exactly when the send did not raise. */
  lemma BroadcastEntrySuccess(kind: ChannelKind, id: string, processed: Value, post: seq<Handler>, env: Env)
    ensures var d := Delivery(kind, id, processed, env); var v := BroadcastEntry(AfterPostSend(post, d), env);
      v.Obj? &&
      (d.Ok? ==> v.fields == PostSend(post, d.value)) &&
      (d.Err? ==> "success" in v.fields && v.fields["success"] == Bool(false) &&
                  "error" in v.fields && v.fields["error"] == Str(d.error)) &&
      (EditsNothing(post) ==> "success" in v.fields && (v.fields["success"] == Bool(true) <==> d.Ok?))
  {
    var d := Delivery(kind, id, processed, env);
    if d.Ok? {
      PostSendEditsOnly(post, d.value);
      ChannelReplySpec(kind, id, RecipientOf(processed.fields), TextOf(processed.fields), env);
    }
  }

  /** Channel `c` is stored under its own id, derived from a count below
      `count`, and keeps its own invariant. */
  ghost predicate Entry(k: string, c: Channel, count: nat)
    reads c`queue, c`recipients
  {
    c.id == k && k == ChannelId(c.channelType, c.serial) && c.serial < count && c.Valid()
  }

  /** The first `count` types of `types` each have a channel in `channels`,
      made for that type and stored under the id derived from `n` plus its
      position. */
  ghost predicate Created(channels: map<string, Channel>, types: seq<string>, n: nat, count: nat)
  {
    count <= |types| &&
    forall j :: 0 <= j < count ==>
      ChannelId(types[j], n + j) in channels && channels[ChannelId(types[j], n + j)].MadeFor(types[j])
  }

  /** Storing the channel made for the next type under a new key extends `Created` by one. */
  lemma CreatedGrows(channels: map<string, Channel>, c: Channel, types: seq<string>, n: nat, count: nat)
    requires Created(channels, types, n, count) && count < |types| && c.id !in channels
    requires c.id == ChannelId(types[count], n + count) && c.MadeFor(types[count])
    ensures Created(channels[c.id := c], types, n, count + 1)
  {
    forall j | 0 <= j < count
      ensures ChannelId(types[j], n + j) != c.id
    {
      assert ChannelId(types[j], n + j) in channels;
    }
  }

  /** The handler lists the manager starts with. */
  const HandlerEvents: seq<string> := ["pre_receive", "post_receive", "pre_send", "post_send"]

  /** The channel manager: channels by id, and handler lists by event. */
  class ChannelManager {
    var channels: map<string, Channel>
    var handlers: map<string, seq<Handler>>
    const enabledChannels: seq<string>
    /** The channel objects the manager may update. */
    ghost var Repr: set<Channel>

    /** Each channel is stored under its own id, which was derived from a
        count below the present number of channels; the pre-send and
        post-send lists exist. */
    ghost predicate Valid()
      reads this`channels, this`handlers, this`Repr, Repr`queue, Repr`recipients
    {
      "pre_send" in handlers && "post_send" in handlers &&
      forall k :: k in channels ==> channels[k] in Repr && Entry(k, channels[k], |channels|)
    }

    constructor (enabledChannels: seq<string>)
      ensures Valid()
      ensures channels == map[] && this.enabledChannels == enabledChannels
      ensures handlers == map["pre_receive" := [], "post_receive" := [], "pre_send" := [], "post_send" := []]
    {
      channels := map[];
      handlers := map["pre_receive" := [], "post_receive" := [], "pre_send" := [], "post_send" := []];
      Repr := {};
      this.enabledChannels := enabledChannels;
    }

    /** `create_channel`: the derived id is never one already in use, so
        a new channel is added and none is replaced. */
    method CreateChannel(channelType: string) returns (c: Channel)
      requires Valid()
      modifies this`channels, this`Repr
      ensures Valid() && fresh(c) && Repr == old(Repr) + {c}
      ensures c.id == ChannelId(channelType, |old(channels)|) && c.serial == |old(channels)| && c.id !in old(channels)
      ensures channels == old(channels)[c.id := c]
      ensures |channels| == |old(channels)| + 1
      ensures c.MadeFor(channelType) && c.running && c.queue == [] && c.recipients == {}
    {
      var n := |channels|;
      var id := ChannelId(channelType, n);
      if id in channels {
        ChannelIdInjective(channelType, n, channels[id].channelType, channels[id].serial);
        assert false;
      }
      assert forall k :: k in channels ==> Entry(k, channels[k], n + 1);
      c := new Channel(id, channelType, n);
      channels := channels[id := c];
      Repr := Repr + {c};
      c.Start();
      assert Entry(id, c, n + 1);
    }

    /** `initialize`: one channel per enabled type, then a mock channel,
        each under the id derived from the count of channels before it;
        none replaces another. */
    method Initialize()
      requires Valid()
      modifies this`channels, this`Repr
      ensures Valid()
      ensures forall k :: k in old(channels) ==> k in channels && channels[k] == old(channels)[k]
      ensures |channels| == |old(channels)| + |enabledChannels| + 1
      ensures Created(channels, enabledChannels + ["mock"], |old(channels)|, |enabledChannels| + 1)
    {
      // the enabled types, then the mock channel that is always added
      var types := enabledChannels + ["mock"];
      ghost var start := channels;
      var i := 0;
      while i < |types|
        invariant 0 <= i <= |types|
        invariant Valid()
        invariant forall k :: k in start ==> k in channels && channels[k] == start[k]
        invariant |channels| == |start| + i
        invariant Created(channels, types, |start|, i)
      {
        CreateNext(types, |start|, i);
        i := i + 1;
      }
    }

    /** One step of `initialize`: the channel for `types[i]` is added
        under the next id and every earlier channel stays. */
    method CreateNext(types: seq<string>, ghost n: nat, i: nat)
      requires Valid() && i < |types| && |channels| == n + i && Created(channels, types, n, i)
      modifies this`channels, this`Repr
      ensures Valid() && |channels| == n + i + 1 && Created(channels, types, n, i + 1)
      ensures forall k :: k in old(channels) ==> k in channels && channels[k] == old(channels)[k]
    {
      ghost var before := channels;
      var c := CreateChannel(types[i]);
      CreatedGrows(before, c, types, n, i);
    }

    /** `get_channel`. */
    function GetChannel(channelId: string): (r: Option<Channel>)
      reads this
      ensures r.Some? <==> channelId in channels
      ensures r.Some? ==> r.value == channels[channelId]
    {
      if channelId in channels then Some(channels[channelId]) else None
    }

    /** The pre-send loop. */
    method RunPreSend(data: Dict) returns (processed: Value)
      requires "pre_send" in handlers
      ensures processed == PreSend(handlers["pre_send"], Obj(data))
    {
      var chain := handlers["pre_send"];
      processed := Obj(data);
      var i := 0;
      while i < |chain|
        invariant 0 <= i <= |chain|
        invariant processed == PreSend(chain[..i], Obj(data))
      {
        PreSendSnoc(chain[..i], chain[i], Obj(data));
        assert chain[..i + 1] == chain[..i] + [chain[i]];
        var run := chain[i].call(processed);
        if run.outcome.Ok? {
          processed := run.outcome.value;
        } else {
          processed := run.edited;
        }
        i := i + 1;
      }
      assert chain[..i] == chain;
    }

    /** The post-send loop over the channel's reply. */
    method RunPostSend(reply: Dict) returns (edited: Dict)
      requires "post_send" in handlers
      ensures edited == PostSend(handlers["post_send"], reply)
    {
      var chain := handlers["post_send"];
      edited := reply;
      var i := 0;
      while i < |chain|
        invariant 0 <= i <= |chain|
        invariant edited == PostSend(chain[..i], reply)
      {
        PostSendSnoc(chain[..i], chain[i], reply);
        assert chain[..i + 1] == chain[..i] + [chain[i]];
        var run := chain[i].call(Obj(edited));
        if run.edited.Obj? {
          edited := run.edited.fields;
        }
        i := i + 1;
      }
      assert chain[..i] == chain;
    }

    /** The channel a `send_message` for `channelId` goes to, if any. */
    function Target(channelId: Value): (r: Option<string>)
      reads this
      ensures r.Some? ==> r.value in channels
    {
      if channelId.Str? && channelId.s in channels then Some(channelId.s) else None
    }

    /** What `send_message` returns for `channelId` in the present state:
        an unhashable id raises in the dictionary lookup, an unknown one is
        answered with a failure, and a known one with what its channel says
        about the message after the pre-send handlers, as the post-send
        handlers leave that reply. */
    function Reply(channelId: Value, data: Dict, env: Env): Result<Dict>
      requires "pre_send" in handlers && "post_send" in handlers
      reads this
    {
      if !Hashable(channelId) then Err(UnhashableError(channelId))
      else match Target(channelId)
        case None => Ok(NotFound(Render(channelId), env))
        case Some(k) => AfterPostSend(handlers["post_send"], Delivery(channels[k].kind, k, PreSend(handlers["pre_send"], Obj(data)), env))
    }

    /** `send_message`: an unknown id is answered without running any
        handler; otherwise the pre-send handlers run, the channel sends,
        and the post-send handlers may edit its reply in place; no other
        channel changes. */
    method SendMessage(channelId: Value, data: Dict, env: Env) returns (r: Result<Dict>)
      requires Valid()
      modifies Repr`queue, Repr`recipients
      ensures Valid()
      ensures r == old(Reply(channelId, data, env))
      ensures Target(channelId).Some? ==>
        var c := channels[Target(channelId).value];
        (c.queue, c.recipients) == AfterDelivery(c.kind, c.id, PreSend(handlers["pre_send"], Obj(data)), env, old(c.queue), old(c.recipients))
      ensures forall c :: c in Repr && (Target(channelId).None? || c != channels[Target(channelId).value]) ==>
        c.queue == old(c.queue) && c.recipients == old(c.recipients)
    {
      if !Hashable(channelId) {
        return Err(UnhashableError(channelId));
      }
      var target := Target(channelId);
      if target.None? {
        return Ok(NotFound(Render(channelId), env));
      }
      r := SendThrough(channels[target.value], data, env);
    }

    /** The send once the channel `c` is known: the pre-send handlers, the
        channel's own `send_message` with the recipient and text fallbacks,
        then the post-send handlers on its reply. Only `c` changes. */
    method SendThrough(c: Channel, data: Dict, env: Env) returns (r: Result<Dict>)
      requires "pre_send" in handlers && "post_send" in handlers && c.Valid()
      modifies c`queue, c`recipients
      ensures c.Valid()
      ensures r == AfterPostSend(handlers["post_send"], Delivery(c.kind, c.id, PreSend(handlers["pre_send"], Obj(data)), env))
      ensures (c.queue, c.recipients) == AfterDelivery(c.kind, c.id, PreSend(handlers["pre_send"], Obj(data)), env, old(c.queue), old(c.recipients))
    {
      var processed := RunPreSend(data);
      if !processed.Obj? {
        return Err(NoAttributeError(processed, "get"));
      }
      r := c.SendMessage(RecipientOf(processed.fields), TextOf(processed.fields), processed.fields, env);
      if r.Ok? {
        var reply := RunPostSend(r.value);
        r := Ok(reply);
      }
    }

    /** One round of the broadcast loop: send to channel `k`, catching what it raises. */
    method BroadcastTo(k: string, data: Dict, env: Env) returns (entry: Value)
      requires Valid() && k in channels
      modifies Repr`queue, Repr`recipients
      ensures Valid()
      ensures entry == BroadcastEntry(AfterPostSend(handlers["post_send"], Delivery(channels[k].kind, k, PreSend(handlers["pre_send"], Obj(data)), env)), env)
      ensures (channels[k].queue, channels[k].recipients) ==
        AfterDelivery(channels[k].kind, k, PreSend(handlers["pre_send"], Obj(data)), env, old(channels[k].queue), old(channels[k].recipients))
      ensures forall k' :: k' in channels && k' != k ==>
        channels[k'].queue == old(channels[k'].queue) && channels[k'].recipients == old(channels[k'].recipients)
    {
      assert Reply(Str(k), data, env) == AfterPostSend(handlers["post_send"], Delivery(channels[k].kind, k, PreSend(handlers["pre_send"], Obj(data)), env));
      var r := SendMessage(Str(k), data, env);
      entry := BroadcastEntry(r, env);
      forall k' | k' in channels && k' != k
        ensures channels[k'] != channels[k]
      {
        assert channels[k'].id != channels[k].id;
      }
    }

    /** `broadcast_message`: one entry per running channel, holding the
        reply or the exception captured as a failure. */
    method BroadcastMessage(data: Dict, env: Env) returns (results: map<string, Value>)
      requires Valid()
      modifies Repr`queue, Repr`recipients
      ensures Valid()
      ensures forall k :: k in results <==> k in channels && channels[k].running
      ensures forall k :: k in results ==>
        results[k] == BroadcastEntry(AfterPostSend(handlers["post_send"], Delivery(channels[k].kind, k, PreSend(handlers["pre_send"], Obj(data)), env)), env)
      ensures forall k :: k in results ==>
        (channels[k].queue, channels[k].recipients) ==
        AfterDelivery(channels[k].kind, k, PreSend(handlers["pre_send"], Obj(data)), env, old(channels[k].queue), old(channels[k].recipients))
      ensures forall k :: k in channels && k !in results ==>
        channels[k].queue == old(channels[k].queue) && channels[k].recipients == old(channels[k].recipients)
    {
      var live := set k | k in channels && channels[k].running;
      ghost var queues := map k | k in channels :: channels[k].queue;
      ghost var seen := map k | k in channels :: channels[k].recipients;
      BroadcastStarts(PreSend(handlers["pre_send"], Obj(data)), handlers["post_send"], env, queues, seen);
      results := SendToEach(live, data, env, queues, seen);
      BroadcastEnds(live, results, PreSend(handlers["pre_send"], Obj(data)), handlers["post_send"], env, queues, seen);
    }

    /** Before the first round, every channel holds what `queues` and `seen` record. */
    lemma BroadcastStarts(processed: Value, post: seq<Handler>, env: Env,
                          queues: map<string, seq<SentMessage>>, seen: map<string, set<Value>>)
      requires forall k :: k in channels ==>
        k in queues && k in seen && queues[k] == channels[k].queue && seen[k] == channels[k].recipients
      ensures Broadcast({}, map[], processed, post, env, queues, seen)
    {
    }

    /** After the rounds over `done`: the entries are those of `done`, each
        channel in `done` has been sent `processed` once, and every other
        channel still holds what `queues` and `seen` record. */
    lemma BroadcastEnds(done: set<string>, results: map<string, Value>, processed: Value, post: seq<Handler>, env: Env,
                        queues: map<string, seq<SentMessage>>, seen: map<string, set<Value>>)
      requires Valid() && forall k :: k in channels ==> k in queues && k in seen
      requires Broadcast(done, results, processed, post, env, queues, seen)
      ensures forall k :: k in results <==> k in done
      ensures forall k :: k in results && k in channels ==>
        results[k] == BroadcastEntry(AfterPostSend(post, Delivery(channels[k].kind, k, processed, env)), env)
      ensures forall k :: k in done && k in channels ==>
        (channels[k].queue, channels[k].recipients) == AfterDelivery(channels[k].kind, k, processed, env, queues[k], seen[k])
      ensures forall k :: k in channels && k !in done ==>
        channels[k].queue == queues[k] && channels[k].recipients == seen[k]
    {
    }

    /** The loop of `broadcast_message` over the running channels `live`,
        starting from the queues and recipient sets recorded in `queues`
        and `seen`: every channel in `live`, and no other, has been sent
        the message and has its entry in `results`. */
    method SendToEach(live: set<string>, data: Dict, env: Env,
                      ghost queues: map<string, seq<SentMessage>>, ghost seen: map<string, set<Value>>)
      returns (results: map<string, Value>)
      requires Valid() && live <= channels.Keys
      requires Broadcast({}, map[], PreSend(handlers["pre_send"], Obj(data)), handlers["post_send"], env, queues, seen)
      modifies Repr`queue, Repr`recipients
      ensures Valid()
      ensures Broadcast(live, results, PreSend(handlers["pre_send"], Obj(data)), handlers["post_send"], env, queues, seen)
      ensures forall k :: k in channels ==> channels[k].running == old(channels[k].running)
    {
      ghost var processed := PreSend(handlers["pre_send"], Obj(data));
      var rest := live;
      ghost var done: set<string> := {};
      results := map[];
      while rest != {}
        invariant rest <= live
        invariant Valid()
        invariant forall k :: k in done <==> k in live && k !in rest
        invariant Broadcast(done, results, processed, handlers["post_send"], env, queues, seen)
        decreases rest
      {
        var k :| k in rest;
        results := Round(k, data, env, done, results, queues, seen);
        done := done + {k};
        rest := rest - {k};
      }
      assert done == live;
    }

    /** The broadcast has reached the channels whose ids are in `done`:
        `results` holds an entry for each of them, as the post-send handlers
        `post` leave it; each has been sent `processed`, and every other channel still has the queue and
        recipients recorded in `queues` and `seen`. */
    ghost predicate Broadcast(done: set<string>, results: map<string, Value>, processed: Value, post: seq<Handler>, env: Env,
                              queues: map<string, seq<SentMessage>>, seen: map<string, set<Value>>)
      reads this`channels, this`Repr, Repr`queue, Repr`recipients
    {
      (forall k :: k in results <==> k in done) &&
      (forall k :: k in results && k in channels ==>
         results[k] == BroadcastEntry(AfterPostSend(post, Delivery(channels[k].kind, k, processed, env)), env)) &&
      forall k :: k in channels && channels[k] in Repr && k in queues && k in seen ==>
        (channels[k].queue, channels[k].recipients) ==
        if k in done then AfterDelivery(channels[k].kind, k, processed, env, queues[k], seen[k]) else (queues[k], seen[k])
    }

    /** A round of the broadcast loop, recording its entry in `results`. */
    method Round(k: string, data: Dict, env: Env, ghost done: set<string>, results: map<string, Value>,
                 ghost queues: map<string, seq<SentMessage>>, ghost seen: map<string, set<Value>>)
      returns (results': map<string, Value>)
      requires Valid() && k in channels && k !in done
      requires Broadcast(done, results, PreSend(handlers["pre_send"], Obj(data)), handlers["post_send"], env, queues, seen)
      modifies Repr`queue, Repr`recipients
      ensures Valid()
      ensures Broadcast(done + {k}, results', PreSend(handlers["pre_send"], Obj(data)), handlers["post_send"], env, queues, seen)
    {
      var entry := BroadcastTo(k, data, env);
      results' := results[k := entry];
    }

    /** `register_message_handler`: an unknown event gets a new list first. */
    method RegisterMessageHandler(event: string, h: Handler)
      requires Valid()
      modifies this`handlers
      ensures Valid()
      ensures handlers == old(handlers)[event := (if event in old(handlers) then old(handlers)[event] else []) + [h]]
    {
      if event !in handlers {
        handlers := handlers[event := []];
      }
      handlers := handlers[event := handlers[event] + [h]];
    }

    /** `list_channels`. */
    method ListChannels() returns (ids: seq<string>)
      ensures forall k :: k in ids <==> k in channels
      ensures Distinct(ids) && |ids| == |channels|
    {
      ids := KeysOf(channels);
    }

    /** `start_listening` / `stop_listening`, run one channel after another. */
    method SetListening(on: bool)
      requires Valid()
      modifies Repr`running
      ensures Valid()
      ensures forall k :: k in channels ==> channels[k].running == on
    {
      var rest := channels.Keys;
      while rest != {}
        invariant rest <= channels.Keys
        invariant Valid()
        invariant forall k :: k in channels && k !in rest ==> channels[k].running == on
        decreases rest
      {
        var k :| k in rest;
        if on {
          channels[k].Start();
        } else {
          channels[k].Stop();
        }
        rest := rest - {k};
      }
    }

    /** `shutdown`: every channel is stopped, then the registry is emptied. */
    method Shutdown()
      requires Valid()
      modifies this`channels, this`Repr, Repr`running
      ensures Valid()
      ensures channels == map[]
      ensures forall k :: k in old(channels) ==> !old(channels)[k].running
    {
      SetListening(false);
      channels := map[];
      Repr := {};
    }
  }
}

=== FILE: collections.dfy ===
/** Sequence and map helpers standing for Python list slicing, list
    comprehensions with a condition, dictionary iteration and `list.remove`. */
module Collections {

  /** `s[:n]` for a non-negative `n`. */
  function Take<T>(s: seq<T>, n: nat): (r: seq<T>)
    ensures |r| <= n && |r| <= |s|
    ensures r == s[..|r|]
    ensures |s| <= n ==> r == s
    ensures n <= |s| ==> |r| == n
  {
    if |s| <= n then s else s[..n]
  }

  /** `[x for x in s if keep(x)]`. */
  function Filter<T>(s: seq<T>, keep: T -> bool): (r: seq<T>)
    ensures |r| <= |s|
    ensures forall i :: 0 <= i < |r| ==> r[i] in s && keep(r[i])
    ensures forall i :: 0 <= i < |s| && keep(s[i]) ==> s[i] in r
  {
    if s == [] then []
    else
      var rest := Filter(s[1..], keep);
      assert forall i :: 1 <= i < |s| ==> s[i] == s[1..][i - 1];
      (if keep(s[0]) then [s[0]] else []) + rest
  }

  /** An element survives the filter exactly when it is in `s` and kept. */
  lemma FilterMembers<T>(s: seq<T>, keep: T -> bool, x: T)
    ensures x in Filter(s, keep) <==> x in s && keep(x)
  {
    if x in Filter(s, keep) {
      var i :| 0 <= i < |Filter(s, keep)| && Filter(s, keep)[i] == x;
    }
    if x in s && keep(x) {
      var i :| 0 <= i < |s| && s[i] == x;
    }
  }

  /** A filter that keeps every element changes nothing. */
  lemma {:induction false} FilterKeepsAll<T>(s: seq<T>, keep: T -> bool)
    requires forall i :: 0 <= i < |s| ==> keep(s[i])
    ensures Filter(s, keep) == s
  {
    if s != [] {
      FilterKeepsAll(s[1..], keep);
      assert s == [s[0]] + s[1..];
    }
  }

  /** Filtering a list with a given head decides the head, then filters the tail. */
  lemma FilterCons<T>(y: T, t: seq<T>, keep: T -> bool)
    ensures Filter([y] + t, keep) == (if keep(y) then [y] else []) + Filter(t, keep)
  {
    assert ([y] + t)[1..] == t;
  }

  /** Filtering a concatenation filters each part, in order. */
  lemma {:induction false} FilterAppend<T>(a: seq<T>, b: seq<T>, keep: T -> bool)
    ensures Filter(a + b, keep) == Filter(a, keep) + Filter(b, keep)
  {
    if a != [] {
      FilterAppend(a[1..], b, keep);
      assert (a + b)[1..] == a[1..] + b;
    } else {
      assert a + b == b;
    }
  }

  /** No two elements of `s` share a key. */
  ghost predicate UniqueBy<T, K>(s: seq<T>, key: T -> K)
  {
    forall i, j :: 0 <= i < j < |s| ==> key(s[i]) != key(s[j])
  }

  /** No element occurs twice in `s`. */
  ghost predicate Distinct<T>(s: seq<T>)
  {
    forall i, j :: 0 <= i < j < |s| ==> s[i] != s[j]
  }

  /** Two key-unique sequences with disjoint keys concatenate to a key-unique sequence. */
  lemma UniqueConcat<T, K>(a: seq<T>, b: seq<T>, key: T -> K)
    requires UniqueBy(a, key) && UniqueBy(b, key)
    requires forall x, y :: x in a && y in b ==> key(x) != key(y)
    ensures UniqueBy(a + b, key)
  {
    forall i, j | 0 <= i < j < |a + b|
      ensures key((a + b)[i]) != key((a + b)[j])
    {
      if j < |a| {
      } else if i >= |a| {
        assert (a + b)[i] == b[i - |a|] && (a + b)[j] == b[j - |a|];
      } else {
        assert (a + b)[i] in a && (a + b)[j] in b;
      }
    }
  }

  /** A prefix of a key-unique sequence is key-unique. */
  lemma UniquePrefix<T, K>(s: seq<T>, n: nat, key: T -> K)
    requires UniqueBy(s, key)
    ensures UniqueBy(Take(s, n), key)
  {
  }

  /** Keeping some elements of a key-unique sequence keeps it key-unique. */
  lemma {:induction false} UniqueFilter<T, K>(s: seq<T>, keep: T -> bool, key: T -> K)
    requires UniqueBy(s, key)
    ensures UniqueBy(Filter(s, keep), key)
  {
    if s != [] {
      assert UniqueBy(s[1..], key);
      UniqueFilter(s[1..], keep, key);
      var head := if keep(s[0]) then [s[0]] else [];
      forall x, y | x in head && y in Filter(s[1..], keep)
        ensures key(x) != key(y)
      {
        var j :| 0 <= j < |s[1..]| && s[1..][j] == y;
        assert s[j + 1] == y;
      }
      UniqueConcat(head, Filter(s[1..], keep), key);
    }
  }

  function Identity<T>(x: T): T { x }

  /** Distinct elements are exactly elements unique under the identity key. */
  lemma DistinctIsUniqueBy<T>(s: seq<T>)
    ensures Distinct(s) <==> UniqueBy(s, Identity)
  {
  }

  /** `[f(x) for x in s]`. */
  function Map<T, U>(s: seq<T>, f: T -> U): (r: seq<U>)
    ensures |r| == |s|
    ensures forall i :: 0 <= i < |s| ==> r[i] == f(s[i])
  {
    seq(|s|, i requires 0 <= i < |s| => f(s[i]))
  }

  /** `[m[k] for k in keys]`. */
  function ValuesAt<K, V>(m: map<K, V>, keys: seq<K>): (r: seq<V>)
    requires forall i :: 0 <= i < |keys| ==> keys[i] in m
    ensures |r| == |keys|
    ensures forall i :: 0 <= i < |keys| ==> r[i] == m[keys[i]]
  {
    seq(|keys|, i requires 0 <= i < |keys| => m[keys[i]])
  }

  /** `[f(m[k]) for k in keys]` over a listing of all the keys holds `f` of
      every value, and nothing else. */
  lemma MapValuesAtCovers<K, V, U>(m: map<K, V>, keys: seq<K>, f: V -> U)
    requires forall i :: 0 <= i < |keys| ==> keys[i] in m
    requires forall k :: k in m ==> k in keys
    ensures forall i :: 0 <= i < |keys| ==> Map(ValuesAt(m, keys), f)[i] == f(m[keys[i]])
    ensures forall k :: k in m ==> f(m[k]) in Map(ValuesAt(m, keys), f)
  {
    var r := Map(ValuesAt(m, keys), f);
    forall k | k in m
      ensures f(m[k]) in r
    {
      var i :| 0 <= i < |keys| && keys[i] == k;
      assert r[i] == f(m[k]);
    }
  }

  /** The keys of a dictionary in iteration order: `list(m.keys())`. The
      model leaves the order open (Python uses insertion order). */
  method KeysOf<K, V>(m: map<K, V>) returns (keys: seq<K>)
    ensures forall k :: k in keys <==> k in m
    ensures Distinct(keys)
    ensures |keys| == |m|
  {
    keys := [];
    var rest := m.Keys;
    while rest != {}
      invariant rest <= m.Keys
      invariant forall k :: k in keys <==> k in m && k !in rest
      invariant Distinct(keys)
      invariant |keys| + |rest| == |m|
      decreases rest
    {
      var k :| k in rest;
      keys := keys + [k];
      rest := rest - {k};
    }
  }

  /** `for x in s: m[id(x)] = x` -- a later element wins over an earlier one. */
  function PutAll<T>(m: map<string, T>, s: seq<T>, id: T -> string): (r: map<string, T>)
    ensures m.Keys <= r.Keys
    ensures |r| <= |m| + |s|
  {
    if s == [] then m
    else PutAll(m, s[..|s| - 1], id)[id(s[|s| - 1]) := s[|s| - 1]]
  }

  /** Every entry after putting `s` is an old entry left in place or an
      element of `s` stored under its own key. */
  lemma {:induction false} PutAllSources<T>(m: map<string, T>, s: seq<T>, id: T -> string)
    ensures forall k :: k in PutAll(m, s, id) ==>
      (k in m && PutAll(m, s, id)[k] == m[k]) || (PutAll(m, s, id)[k] in s && id(PutAll(m, s, id)[k]) == k)
  {
    if s != [] {
      PutAllSources(m, s[..|s| - 1], id);
      assert forall x :: x in s[..|s| - 1] ==> x in s;
    }
  }

  /** Putting one more element after `s` overwrites its key. */
  lemma PutAllSnoc<T>(m: map<string, T>, s: seq<T>, x: T, id: T -> string)
    ensures PutAll(m, s + [x], id) == PutAll(m, s, id)[id(x) := x]
  {
    assert (s + [x])[..|s|] == s;
  }

  /** The loop `for x in s: m[id(x)] = x`. */
  method PutEach<T>(m: map<string, T>, s: seq<T>, id: T -> string) returns (r: map<string, T>)
    ensures r == PutAll(m, s, id)
  {
    r := m;
    var i := 0;
    while i < |s|
      invariant 0 <= i <= |s|
      invariant r == PutAll(m, s[..i], id)
    {
      PutAllSnoc(m, s[..i], s[i], id);
      assert s[..i + 1] == s[..i] + [s[i]];
      r := r[id(s[i]) := s[i]];
      i := i + 1;
    }
    assert s[..i] == s;
  }

  /** The loop `for k in keys: m.pop(k, None)`. */
  method PopEach<K, V>(m: map<K, V>, keys: seq<K>) returns (r: map<K, V>)
    ensures forall k :: k in r <==> k in m && k !in keys
    ensures forall k :: k in r ==> r[k] == m[k]
  {
    r := m;
    var i := 0;
    while i < |keys|
      invariant 0 <= i <= |keys|
      invariant forall k :: k in r <==> k in m && k !in keys[..i]
      invariant forall k :: k in r ==> r[k] == m[k]
    {
      assert keys[..i + 1] == keys[..i] + [keys[i]];
      r := r - {keys[i]};
      i := i + 1;
    }
    assert keys[..i] == keys;
  }

  /** Deleting a present key shrinks a map by one. */
  lemma RemoveKeyCardinality<K, V>(m: map<K, V>, k: K)
    requires k in m
    ensures |m - {k}| == |m| - 1
  {
    assert (m - {k}).Keys == m.Keys - {k};
  }

  /** The index of the first occurrence of `x` in `s`. */
  function FirstIndex<T(==)>(s: seq<T>, x: T): (i: nat)
    requires x in s
    ensures i < |s| && s[i] == x && x !in s[..i]
  {
    if s[0] == x then 0
    else
      var i := FirstIndex(s[1..], x);
      assert s[..i + 1] == [s[0]] + s[1..][..i];
      i + 1
  }

  /** `s.remove(x)` with the ValueError swallowed: drops the first
      occurrence of `x`, if any. */
  function RemoveFirst<T(==)>(s: seq<T>, x: T): seq<T>
  {
    if s == [] then []
    else if s[0] == x then s[1..]
    else [s[0]] + RemoveFirst(s[1..], x)
  }

  /** Removing an absent element changes nothing. */
  lemma {:induction false} RemoveFirstAbsent<T>(s: seq<T>, x: T)
    requires x !in s
    ensures RemoveFirst(s, x) == s
  {
    if s != [] {
      assert x !in s[1..] by { assert s == [s[0]] + s[1..]; }
      RemoveFirstAbsent(s[1..], x);
    }
  }

  /** Removing a present element cuts out exactly its first occurrence. */
  lemma {:induction false} RemoveFirstPresent<T>(s: seq<T>, x: T)
    requires x in s
    ensures RemoveFirst(s, x) == s[..FirstIndex(s, x)] + s[FirstIndex(s, x) + 1..]
  {
    if s[0] != x {
      assert x in s[1..] by { assert s == [s[0]] + s[1..]; }
      RemoveFirstPresent(s[1..], x);
      var i := FirstIndex(s[1..], x);
      assert FirstIndex(s, x) == i + 1;
      assert s[..i + 1] == [s[0]] + s[1..][..i];
      assert s[i + 2..] == s[1..][i + 1..];
    }
  }

  /** Removing an element that is present cuts out exactly its first
      occurrence; removing an absent one changes nothing. */
  lemma RemoveFirstSpec<T>(s: seq<T>, x: T)
    ensures x !in s ==> RemoveFirst(s, x) == s
    ensures x in s ==> RemoveFirst(s, x) == s[..FirstIndex(s, x)] + s[FirstIndex(s, x) + 1..]
  {
    if x in s {
      RemoveFirstPresent(s, x);
    } else {
      RemoveFirstAbsent(s, x);
    }
  }

  /** Removing one element keeps every other element. */
  lemma RemoveFirstKeepsOthers<T>(s: seq<T>, x: T, y: T)
    requires x in s && y in s && y != x
    ensures y in RemoveFirst(s, x) && |RemoveFirst(s, x)| == |s| - 1
  {
    RemoveFirstPresent(s, x);
    var i := FirstIndex(s, x);
    var j :| 0 <= j < |s| && s[j] == y;
    if j < i {
      assert (s[..i] + s[i + 1..])[j] == y;
    } else {
      assert (s[..i] + s[i + 1..])[j - 1] == y;
    }
  }

  /** A sequence without repeats whose elements all occur in `b` is no longer than `b`. */
  lemma {:induction false} DistinctFitsIn<T>(a: seq<T>, b: seq<T>)
    requires Distinct(a)
    requires forall x :: x in a ==> x in b
    ensures |a| <= |b|
    decreases |a|
  {
    if a != [] {
      var rest := RemoveFirst(b, a[0]);
      forall x | x in a[1..]
        ensures x in rest
      {
        var j :| 1 <= j < |a| && a[j] == x;
        RemoveFirstKeepsOthers(b, a[0], x);
      }
      RemoveFirstPresent(b, a[0]);
      DistinctFitsIn(a[1..], rest);
    }
  }

  /** A sequence without repeats that fits into `b` and is at least as long
      holds every element of `b`. */
  lemma DistinctFill<T>(a: seq<T>, b: seq<T>)
    requires Distinct(a)
    requires forall x :: x in a ==> x in b
    requires |b| <= |a|
    ensures forall y :: y in b ==> y in a
  {
    forall y | y in b
      ensures y in a
    {
      if y !in a {
        DistinctFitsIn(a + [y], b);
        assert false;
      }
    }
  }

  /** Elements with different keys are different elements. */
  lemma UniqueIsDistinct<T, K>(s: seq<T>, key: T -> K)
    requires UniqueBy(s, key)
    ensures Distinct(s)
  {
  }

  /** Appending an element and then removing it restores the sequence when
      the element was not there before. */
  lemma {:induction false} RemoveFirstAfterAppend<T>(s: seq<T>, x: T)
    requires x !in s
    ensures RemoveFirst(s + [x], x) == s
  {
    if s != [] {
      assert (s + [x])[1..] == s[1..] + [x];
      RemoveFirstAfterAppend(s[1..], x);
    }
  }
}

=== FILE: gateway.dfy ===
/** The gateway of src/core/gateway.py: two lifecycle flags, a routing table
    from "<source>_to_<destination>" keys to the three routing handlers, and
    an event bus that calls each topic's observers in registration order and
    swallows their failures. Observers are data here: what one does is not
    modelled, only whether it raises. Each operation that emits events
    returns, as a ghost result, the observer calls it made, in order. */
module Core {
  import opened Wrappers
  import opened Values
  import opened Collections
  import Channels
  import Agents
  import Memory

  /** A registered event callback; `raises` says whether calling it raises. */
  datatype Observer = Observer(name: string, raises: bool)

  /** One call of an observer with an event's data. */
  datatype Notice = Notice(topic: string, observer: Observer, data: Dict)

  /** The three routing handlers `_setup_message_routing` registers. */
  datatype Route = ChannelToAgent | AgentToChannel | InternalMessage

  /** The topics every gateway starts with. */
  const Topics: set<string> := {"message_received", "message_processed", "agent_response", "error_occurred"}

  /** The gateway's own `_handle_<topic>` observer, which only logs. */
  function DefaultObserver(topic: string): Observer
  {
    Observer("_handle_" + topic, false)
  }

  /** `_setup_event_handlers`: the gateway's own observer goes last on each
      starting topic; other topics keep their lists. */
  function WithDefaultObservers(handlers: map<string, seq<Observer>>): (updated: map<string, seq<Observer>>)
    ensures updated.Keys == handlers.Keys
    ensures forall t :: t in handlers && t in Topics ==> updated[t] == handlers[t] + [DefaultObserver(t)]
    ensures forall t :: t in handlers && t !in Topics ==> updated[t] == handlers[t]
  {
    map t | t in handlers :: if t in Topics then handlers[t] + [DefaultObserver(t)] else handlers[t]
  }

  /** The table `_setup_message_routing` fills. */
  const RoutingTable: map<string, Route> := map[
    "channel_to_agent" := ChannelToAgent,
    "agent_to_channel" := AgentToChannel,
    "internal_message" := InternalMessage]

  /** `f"{source}_to_{destination}"`. */
  function RouteKey(source: string, destination: string): string
  {
    source + "_to_" + destination
  }

  /** The system notification the HTTP layer posts with source "system" and
      destination "internal" finds no route: the table only knows
      "internal_message". */
  lemma SystemToInternalUnrouted()
    ensures RouteKey("system", "internal") !in RoutingTable
  {
    assert |RouteKey("system", "internal")| == 18;
  }

  /** The calls `_emit_event(topic, data)` makes: every observer of the
      topic, in registration order, whether or not an earlier one raised;
      none for an unknown topic. */
  function Emitted(handlers: map<string, seq<Observer>>, topic: string, data: Dict): (notices: seq<Notice>)
    ensures topic !in handlers ==> notices == []
    ensures topic in handlers ==>
      |notices| == |handlers[topic]| && forall i :: 0 <= i < |notices| ==> notices[i] == Notice(topic, handlers[topic][i], data)
  {
    if topic !in handlers then []
    else seq(|handlers[topic]|, i requires 0 <= i < |handlers[topic]| => Notice(topic, handlers[topic][i], data))
  }

  /** `register_event_handler`'s update of the table. */
  function Registered(handlers: map<string, seq<Observer>>, topic: string, o: Observer): map<string, seq<Observer>>
  {
    handlers[topic := (if topic in handlers then handlers[topic] else []) + [o]]
  }

  /** `remove_event_handler`'s update of the table. */
  function Removed(handlers: map<string, seq<Observer>>, topic: string, o: Observer): map<string, seq<Observer>>
  {
    if topic in handlers then handlers[topic := RemoveFirst(handlers[topic], o)] else handlers
  }

  /** A newly registered observer is called last, after every earlier one. */
  lemma EmittedAfterRegister(handlers: map<string, seq<Observer>>, topic: string, o: Observer, data: Dict)
    ensures Emitted(Registered(handlers, topic, o), topic, data) == Emitted(handlers, topic, data) + [Notice(topic, o, data)]
  {
    var before := Emitted(handlers, topic, data);
    var after := Emitted(Registered(handlers, topic, o), topic, data);
    assert |after| == |before| + 1;
    assert forall i :: 0 <= i < |before| ==> after[i] == before[i];
  }

  /** Removing an observer drops exactly the call of its first registration;
      removing one that is not registered changes nothing. */
  lemma EmittedAfterRemove(handlers: map<string, seq<Observer>>, topic: string, o: Observer, data: Dict)
    ensures topic !in handlers || o !in handlers[topic] ==>
      Emitted(Removed(handlers, topic, o), topic, data) == Emitted(handlers, topic, data)
    ensures topic in handlers && o in handlers[topic] ==>
      var i := FirstIndex(handlers[topic], o); var before := Emitted(handlers, topic, data);
      Emitted(Removed(handlers, topic, o), topic, data) == before[..i] + before[i + 1..]
  {
    if topic in handlers {
      if o !in handlers[topic] {
        RemoveFirstAbsent(handlers[topic], o);
        assert Removed(handlers, topic, o) == handlers;
      } else {
        EmittedAfterRemovePresent(handlers, topic, o, data);
      }
    }
  }

  /** The removal of a registered observer, call by call. */
  lemma EmittedAfterRemovePresent(handlers: map<string, seq<Observer>>, topic: string, o: Observer, data: Dict)
    requires topic in handlers && o in handlers[topic]
    ensures var i := FirstIndex(handlers[topic], o); var before := Emitted(handlers, topic, data);
      Emitted(Removed(handlers, topic, o), topic, data) == before[..i] + before[i + 1..]
  {
    var hs := handlers[topic];
    var i := FirstIndex(hs, o);
    RemoveFirstPresent(hs, o);
    var rest := RemoveFirst(hs, o);
    var before := Emitted(handlers, topic, data);
    var after := Emitted(Removed(handlers, topic, o), topic, data);
    var expected := before[..i] + before[i + 1..];
    assert |after| == |expected|;
    forall j | 0 <= j < |after|
      ensures after[j] == expected[j]
    {
      if j < i {
        assert rest[j] == hs[j];
      } else {
        assert rest[j] == hs[j + 1];
      }
    }
  }

  /** Registering an observer that was not there and removing it again
      restores the table. */
  lemma RemoveUndoesRegister(handlers: map<string, seq<Observer>>, topic: string, o: Observer)
    requires topic in handlers && o !in handlers[topic]
    ensures Removed(Registered(handlers, topic, o), topic, o) == handlers
  {
    RemoveFirstAfterAppend(handlers[topic], o);
  }

  /** The `error_occurred` event of a failed routing handler. */
  function ErrorEvent(error: string, context: string, env: Env): Dict
  {
    map["error" := Str(error), "context" := Str(context), "timestamp" := Time(env.now)]
  }

  /** The context an error event names for each handler. */
  function Context(route: Route): string
  {
    match route
    case ChannelToAgent => "channel_to_agent_routing"
    case AgentToChannel => "agent_to_channel_routing"
    case InternalMessage => "internal_message_routing"
  }

  /** The `message_received` event. */
  function ReceivedEvent(source: string, destination: string, data: Dict, env: Env): Dict
  {
    map["source" := Str(source), "destination" := Str(destination), "message_data" := Obj(data), "timestamp" := Time(env.now)]
  }

  /** The `message_processed` event. */
  function ProcessedEvent(source: string, destination: string, data: Dict, result: Value, env: Env): Dict
  {
    ReceivedEvent(source, destination, data, env)["result" := result]
  }

  /** The `agent_response` event after a message went out on a channel. */
  function ResponseEvent(data: Dict, result: Value, env: Env): Dict
  {
    map["channel_id" := GetOr(data, "channel_id", Null), "response" := Obj(data), "result" := result, "timestamp" := Time(env.now)]
  }

  /** The interaction record `_route_channel_to_agent` stores. Its timestamp
      is already an ISO string. */
  function InteractionRecord(data: Dict, agentId: Value, response: Dict, env: Env): (record: Dict)
    ensures "timestamp" in record && record["timestamp"] == Iso(env.now)
  {
    map[
      "type" := Str("channel_to_agent"),
      "source" := Get(data, "channel"),
      "agent_id" := agentId,
      "input" := Obj(data),
      "output" := Obj(response),
      "timestamp" := Iso(env.now)]
  }

  /** What storing a record yields on a memory manager in the given state. */
  function StoreOutcome(storeFails: bool, rows: seq<Memory.Interaction>, record: Dict, env: Env): Outcome
  {
    if storeFails then Fail(Memory.StoreUnavailable)
    else match Memory.BuildInteraction(record, env)
      case Err(e) => Fail(e)
      case Ok(it) => if Memory.HasInteractionId(rows, it.id) then Fail(Memory.DuplicateInteraction) else Pass
  }

  /** A record whose timestamp is already an ISO string is never stored:
      either the database is down or the string has no `isoformat`. */
  lemma IsoStampedRecordNeverStored(storeFails: bool, rows: seq<Memory.Interaction>, record: Dict, env: Env)
    requires "timestamp" in record && record["timestamp"].Iso?
    ensures var o := StoreOutcome(storeFails, rows, record, env);
      o.Fail? && o.error == (if storeFails then Memory.StoreUnavailable else NoAttributeError(record["timestamp"], "isoformat"))
    ensures TypeName(record["timestamp"]) == "str"
  {
  }

  /** The gateway. */
  class Gateway {
    var channels: Channels.ChannelManager?
    var agents: Agents.AgentManager?
    var memory: Memory.MemoryManager?
    var initialized: bool
    var running: bool
    var routes: map<string, Route>
    var handlers: map<string, seq<Observer>>

    /** The routing table is either filled or cleared, and the four starting
        topics are never dropped. */
    ghost predicate Valid()
      reads this
    {
      (routes == map[] || routes == RoutingTable) && Topics <= handlers.Keys
    }

    /** The attached memory manager, if any. */
    ghost function Store(): set<Memory.MemoryManager>
      reads this`memory
    {
      if memory == null then {} else {memory}
    }

    /** The channels of the attached channel manager. */
    ghost function Outlets(): set<Channels.Channel>
      reads this`channels, channels
    {
      if channels == null then {} else channels.Repr
    }

    constructor ()
      ensures Valid() && !initialized && !running && routes == map[]
      ensures handlers == map t | t in Topics :: []
      ensures channels == null && agents == null && memory == null
    {
      channels, agents, memory := null, null, null;
      initialized, running := false, false;
      routes := map[];
      handlers := map t | t in Topics :: [];
    }

    /** `initialize`: attach the components, fill the routing table and
        append the gateway's own observer to each starting topic. */
    method Initialize(cm: Channels.ChannelManager, am: Agents.AgentManager, mm: Memory.MemoryManager)
      requires Valid()
      modifies this`channels, this`agents, this`memory, this`routes, this`handlers, this`initialized
      ensures Valid() && initialized && running == old(running)
      ensures channels == cm && agents == am && memory == mm
      ensures routes == RoutingTable
      ensures handlers == WithDefaultObservers(old(handlers))
    {
      channels, agents, memory := cm, am, mm;
      routes := routes["channel_to_agent" := ChannelToAgent];
      routes := routes["agent_to_channel" := AgentToChannel];
      routes := routes["internal_message" := InternalMessage];
      assert routes == RoutingTable;
      handlers := WithDefaultObservers(handlers);
      initialized := true;
    }

    /** `start`: refused before `initialize`; otherwise the gateway runs and
        every channel starts listening. */
    method Start() returns (r: Outcome)
      requires channels != null ==> channels.Valid()
      modifies this`running, Outlets()`running
      ensures channels != null ==> channels.Valid()
      ensures r.Fail? <==> !initialized
      ensures r.Fail? ==> r.error == "Gateway not initialized. Call initialize() first." && running == old(running)
      ensures r.Pass? ==> running
      ensures r.Pass? && channels != null ==> forall k :: k in channels.channels ==> channels.channels[k].running
    {
      if !initialized {
        return Fail("Gateway not initialized. Call initialize() first.");
      }
      running := true;
      if channels != null {
        channels.SetListening(true);
      }
      r := Pass;
    }

    /** `stop`: always allowed; the gateway and every channel stop. */
    method Stop()
      requires channels != null ==> channels.Valid()
      modifies this`running, Outlets()`running
      ensures channels != null ==> channels.Valid()
      ensures !running
      ensures channels != null ==> forall k :: k in channels.channels ==> !channels.channels[k].running
    {
      running := false;
      if channels != null {
        channels.SetListening(false);
      }
    }

    /** `_cleanup_resources`: the routing table and every topic's observer
        list are emptied (the topics stay) and the components detached. The
        `initialized` flag is left as it is. */
    method Cleanup()
      requires Valid()
      modifies this`routes, this`handlers, this`channels, this`agents, this`memory
      ensures Valid()
      ensures routes == map[]
      ensures handlers.Keys == old(handlers).Keys && forall t :: t in handlers ==> handlers[t] == []
      ensures channels == null && agents == null && memory == null
    {
      routes := map[];
      handlers := map t | t in handlers :: [];
      channels, agents, memory := null, null, null;
    }

    /** `shutdown`: stop, then clean up. Since `initialized` stays set, a
        later `start` succeeds on a gateway that routes nothing. */
    method Shutdown()
      requires Valid() && (channels != null ==> channels.Valid())
      modifies this`running, Outlets()`running, this`routes, this`handlers, this`channels, this`agents, this`memory
      ensures Valid() && !running && initialized == old(initialized)
      ensures old(channels) != null ==> forall k :: k in old(channels).channels ==> !old(channels).channels[k].running
      ensures routes == map[] && channels == null && agents == null && memory == null
      ensures handlers.Keys == old(handlers).Keys && forall t :: t in handlers ==> handlers[t] == []
    {
      Stop();
      Cleanup();
    }

    /** `_emit_event`: call the topic's observers in order; one that raises
        is logged and the next one still runs. The routing methods below
        record each `_emit_event` they make by its value, `Emitted`, which
        this loop is proved to produce. */
    method EmitEvent(topic: string, data: Dict) returns (ghost calls: seq<Notice>)
      ensures calls == Emitted(handlers, topic, data)
    {
      calls := [];
      if topic !in handlers {
        return;
      }
      var observers := handlers[topic];
      var i := 0;
      while i < |observers|
        invariant 0 <= i <= |observers|
        invariant calls == Emitted(handlers, topic, data)[..i]
      {
        // observers[i] runs here; when it raises, the failure is logged only
        calls := calls + [Notice(topic, observers[i], data)];
        assert Emitted(handlers, topic, data)[..i + 1] == Emitted(handlers, topic, data)[..i] + [Notice(topic, observers[i], data)];
        i := i + 1;
      }
      assert Emitted(handlers, topic, data)[..i] == Emitted(handlers, topic, data);
    }

    /** `register_event_handler`: an unknown topic is created; the observer
        goes last. */
    method RegisterEventHandler(topic: string, o: Observer)
      requires Valid()
      modifies this`handlers
      ensures Valid()
      ensures handlers == Registered(old(handlers), topic, o)
    {
      if topic !in handlers {
        handlers := handlers[topic := []];
      }
      handlers := handlers[topic := handlers[topic] + [o]];
    }

    /** `remove_event_handler`: only the first registration of the observer
        goes; an unknown topic or observer is ignored. */
    method RemoveEventHandler(topic: string, o: Observer)
      requires Valid()
      modifies this`handlers
      ensures Valid()
      ensures handlers == Removed(old(handlers), topic, o)
    {
      if topic in handlers {
        handlers := handlers[topic := RemoveFirst(handlers[topic], o)];
      }
    }

    /** The result of `_route_channel_to_agent` in the current state. */
    function ChannelToAgentResult(data: Dict, env: Env): Result<Value>
      requires agents != null ==> agents.Valid()
      reads this`agents, this`memory, agents, memory
    {
      if agents == null then Err(NoAttributeError(Null, "get_default_agent_id"))
      else
        var agentId := agents.defaultAgentId;
        if !Truthy(agentId) || agentId !in agents.agents then Ok(Null)
        else
          var response :- agents.agents[agentId].ProcessMessage(data, env);
          if memory == null then Ok(Obj(response))
          else match StoreOutcome(memory.storeFails, memory.interactionRows, InteractionRecord(data, agentId, response, env), env)
            case Fail(e) => Err(e)
            case Pass => Ok(Obj(response))
    }

    /** With a memory manager attached, a message the default agent answers
        is never routed to it: the store raises and so does the handler. */
    lemma ChannelToAgentFailsWithMemory(data: Dict, env: Env)
      requires agents != null && agents.Valid() && memory != null
      requires Truthy(agents.defaultAgentId) && agents.defaultAgentId in agents.agents
      ensures ChannelToAgentResult(data, env).Err?
      ensures agents.agents[agents.defaultAgentId].ProcessMessage(data, env).Ok? ==>
        ChannelToAgentResult(data, env).error ==
          (if memory.storeFails then Memory.StoreUnavailable else NoAttributeError(Iso(env.now), "isoformat"))
    {
      var agentId := agents.defaultAgentId;
      var response := agents.agents[agentId].ProcessMessage(data, env);
      if response.Ok? {
        IsoStampedRecordNeverStored(memory.storeFails, memory.interactionRows, InteractionRecord(data, agentId, response.value, env), env);
      }
    }

    /** The result of `_route_agent_to_channel` in the current state. */
    function AgentToChannelResult(data: Dict, env: Env): Result<Value>
      requires channels != null ==> "pre_send" in channels.handlers && "post_send" in channels.handlers
      reads this`channels, channels
    {
      var channelId := GetOr(data, "channel_id", Null);
      if !Truthy(channelId) || channels == null then Ok(Null)
      else match channels.Reply(channelId, data, env)
        case Ok(reply) => Ok(Obj(reply))
        case Err(e) => Err(e)
    }

    /** A message without a (truthy) channel id goes nowhere. */
    lemma AgentToChannelNeedsChannelId(data: Dict, env: Env)
      requires channels != null ==> "pre_send" in channels.handlers && "post_send" in channels.handlers
      requires !Truthy(GetOr(data, "channel_id", Null))
      ensures AgentToChannelResult(data, env) == Ok(Null)
    {
    }

    /** The report `_perform_health_check` builds; `health(name)` stands for
        the named component's own `health_check`. */
    function HealthReport(env: Env, health: string -> Value): (report: Value)
      reads this`running, this`channels, this`agents, this`memory
      ensures report.Obj? && "gateway" in report.fields && "components" in report.fields
      ensures report.fields["gateway"] == Str(if running then "healthy" else "stopped")
      ensures report.fields["components"].Obj? && forall k :: k in report.fields["components"].fields <==>
        (k == "channel_manager" && channels != null) || (k == "agent_manager" && agents != null) ||
        (k == "memory_manager" && memory != null)
    {
      var withChannels: Dict := if channels != null then map["channel_manager" := health("channel_manager")] else map[];
      var withAgents := if agents != null then withChannels["agent_manager" := health("agent_manager")] else withChannels;
      var components := if memory != null then withAgents["memory_manager" := health("memory_manager")] else withAgents;
      Obj(map[
        "gateway" := Str(if running then "healthy" else "stopped"),
        "timestamp" := Iso(env.now),
        "components" := Obj(components)])
    }

    /** `_handle_system_notification`. */
    function Notification(data: Dict, env: Env, health: string -> Value): (r: Value)
      reads this`running, this`channels, this`agents, this`memory
      ensures var kind := GetOr(data, "notification_type", Null);
        kind != Str("startup") && kind != Str("shutdown") && kind != Str("health_check") ==>
          r == Obj(map["status" := Str("processed"), "message" := Str("Notification " + Render(kind) + " handled")])
    {
      var kind := GetOr(data, "notification_type", Null);
      if kind == Str("startup") then
        Obj(map["status" := Str("processed"), "message" := Str("Startup notification handled")])
      else if kind == Str("shutdown") then
        Obj(map["status" := Str("processed"), "message" := Str("Shutdown notification handled")])
      else if kind == Str("health_check") then HealthReport(env, health)
      else Obj(map["status" := Str("processed"), "message" := Str("Notification " + Render(kind) + " handled")])
    }

    /** `_route_internal_message`: None for any other message type. */
    function InternalResult(data: Dict, env: Env, health: string -> Value): (r: Value)
      reads this`running, this`channels, this`agents, this`memory
      ensures var kind := GetOr(data, "type", Null);
        (kind == Str("system_notification") ==> r == Notification(data, env, health)) &&
        (kind == Str("component_health_check") ==> r == HealthReport(env, health)) &&
        (kind != Str("system_notification") && kind != Str("component_health_check") ==> r == Null)
    {
      var kind := GetOr(data, "type", Null);
      if kind == Str("system_notification") then Notification(data, env, health)
      else if kind == Str("component_health_check") then HealthReport(env, health)
      else Null
    }

    /** The result of the handler a route names, in the current state. */
    function HandlerResult(route: Route, data: Dict, env: Env, health: string -> Value): Result<Value>
      requires agents != null ==> agents.Valid()
      requires channels != null ==> "pre_send" in channels.handlers && "post_send" in channels.handlers
      reads this`running, this`channels, this`agents, this`memory, agents, memory, channels
    {
      match route
      case ChannelToAgent => ChannelToAgentResult(data, env)
      case AgentToChannel => AgentToChannelResult(data, env)
      case InternalMessage => Ok(InternalResult(data, env, health))
    }

    /** The observer calls a handler makes itself: `error_occurred` before
        it re-raises, `agent_response` after a channel send. */
    function HandlerNotices(route: Route, data: Dict, r: Result<Value>, env: Env): seq<Notice>
      reads this`handlers
    {
      match r
      case Err(e) => if route.InternalMessage? then [] else Emitted(handlers, "error_occurred", ErrorEvent(e, Context(route), env))
      case Ok(v) => if route.AgentToChannel? && v != Null then Emitted(handlers, "agent_response", ResponseEvent(data, v, env)) else []
    }

    /** What `_route_agent_to_channel` does to the channels: the channel a
        truthy `channel_id` names, if there is one, has delivered the
        message as its manager's `send_message` does, and every other
        channel keeps its queue and recipients. */
    twostate predicate Sent(data: Dict, env: Env)
      requires channels != null ==> channels.Valid() && forall c :: c in channels.Repr ==> old(allocated(c))
      reads this`channels, channels, if channels == null then {} else channels.Repr
    {
      channels != null ==>
        var channelId := GetOr(data, "channel_id", Null);
        var target := if Truthy(channelId) then channels.Target(channelId) else None;
        (target.Some? ==>
           var c := channels.channels[target.value];
           (c.queue, c.recipients) ==
             Channels.AfterDelivery(c.kind, c.id, Channels.PreSend(channels.handlers["pre_send"], Obj(data)), env, old(c.queue), old(c.recipients))) &&
        forall c :: c in channels.Repr && (target.None? || c != channels.channels[target.value]) ==>
          c.queue == old(c.queue) && c.recipients == old(c.recipients)
    }

    /** `_route_channel_to_agent`: the default agent answers; the exchange
        is then stored when a memory manager is attached. Any exception
        is reported as `error_occurred` and raised again. */
    method RouteChannelToAgent(data: Dict, env: Env) returns (r: Result<Value>, ghost calls: seq<Notice>)
      requires agents != null ==> agents.Valid()
      requires memory != null ==> memory.Valid()
      modifies Store()`interactionRows, Store()`interactionCache
      ensures memory != null ==> memory.Valid()
      ensures r == old(ChannelToAgentResult(data, env))
      ensures calls == HandlerNotices(ChannelToAgent, data, r, env)
      ensures unchanged(Store())
    {
      calls := [];
      if agents == null {
        r := Err(NoAttributeError(Null, "get_default_agent_id"));
        calls := Emitted(handlers, "error_occurred", ErrorEvent(r.error, Context(ChannelToAgent), env));
        return;
      }
      var agentId := agents.defaultAgentId;
      if !Truthy(agentId) {
        return Ok(Null), calls;
      }
      var agent := agents.GetAgent(agentId);
      if agent.None? {
        return Ok(Null), calls;
      }
      var response := agent.value.ProcessMessage(data, env);
      if response.Err? {
        r := Err(response.error);
        calls := Emitted(handlers, "error_occurred", ErrorEvent(r.error, Context(ChannelToAgent), env));
        return;
      }
      if memory != null {
        IsoStampedRecordNeverStored(memory.storeFails, memory.interactionRows, InteractionRecord(data, agentId, response.value, env), env);
        var stored := memory.StoreInteraction(InteractionRecord(data, agentId, response.value, env), env);
        if stored.Fail? {
          r := Err(stored.error);
          calls := Emitted(handlers, "error_occurred", ErrorEvent(r.error, Context(ChannelToAgent), env));
          return;
        }
      }
      r := Ok(Obj(response.value));
    }

    /** `_route_agent_to_channel`: a message with a channel id is sent
        through the channel manager and announced as `agent_response`; a
        failed send is reported as `error_occurred` and raised again. */
    method RouteAgentToChannel(data: Dict, env: Env) returns (r: Result<Value>, ghost calls: seq<Notice>)
      requires channels != null ==> channels.Valid()
      modifies Outlets()`queue, Outlets()`recipients
      ensures channels != null ==> channels.Valid()
      ensures r == old(AgentToChannelResult(data, env))
      ensures calls == HandlerNotices(AgentToChannel, data, r, env)
      ensures Sent(data, env)
    {
      calls := [];
      var channelId := GetOr(data, "channel_id", Null);
      if !Truthy(channelId) || channels == null {
        return Ok(Null), calls;
      }
      var sent := channels.SendMessage(channelId, data, env);
      if sent.Err? {
        r := Err(sent.error);
        calls := Emitted(handlers, "error_occurred", ErrorEvent(r.error, Context(AgentToChannel), env));
        return;
      }
      r := Ok(Obj(sent.value));
      calls := Emitted(handlers, "agent_response", ResponseEvent(data, r.value, env));
    }

    /** `handler(message_data)` for the handler a route names. */
    method Dispatch(route: Route, data: Dict, env: Env, health: string -> Value) returns (r: Result<Value>, ghost calls: seq<Notice>)
      requires agents != null ==> agents.Valid()
      requires memory != null ==> memory.Valid()
      requires channels != null ==> channels.Valid()
      modifies Store()`interactionRows, Store()`interactionCache, Outlets()`queue, Outlets()`recipients
      ensures memory != null ==> memory.Valid()
      ensures channels != null ==> channels.Valid()
      ensures r == old(HandlerResult(route, data, env, health))
      ensures calls == HandlerNotices(route, data, r, env)
      ensures unchanged(Store())
      ensures route.AgentToChannel? ==> Sent(data, env)
      ensures !route.AgentToChannel? ==> unchanged(Outlets())
    {
      match route
      case ChannelToAgent =>
        r, calls := RouteChannelToAgent(data, env);
      case AgentToChannel =>
        r, calls := RouteAgentToChannel(data, env);
      case InternalMessage =>
        r, calls := Ok(InternalResult(data, env, health)), [];
    }

    /** The part of `route_message` after a route is found:
        `message_received` goes out, the handler runs, and its result is
        announced as `message_processed`. A handler that raises ends the
        call before `message_processed`. */
    method Deliver(route: Route, source: string, destination: string, data: Dict, env: Env, health: string -> Value)
      returns (r: Result<Value>, ghost calls: seq<Notice>)
      requires agents != null ==> agents.Valid()
      requires memory != null ==> memory.Valid()
      requires channels != null ==> channels.Valid()
      modifies Store()`interactionRows, Store()`interactionCache, Outlets()`queue, Outlets()`recipients
      ensures memory != null ==> memory.Valid()
      ensures channels != null ==> channels.Valid()
      ensures r == old(HandlerResult(route, data, env, health))
      ensures calls == Emitted(handlers, "message_received", ReceivedEvent(source, destination, data, env)) +
        HandlerNotices(route, data, r, env) +
        (if r.Ok? then Emitted(handlers, "message_processed", ProcessedEvent(source, destination, data, r.value, env)) else [])
      ensures unchanged(Store())
      ensures route.AgentToChannel? ==> Sent(data, env)
      ensures !route.AgentToChannel? ==> unchanged(Outlets())
    {
      ghost var received := Emitted(handlers, "message_received", ReceivedEvent(source, destination, data, env));
      ghost var handled;
      r, handled := Dispatch(route, data, env, health);
      calls := received + handled;
      if r.Err? {
        return;
      }
      ghost var processed := Emitted(handlers, "message_processed", ProcessedEvent(source, destination, data, r.value, env));
      calls := calls + processed;
    }

    /** `route_message`: refused unless running; an unknown key is a no-op;
        otherwise the message is delivered along its route. `health`
        stands for the components' own health checks. */
    method RouteMessage(source: string, destination: string, data: Dict, env: Env, health: string -> Value)
      returns (r: Result<Value>, ghost calls: seq<Notice>)
      requires Valid()
      requires agents != null ==> agents.Valid()
      requires memory != null ==> memory.Valid()
      requires channels != null ==> channels.Valid()
      modifies Store()`interactionRows, Store()`interactionCache, Outlets()`queue, Outlets()`recipients
      ensures memory != null ==> memory.Valid()
      ensures channels != null ==> channels.Valid()
      ensures !running ==> r == Err("Gateway is not running") && calls == []
      ensures running && RouteKey(source, destination) !in routes ==> r == Ok(Null) && calls == []
      ensures running && RouteKey(source, destination) in routes ==>
        var route := routes[RouteKey(source, destination)];
        r == old(HandlerResult(route, data, env, health)) &&
        calls == Emitted(handlers, "message_received", ReceivedEvent(source, destination, data, env)) +
          HandlerNotices(route, data, r, env) +
          (if r.Ok? then Emitted(handlers, "message_processed", ProcessedEvent(source, destination, data, r.value, env)) else [])
      ensures unchanged(Store())
      ensures running && RouteKey(source, destination) in routes && routes[RouteKey(source, destination)].AgentToChannel?
        ==> Sent(data, env)
      ensures !(running && RouteKey(source, destination) in routes && routes[RouteKey(source, destination)].AgentToChannel?)
        ==> unchanged(Outlets())
    {
      calls := [];
      if !running {
        return Err("Gateway is not running"), calls;
      }
      var key := RouteKey(source, destination);
      if key !in routes {
        return Ok(Null), calls;
      }
      r, calls := Deliver(routes[key], source, destination, data, env, health);
    }
  }
}

=== FILE: memory.dfy ===
/** The memory store of src/memory/manager.py: an interaction cache bounded
    at 100 entries with oldest-first eviction, an "important" memory-entry
    cache, and write-through to two durable tables.

    The SQLite tables are abstract: each is a sequence of rows (one per
    successful INSERT, in insertion order) and `storeFails` says whether
    opening the database raises. Timestamps are integer instants; a row
    holds exactly what reading it back would give. */
module Memory {
  import opened Wrappers
  import opened Values
  import opened Text
  import opened Collections
  import opened Sorting

  /** The interaction cache is trimmed back to this size after each store. */
  const CacheCapacity: nat := 100
  /** Entries strictly above this importance are cached when stored. */
  const ImportanceThreshold: real := 0.7
  const DefaultImportance: real := 0.5
  /** How many interactions and memory entries start-up loads into the caches. */
  const LoadedInteractions: nat := 100
  const LoadedMemories: nat := 50
  /** What every statement raises while the database cannot be opened. */
  const StoreUnavailable := "unable to open database file"
  /** The error of inserting an interaction whose id is already stored. */
  const DuplicateInteraction := "UNIQUE constraint failed: interactions.id"

  datatype Interaction = Interaction(
    id: string,
    timestamp: int,
    source: string,
    userId: string,
    inputText: string,
    outputText: string,
    metadata: Value,              // stored as JSON when truthy, so then it must be `JsonEncodable`
    sessionId: Option<string>)

  datatype MemoryEntry = MemoryEntry(
    id: string,
    timestamp: int,
    category: string,
    content: string,
    tags: seq<string>,
    importance: real,
    expiresAt: Option<int>)

  function InteractionId(it: Interaction): string { it.id }

  function EntryId(m: MemoryEntry): string { m.id }

  /** The set of ids in `s`. */
  function InteractionIds(s: seq<Interaction>): set<string>
  {
    set i | 0 <= i < |s| :: s[i].id
  }

  function EntryIds(s: seq<MemoryEntry>): set<string>
  {
    set i | 0 <= i < |s| :: s[i].id
  }

  /** Newest first: the order of `ORDER BY timestamp DESC` and of
      `sort(key=timestamp, reverse=True)`. */
  predicate Newer(a: Interaction, b: Interaction)
  {
    a.timestamp >= b.timestamp
  }

  /** Most relevant first: the order of `sort(key=(importance, timestamp),
      reverse=True)` and of `ORDER BY importance DESC, timestamp DESC`. */
  predicate MoreRelevant(a: MemoryEntry, b: MemoryEntry)
  {
    a.importance > b.importance || (a.importance == b.importance && a.timestamp >= b.timestamp)
  }

  lemma NewerIsTotalPreorder()
    ensures TotalPreorder(Newer)
  {
  }

  lemma MoreRelevantIsTotalPreorder()
    ensures TotalPreorder(MoreRelevant)
  {
  }

  // ---------------------------------------------------------------------
  // Building a record from the caller's dictionary and binding it to a row
  // ---------------------------------------------------------------------

  /** `v.isoformat()`: only a datetime has it. */
  function IsoTime(v: Value): Result<int>
  {
    if v.Time? then Ok(v.t) else Err(NoAttributeError(v, "isoformat"))
  }

  /** Binding a value to the text primary key. */
  function KeyColumn(v: Value, column: string): Result<string>
  {
    if v.Str? then Ok(v.s) else Err("unsupported value for " + column)
  }

  /** Binding a value to a `TEXT NOT NULL` column. */
  function TextColumn(v: Value, column: string): Result<string>
  {
    match v
    case Str(s) => Ok(s)
    case Null => Err("NOT NULL constraint failed: " + column)
    case _ => Err("unsupported value for " + column)
  }

  /** Binding a value to a nullable text column. */
  function OptionalTextColumn(v: Value, column: string): Result<Option<string>>
  {
    match v
    case Str(s) => Ok(Some(s))
    case Null => Ok(None)
    case _ => Err("unsupported value for " + column)
  }

  function StringsOf(items: seq<Value>): Result<seq<string>>
  {
    if items == [] then Ok([])
    else if !items[0].Str? then Err("unsupported value for memory_entries.tags")
    else
      var rest :- StringsOf(items[1..]);
      Ok([items[0].s] + rest)
  }

  /** The tags list, which is stored as JSON and later joined with spaces. */
  function TagsColumn(v: Value): Result<seq<string>>
  {
    if v.List? then StringsOf(v.items) else Err("unsupported value for memory_entries.tags")
  }

  /** The importance, an int or a float. */
  function ImportanceColumn(v: Value): Result<real>
  {
    match v
    case Real(r) => Ok(r)
    case Int(i) => Ok(i as real)
    case _ => Err("unsupported value for memory_entries.importance")
  }

  /** `expires_at.isoformat() if expires_at else None`. */
  function ExpiryColumn(v: Value): Result<Option<int>>
  {
    if !Truthy(v) then Ok(None)
    else if v.Time? then Ok(Some(v.t))
    else Err(NoAttributeError(v, "isoformat"))
  }

  /** `key` is absent from `data` or holds a string. */
  predicate StrOrAbsent(data: Dict, key: string)
  {
    key in data ==> data[key].Str?
  }

  /** `json.dumps(v)` succeeds: no datetime object occurs in `v` at any
      depth. Every other value, an ISO string included, has a JSON form. */
  predicate JsonEncodable(v: Value)
  {
    match v
    case Time(_) => false
    case List(items) => forall i :: 0 <= i < |items| ==> JsonEncodable(items[i])
    case Obj(fields) => forall k :: k in fields ==> JsonEncodable(fields[k])
    case _ => true
  }

  /** The TypeError `json.dumps` raises on a value holding a datetime. */
  const DatetimeNotSerializable := "Object of type datetime is not JSON serializable"

  /** The Interaction that `store_interaction` builds from `data`, or the
      error that building and binding its row raises. The row's values are
      all computed before the insert binds them, so the timestamp's
      `isoformat()` and the metadata's `json.dumps` raise before any column
      is refused. */
  function BuildInteraction(data: Dict, env: Env): (r: Result<Interaction>)
    ensures "timestamp" in data && !data["timestamp"].Time? ==>
      r == Err(NoAttributeError(data["timestamp"], "isoformat"))
    ensures GetOr(data, "timestamp", Time(env.now)).Time? && Truthy(Get(data, "metadata")) && !JsonEncodable(Get(data, "metadata")) ==>
      r == Err(DatetimeNotSerializable)
  {
    var timestamp :- IsoTime(GetOr(data, "timestamp", Time(env.now)));
    var metadata := Get(data, "metadata");
    if Truthy(metadata) && !JsonEncodable(metadata) then Err(DatetimeNotSerializable)
    else
      var id :- KeyColumn(GetOr(data, "id", Str("int_" + env.freshId)), "interactions.id");
      var source :- TextColumn(GetOr(data, "source", Str("unknown")), "interactions.source");
      var userId :- TextColumn(GetOr(data, "user_id", Str("unknown")), "interactions.user_id");
      var input :- TextColumn(GetOr(data, "input_text", Str("")), "interactions.input_text");
      var output :- TextColumn(GetOr(data, "output_text", Str("")), "interactions.output_text");
      var session :- OptionalTextColumn(Get(data, "session_id"), "interactions.session_id");
      Ok(Interaction(id, timestamp, source, userId, input, output, metadata, session))
  }

  /** Building succeeds exactly when the timestamp is a datetime, the
      metadata is None, falsy or encodable as JSON, every text column gets a
      string and the session id is a string or None. */
  lemma BuildInteractionOkIff(data: Dict, env: Env)
    ensures BuildInteraction(data, env).Ok? <==>
      GetOr(data, "timestamp", Time(env.now)).Time? &&
      (!Truthy(Get(data, "metadata")) || JsonEncodable(Get(data, "metadata"))) &&
      StrOrAbsent(data, "id") && StrOrAbsent(data, "source") && StrOrAbsent(data, "user_id") &&
      StrOrAbsent(data, "input_text") && StrOrAbsent(data, "output_text") &&
      (Get(data, "session_id").Str? || Get(data, "session_id").Null?)
  {
  }

  /** Metadata holding a datetime is refused by `json.dumps`, so nothing
      is built and no row is written. */
  lemma DatetimeMetadataRefused(env: Env)
    ensures BuildInteraction(map["metadata" := Obj(map["at" := Time(env.now)])], env) == Err(DatetimeNotSerializable)
  {
    var metadata := Obj(map["at" := Time(env.now)]);
    assert !JsonEncodable(metadata) by {
      assert "at" in metadata.fields && !JsonEncodable(metadata.fields["at"]);
    }
  }

  /** A built interaction holds the caller's values, with the defaults of
      `store_interaction` for absent keys; the metadata is taken as given. */
  lemma BuildInteractionFields(data: Dict, env: Env)
    requires BuildInteraction(data, env).Ok?
    ensures var it := BuildInteraction(data, env).value;
      GetOr(data, "timestamp", Time(env.now)) == Time(it.timestamp) &&
      GetOr(data, "id", Str("int_" + env.freshId)) == Str(it.id) &&
      GetOr(data, "source", Str("unknown")) == Str(it.source) &&
      GetOr(data, "user_id", Str("unknown")) == Str(it.userId) &&
      GetOr(data, "input_text", Str("")) == Str(it.inputText) &&
      GetOr(data, "output_text", Str("")) == Str(it.outputText) &&
      it.metadata == Get(data, "metadata") &&
      (it.sessionId.Some? <==> Get(data, "session_id").Str?)
  {
  }

  /** What reading the row back gives: falsy metadata is stored as NULL. */
  function Stored(it: Interaction): Interaction
  {
    if Truthy(it.metadata) then it else it.(metadata := Null)
  }

  /** The MemoryEntry that `store_memory` builds from `data`, or the error
      that building and binding its row raises. */
  function BuildMemoryEntry(data: Dict, env: Env): (r: Result<MemoryEntry>)
    ensures "timestamp" in data && !data["timestamp"].Time? ==>
      r == Err(NoAttributeError(data["timestamp"], "isoformat"))
  {
    var timestamp :- IsoTime(GetOr(data, "timestamp", Time(env.now)));
    var expiresAt :- ExpiryColumn(Get(data, "expires_at"));
    var id :- KeyColumn(GetOr(data, "id", Str("mem_" + env.freshId)), "memory_entries.id");
    var category :- TextColumn(GetOr(data, "category", Str("general")), "memory_entries.category");
    var content :- TextColumn(GetOr(data, "content", Str("")), "memory_entries.content");
    var tags :- TagsColumn(GetOr(data, "tags", List([])));
    var importance :- ImportanceColumn(GetOr(data, "importance", Real(DefaultImportance)));
    Ok(MemoryEntry(id, timestamp, category, content, tags, importance, expiresAt))
  }

  /** A built memory entry holds the caller's values, with the defaults of
      `store_memory` for absent keys; an expiry is kept only when it is truthy. */
  lemma BuildMemoryEntryFields(data: Dict, env: Env)
    requires BuildMemoryEntry(data, env).Ok?
    ensures var m := BuildMemoryEntry(data, env).value;
      GetOr(data, "timestamp", Time(env.now)) == Time(m.timestamp) &&
      GetOr(data, "id", Str("mem_" + env.freshId)) == Str(m.id) &&
      GetOr(data, "category", Str("general")) == Str(m.category) &&
      GetOr(data, "content", Str("")) == Str(m.content) &&
      ("tags" !in data ==> m.tags == []) &&
      (GetOr(data, "importance", Real(DefaultImportance)) == Real(m.importance) ||
       GetOr(data, "importance", Real(DefaultImportance)) == Int(m.importance.Floor)) &&
      (m.expiresAt.None? <==> !Truthy(Get(data, "expires_at"))) &&
      (m.expiresAt.Some? ==> Get(data, "expires_at") == Time(m.expiresAt.value))
  {
  }

  /** Some row of `rows` already has the primary key `id`. */
  predicate HasInteractionId(rows: seq<Interaction>, id: string)
  {
    exists i :: 0 <= i < |rows| && rows[i].id == id
  }

  predicate HasEntryId(rows: seq<MemoryEntry>, id: string)
  {
    exists i :: 0 <= i < |rows| && rows[i].id == id
  }

  // ---------------------------------------------------------------------
  // Cache eviction
  // ---------------------------------------------------------------------

  function TimeOf(cache: map<string, Interaction>, k: string): int
  {
    if k in cache then cache[k].timestamp else 0
  }

  /** `after` is what is left of `before` once its oldest entries are
      deleted until at most `capacity` remain. */
  ghost predicate KeepsNewest(before: map<string, Interaction>, after: map<string, Interaction>, capacity: nat)
  {
    (forall k :: k in after ==> k in before && after[k] == before[k]) &&
    |after| == (if |before| <= capacity then |before| else capacity) &&
    (forall e, k :: e in before && e !in after && k in after ==> before[e].timestamp <= after[k].timestamp)
  }

  /** `ids` lists cache keys oldest first. */
  ghost predicate OldestFirst(cache: map<string, Interaction>, ids: seq<string>)
  {
    forall i, j :: 0 <= i < j < |ids| ==> TimeOf(cache, ids[i]) <= TimeOf(cache, ids[j])
  }

  /** What the eviction loop keeps: `kept` is the part of `cache` whose keys
      are still listed in `ids`, and every deleted entry is older than every
      kept one. */
  ghost predicate EvictionState(cache: map<string, Interaction>, kept: map<string, Interaction>, ids: seq<string>)
  {
    OldestFirst(cache, ids) && Distinct(ids) &&
    (forall k :: k in kept <==> k in ids) &&
    (forall k :: k in kept ==> k in cache && kept[k] == cache[k]) &&
    |kept| == |ids| &&
    (forall e, k :: e in cache && e !in kept && k in kept ==> cache[e].timestamp <= cache[k].timestamp)
  }

  /** The first listed id is the oldest of the kept entries. */
  lemma OldestListedFirst(cache: map<string, Interaction>, kept: map<string, Interaction>, ids: seq<string>)
    requires EvictionState(cache, kept, ids) && ids != []
    ensures forall k :: k in kept ==> cache[ids[0]].timestamp <= cache[k].timestamp
  {
    forall k | k in kept
      ensures cache[ids[0]].timestamp <= cache[k].timestamp
    {
      var m :| 0 <= m < |ids| && ids[m] == k;
      assert m == 0 || TimeOf(cache, ids[0]) <= TimeOf(cache, ids[m]);
    }
  }

  /** The rest of an oldest-first list of distinct ids is one too, without its head. */
  lemma OldestFirstTail(cache: map<string, Interaction>, ids: seq<string>)
    requires OldestFirst(cache, ids) && Distinct(ids) && ids != []
    ensures OldestFirst(cache, ids[1..]) && Distinct(ids[1..]) && ids[0] !in ids[1..]
  {
  }

  /** Deleting the first listed id keeps the loop's state. */
  lemma EvictStep(cache: map<string, Interaction>, kept: map<string, Interaction>, ids: seq<string>)
    requires EvictionState(cache, kept, ids) && ids != []
    ensures EvictionState(cache, kept - {ids[0]}, ids[1..])
  {
    OldestListedFirst(cache, kept, ids);
    OldestFirstTail(cache, ids);
    RemoveKeyCardinality(kept, ids[0]);
    assert forall k :: k in ids <==> k == ids[0] || k in ids[1..];
  }

  /** The trimming step of `store_interaction`: sort the ids oldest first
      and delete from the front while the cache is over capacity. Entries
      with equal timestamps may go in either order. */
  method EvictOldest(cache: map<string, Interaction>, capacity: nat) returns (kept: map<string, Interaction>)
    ensures KeepsNewest(cache, kept, capacity)
  {
    kept := cache;
    if |kept| > capacity {
      var keys := KeysOf(kept);
      var older := (a: string, b: string) => TimeOf(cache, a) <= TimeOf(cache, b);
      assert TotalPreorder(older);
      var sortedIds := SortBy(keys, older);
      SortBySorted(keys, older);
      DistinctIsUniqueBy(keys);
      SortByUnique(keys, older, Identity);
      DistinctIsUniqueBy(sortedIds);
      forall k ensures k in sortedIds <==> k in cache {
        SortByMembers(keys, older, k);
      }
      while |kept| > capacity
        invariant EvictionState(cache, kept, sortedIds)
        invariant |kept| >= capacity
        decreases |sortedIds|
      {
        EvictStep(cache, kept, sortedIds);
        kept := kept - {sortedIds[0]};
        sortedIds := sortedIds[1..];
      }
    }
  }

  // ---------------------------------------------------------------------
  // Start-up loading
  // ---------------------------------------------------------------------

  /** The rows of `SELECT ... FROM interactions ORDER BY timestamp DESC LIMIT 100`. */
  function RecentRows(rows: seq<Interaction>): (r: seq<Interaction>)
    ensures |r| <= LoadedInteractions
    ensures forall i :: 0 <= i < |r| ==> r[i] in rows
  {
    NewerIsTotalPreorder();
    TopShape(rows, Newer, LoadedInteractions);
    Top(rows, Newer, LoadedInteractions)
  }

  /** A memory entry the start-up query keeps: `importance > 0.7 OR expires_at IS NULL`. */
  predicate Retained(m: MemoryEntry)
  {
    m.importance > ImportanceThreshold || m.expiresAt.None?
  }

  /** The rows of the start-up query on memory_entries, most relevant first, at most 50. */
  function ImportantRows(rows: seq<MemoryEntry>): (r: seq<MemoryEntry>)
    ensures |r| <= LoadedMemories
    ensures forall i :: 0 <= i < |r| ==> r[i] in rows && Retained(r[i])
  {
    var kept := Filter(rows, Retained);
    MoreRelevantIsTotalPreorder();
    TopShape(kept, MoreRelevant, LoadedMemories);
    forall m | m in kept ensures m in rows && Retained(m) {
      FilterMembers(rows, Retained, m);
    }
    Top(kept, MoreRelevant, LoadedMemories)
  }

  // ---------------------------------------------------------------------
  // Queries
  // ---------------------------------------------------------------------

  /** `if user_id:` -- None and the empty string both mean "every user". */
  predicate FiltersUser(userId: Option<string>)
  {
    userId.Some? && userId.value != ""
  }

  /** `if category:` -- the category test applied by the cache scan and the SQL query. */
  predicate InCategory(m: MemoryEntry, category: Option<string>)
  {
    category.None? || category.value == "" || m.category == category.value
  }

  /** The cache scan's match: the lower-cased query occurs in the lower-cased
      content or in the lower-cased space-joined tags. */
  predicate TextMatches(m: MemoryEntry, query: string)
  {
    Contains(Lower(m.content), Lower(query)) || Contains(Lower(Join(" ", m.tags)), Lower(query))
  }

  /** `datetime(expires_at) < datetime(?)`, on instants counted in whole
      seconds of UTC. */
  predicate Expired(m: MemoryEntry, now: int)
  {
    m.expiresAt.Some? && m.expiresAt.value < now
  }

  /** Appends each row whose id is not yet among the results, in order:
      the de-duplicating loop over the search query's rows. */
  method AppendNewIds(results: seq<MemoryEntry>, rows: seq<MemoryEntry>) returns (merged: seq<MemoryEntry>)
    requires UniqueBy(results, EntryId)
    ensures UniqueBy(merged, EntryId)
    ensures |merged| >= |results| && merged[..|results|] == results
    ensures forall i :: |results| <= i < |merged| ==> merged[i] in rows
    ensures forall j :: 0 <= j < |rows| ==> rows[j].id in EntryIds(merged)
  {
    merged := results;
    var j := 0;
    while j < |rows|
      invariant 0 <= j <= |rows|
      invariant UniqueBy(merged, EntryId)
      invariant |merged| >= |results| && merged[..|results|] == results
      invariant forall i :: |results| <= i < |merged| ==> merged[i] in rows
      invariant forall i :: 0 <= i < j ==> rows[i].id in EntryIds(merged)
    {
      var row := rows[j];
      if !(exists i :: 0 <= i < |merged| && merged[i].id == row.id) {
        assert forall i :: 0 <= i < |merged| ==> (merged + [row])[i] == merged[i];
        merged := merged + [row];
        assert merged[|merged| - 1].id == row.id;
      } else {
        var i :| 0 <= i < |merged| && merged[i].id == row.id;
      }
      j := j + 1;
    }
  }

  /** The interactions table: unique primary keys, rows as read back. */
  ghost predicate InteractionRowsValid(rows: seq<Interaction>)
  {
    UniqueBy(rows, InteractionId) &&
    forall i :: 0 <= i < |rows| ==> Stored(rows[i]) == rows[i]
  }

  /** The interaction cache is keyed by id and holds only stored interactions. */
  ghost predicate InteractionCacheValid(cache: map<string, Interaction>, rows: seq<Interaction>)
  {
    forall k :: k in cache ==> cache[k].id == k && Stored(cache[k]) in rows
  }

  /** The memory cache is keyed by id and holds only stored entries. */
  ghost predicate MemoryCacheValid(cache: map<string, MemoryEntry>, rows: seq<MemoryEntry>)
  {
    forall k :: k in cache ==> cache[k].id == k && cache[k] in rows
  }

  lemma LoadedInteractionsValid(cache: map<string, Interaction>, rows: seq<Interaction>, loaded: seq<Interaction>)
    requires InteractionRowsValid(rows) && InteractionCacheValid(cache, rows)
    requires forall i :: 0 <= i < |loaded| ==> loaded[i] in rows
    ensures InteractionCacheValid(PutAll(cache, loaded, InteractionId), rows)
  {
    var m := PutAll(cache, loaded, InteractionId);
    PutAllSources(cache, loaded, InteractionId);
    forall k | k in m
      ensures m[k].id == k && Stored(m[k]) in rows
    {
      if !(k in cache && m[k] == cache[k]) {
        var i :| 0 <= i < |loaded| && loaded[i] == m[k];
        var j :| 0 <= j < |rows| && rows[j] == loaded[i];
        assert Stored(rows[j]) == rows[j];
      }
    }
  }

  lemma LoadedMemoriesValid(cache: map<string, MemoryEntry>, rows: seq<MemoryEntry>, loaded: seq<MemoryEntry>)
    requires MemoryCacheValid(cache, rows)
    requires forall i :: 0 <= i < |loaded| ==> loaded[i] in rows
    ensures MemoryCacheValid(PutAll(cache, loaded, EntryId), rows)
  {
    var m := PutAll(cache, loaded, EntryId);
    PutAllSources(cache, loaded, EntryId);
    forall k | k in m
      ensures m[k].id == k && m[k] in rows
    {
      if !(k in cache && m[k] == cache[k]) {
        var i :| 0 <= i < |loaded| && loaded[i] == m[k];
      }
    }
  }

  /** Inserting a row with a fresh id keeps the table and the cache valid. */
  lemma InsertedInteractionValid(cache: map<string, Interaction>, rows: seq<Interaction>, it: Interaction)
    requires InteractionRowsValid(rows) && InteractionCacheValid(cache, rows)
    requires !HasInteractionId(rows, it.id)
    ensures InteractionRowsValid(rows + [Stored(it)])
    ensures InteractionCacheValid(cache, rows + [Stored(it)])
  {
    UniqueConcat(rows, [Stored(it)], InteractionId);
    var rows' := rows + [Stored(it)];
    assert forall i :: 0 <= i < |rows| ==> rows'[i] == rows[i];
    assert rows'[|rows|] == Stored(it);
  }

  /** Part of a valid cache, possibly after caching a stored interaction under its id, is valid. */
  lemma SubCacheValid(cache: map<string, Interaction>, it: Interaction, after: map<string, Interaction>, rows: seq<Interaction>)
    requires InteractionCacheValid(cache, rows) && Stored(it) in rows
    requires forall k :: k in after ==> k in cache[it.id := it] && after[k] == cache[it.id := it][k]
    ensures InteractionCacheValid(after, rows)
  {
  }

  // ---------------------------------------------------------------------
  // What the queries return
  // ---------------------------------------------------------------------

  function ByUser(userId: string): Interaction -> bool
  {
    (row: Interaction) => row.userId == userId
  }

  function NotTaken(taken: set<string>): Interaction -> bool
  {
    (row: Interaction) => row.id !in taken
  }

  /** `SELECT ... FROM interactions WHERE user_id = ? ORDER BY timestamp DESC LIMIT ?`. */
  function UserRows(rows: seq<Interaction>, userId: string, limit: nat): seq<Interaction>
  {
    Top(Filter(rows, ByUser(userId)), Newer, limit)
  }

  /** `SELECT ... FROM interactions WHERE id NOT IN (...) ORDER BY timestamp DESC LIMIT ?`. */
  function OtherRows(rows: seq<Interaction>, taken: set<string>, limit: nat): seq<Interaction>
  {
    Top(Filter(rows, NotTaken(taken)), Newer, limit)
  }

  /** A user's recent interactions: at most `limit` of that user's rows,
      newest first, no id twice, and one of the user's rows is left out only
      when `limit` rows at least as new are returned. */
  ghost predicate UserRecent(rows: seq<Interaction>, userId: string, limit: nat, r: seq<Interaction>)
  {
    |r| <= limit && SortedBy(r, Newer) && UniqueBy(r, InteractionId) &&
    (forall i :: 0 <= i < |r| ==> r[i] in rows && r[i].userId == userId) &&
    (forall row :: row in rows && row.userId == userId && row !in r ==>
       |r| == limit && forall i :: 0 <= i < |r| ==> Newer(r[i], row))
  }

  lemma UserRowsSpec(rows: seq<Interaction>, userId: string, limit: nat)
    requires UniqueBy(rows, InteractionId)
    ensures UserRecent(rows, userId, limit, UserRows(rows, userId, limit))
  {
    var mine := Filter(rows, ByUser(userId));
    NewerIsTotalPreorder();
    TopShape(mine, Newer, limit);
    UniqueFilter(rows, ByUser(userId), InteractionId);
    TopUnique(mine, Newer, limit, InteractionId);
    forall row | row in rows || row in mine
      ensures row in mine <==> row in rows && row.userId == userId
    {
      FilterMembers(rows, ByUser(userId), row);
    }
  }

  /** The unfiltered recent interactions: at most `limit`, newest first, no
      id twice, each from the cache or the table; only cached ones when the
      cache holds `limit` or more; a cached interaction is left out only
      when `limit` interactions at least as new are returned; and a table row
      whose id is not cached is left out only when `limit` interactions are
      returned and every returned one that is not cached is at least as new. */
  ghost predicate MergedRecent(cache: map<string, Interaction>, rows: seq<Interaction>, limit: nat, r: seq<Interaction>)
  {
    |r| <= limit && SortedBy(r, Newer) && UniqueBy(r, InteractionId) &&
    (forall i :: 0 <= i < |r| ==> r[i] in cache.Values || r[i] in rows) &&
    (limit <= |cache| ==> forall i :: 0 <= i < |r| ==> r[i] in cache.Values) &&
    (forall k :: k in cache && cache[k] !in r ==>
       |r| == limit && forall i :: 0 <= i < |r| ==> Newer(r[i], cache[k])) &&
    (forall row :: row in rows && row.id !in cache && row !in r ==>
       |r| == limit && forall i :: 0 <= i < |r| && r[i].id !in cache ==> Newer(r[i], row))
  }

  /** The newest `limit` cached interactions number `min(limit, |cache|)`. */
  lemma CachedSize(cache: map<string, Interaction>, keys: seq<string>, limit: nat)
    requires forall k :: k in keys <==> k in cache
    requires |keys| == |cache|
    ensures |Top(ValuesAt(cache, keys), Newer, limit)| < limit <==> |cache| < limit
  {
    NewerIsTotalPreorder();
    TopShape(ValuesAt(cache, keys), Newer, limit);
  }

  /** The cache's values, listed once per key, are id-unique and are exactly the cached interactions. */
  lemma CacheValues(cache: map<string, Interaction>, keys: seq<string>)
    requires forall k :: k in cache ==> cache[k].id == k
    requires forall k :: k in keys <==> k in cache
    requires Distinct(keys)
    ensures UniqueBy(ValuesAt(cache, keys), InteractionId)
    ensures forall x :: x in ValuesAt(cache, keys) <==> x in cache.Values
  {
    var values := ValuesAt(cache, keys);
    forall x | x in values
      ensures x in cache.Values
    {
      var i :| 0 <= i < |values| && values[i] == x;
      assert keys[i] in cache;
    }
    forall x | x in cache.Values
      ensures x in values
    {
      var k :| k in cache && cache[k] == x;
      var i :| 0 <= i < |keys| && keys[i] == k;
      assert values[i] == x;
    }
  }

  /** The rows fetched beside the cache are table rows whose ids the cache
      slice does not hold, and no id among them and the slice occurs twice. */
  lemma OtherRowsSpec(rows: seq<Interaction>, cached: seq<Interaction>, n: nat)
    requires UniqueBy(rows, InteractionId) && UniqueBy(cached, InteractionId)
    ensures UniqueBy(OtherRows(rows, InteractionIds(cached), n) + cached, InteractionId)
    ensures forall x :: x in OtherRows(rows, InteractionIds(cached), n) ==> x in rows
  {
    var taken := InteractionIds(cached);
    var others := Filter(rows, NotTaken(taken));
    var db := OtherRows(rows, taken, n);
    NewerIsTotalPreorder();
    TopShape(others, Newer, n);
    UniqueFilter(rows, NotTaken(taken), InteractionId);
    TopUnique(others, Newer, n, InteractionId);
    forall x, y | x in db && y in cached
      ensures x.id != y.id
    {
      FilterMembers(rows, NotTaken(taken), x);
      var j :| 0 <= j < |cached| && cached[j] == y;
    }
    forall x | x in db
      ensures x in rows
    {
      FilterMembers(rows, NotTaken(taken), x);
    }
    UniqueConcat(db, cached, InteractionId);
  }

  /** The newest `limit` of the cached values: no id twice, each a cached
      value, and `limit` of them unless there are fewer values. */
  lemma CachedSlice(values: seq<Interaction>, limit: nat)
    requires UniqueBy(values, InteractionId)
    ensures UniqueBy(Top(values, Newer, limit), InteractionId)
    ensures forall x :: x in Top(values, Newer, limit) ==> x in values
    ensures |Top(values, Newer, limit)| == if |values| <= limit then |values| else limit
  {
    NewerIsTotalPreorder();
    TopShape(values, Newer, limit);
    TopUnique(values, Newer, limit, InteractionId);
  }

  /** The cache slice and the rows fetched beside it hold no id twice, come
      from the cache's values or the table, and are the slice alone when the
      cache holds `limit` or more. */
  lemma {:induction false} MergedParts(rows: seq<Interaction>, values: seq<Interaction>, limit: nat, cached: seq<Interaction>, db: seq<Interaction>)
    requires UniqueBy(rows, InteractionId) && UniqueBy(values, InteractionId)
    requires cached == Top(values, Newer, limit)
    requires db == if |cached| < limit then OtherRows(rows, InteractionIds(cached), limit - |cached|) else []
    ensures UniqueBy(db + cached, InteractionId)
    ensures forall x :: x in db + cached ==> x in values || x in rows
    ensures forall x :: x in cached ==> x in values
    ensures limit <= |values| ==> db + cached == cached
  {
    CachedSlice(values, limit);
    if |cached| < limit {
      OtherRowsSpec(rows, cached, limit - |cached|);
    } else {
      assert db + cached == cached;
    }
  }

  /** A cached interaction either survives the final cut or is outranked by
      all `limit` interactions returned. */
  lemma KeptOrOutranked(values: seq<Interaction>, db: seq<Interaction>, limit: nat, c: Interaction)
    requires c in values
    requires |Top(values, Newer, limit)| >= limit ==> db == []
    ensures var r := Top(db + Top(values, Newer, limit), Newer, limit);
      c in r || (|r| == limit && forall i :: 0 <= i < |r| ==> Newer(r[i], c))
  {
    var cached := Top(values, Newer, limit);
    NewerIsTotalPreorder();
    if c in cached {
      TopShape(db + cached, Newer, limit);
    } else {
      TopShape(values, Newer, limit);
      assert db + cached == cached;
      var r := Top(cached, Newer, limit);
      TopShape(cached, Newer, limit);
      forall i | 0 <= i < |r|
        ensures Newer(r[i], c)
      {
        assert r[i] in r;
        var j :| 0 <= j < |cached| && cached[j] == r[i];
      }
    }
  }

  /** The newest `limit` of an id-unique sequence are at most `limit`,
      newest first and id-unique. */
  lemma NewestUnique(all: seq<Interaction>, limit: nat)
    requires UniqueBy(all, InteractionId)
    ensures |Top(all, Newer, limit)| <= limit
    ensures SortedBy(Top(all, Newer, limit), Newer)
    ensures UniqueBy(Top(all, Newer, limit), InteractionId)
  {
    NewerIsTotalPreorder();
    TopShape(all, Newer, limit);
    TopUnique(all, Newer, limit, InteractionId);
  }

  /** Every interaction of the final cut comes from the cache or the table,
      and only from the cache when the merge is the cache slice alone. */
  lemma {:induction false} MergedSources(cache: map<string, Interaction>, rows: seq<Interaction>, values: seq<Interaction>, limit: nat,
                      all: seq<Interaction>, cached: seq<Interaction>)
    requires forall x :: x in values <==> x in cache.Values
    requires |values| == |cache|
    requires forall x :: x in all ==> x in values || x in rows
    requires forall x :: x in cached ==> x in values
    requires limit <= |values| ==> all == cached
    ensures forall i :: 0 <= i < |Top(all, Newer, limit)| ==>
      Top(all, Newer, limit)[i] in cache.Values || Top(all, Newer, limit)[i] in rows
    ensures limit <= |cache| ==> forall i :: 0 <= i < |Top(all, Newer, limit)| ==> Top(all, Newer, limit)[i] in cache.Values
  {
    var r := Top(all, Newer, limit);
    NewerIsTotalPreorder();
    TopShape(all, Newer, limit);
    forall i | 0 <= i < |r|
      ensures r[i] in all
    {
      assert r[i] in r;
    }
  }

  /** The final cut leaves a cached interaction out only when all `limit`
      interactions returned are at least as new. */
  lemma {:induction false} CachedOutranked(cache: map<string, Interaction>, values: seq<Interaction>, limit: nat,
                                           cached: seq<Interaction>, db: seq<Interaction>)
    requires forall x :: x in cache.Values ==> x in values
    requires cached == Top(values, Newer, limit)
    requires |cached| >= limit ==> db == []
    ensures forall k :: k in cache && cache[k] !in Top(db + cached, Newer, limit) ==>
      |Top(db + cached, Newer, limit)| == limit &&
      forall i :: 0 <= i < |Top(db + cached, Newer, limit)| ==> Newer(Top(db + cached, Newer, limit)[i], cache[k])
  {
    forall k | k in cache && cache[k] !in Top(db + cached, Newer, limit)
      ensures |Top(db + cached, Newer, limit)| == limit &&
        forall i :: 0 <= i < |Top(db + cached, Newer, limit)| ==> Newer(Top(db + cached, Newer, limit)[i], cache[k])
    {
      assert cache[k] in cache.Values;
      KeptOrOutranked(values, db, limit, cache[k]);
    }
  }

  /** The rows fetched beside the cache slice leave out a table row with an
      uncached id only when there are `n` of them, all at least as new. */
  lemma OtherRowsFilled(rows: seq<Interaction>, taken: set<string>, n: nat, row: Interaction)
    requires row in rows && row.id !in taken && row !in OtherRows(rows, taken, n)
    ensures |OtherRows(rows, taken, n)| == n
    ensures forall x :: x in OtherRows(rows, taken, n) ==> Newer(x, row)
  {
    NewerIsTotalPreorder();
    TopShape(Filter(rows, NotTaken(taken)), Newer, n);
    FilterMembers(rows, NotTaken(taken), row);
  }

  /** With fewer than `limit` cached, the rows fetched beside the cache slice
      leave out a row with an uncached id only when they fill the result up
      to `limit` and are all at least as new as it. */
  lemma {:induction false} ShortCacheFilled(rows: seq<Interaction>, cached: seq<Interaction>, limit: nat, row: Interaction)
    requires |cached| < limit
    requires row in rows && row.id !in InteractionIds(cached)
    requires row !in Top(OtherRows(rows, InteractionIds(cached), limit - |cached|) + cached, Newer, limit)
    ensures var r := Top(OtherRows(rows, InteractionIds(cached), limit - |cached|) + cached, Newer, limit);
      |r| == limit && forall i :: 0 <= i < |r| && r[i].id !in InteractionIds(cached) ==> Newer(r[i], row)
  {
    var taken := InteractionIds(cached);
    var db := OtherRows(rows, taken, limit - |cached|);
    var all := db + cached;
    var r := Top(all, Newer, limit);
    NewerIsTotalPreorder();
    TopShape(Filter(rows, NotTaken(taken)), Newer, limit - |cached|);
    assert |all| <= limit;
    TopKeepsShort(all, Newer, limit);
    assert row !in db;
    OtherRowsFilled(rows, taken, limit - |cached|, row);
    IdsOfMembers(cached);
    forall i | 0 <= i < |r| && r[i].id !in taken
      ensures Newer(r[i], row)
    {
      assert r[i] in all;
    }
  }

  /** Every member's id is among the ids of a sequence. */
  lemma IdsOfMembers(s: seq<Interaction>)
    ensures forall x :: x in s ==> x.id in InteractionIds(s)
  {
    forall x | x in s ensures x.id in InteractionIds(s) {
      var j :| 0 <= j < |s| && s[j] == x;
    }
  }

  /** Each interaction of the cache slice is stored under its id. */
  lemma CachedIdsInCache(cache: map<string, Interaction>, values: seq<Interaction>, limit: nat)
    requires forall k :: k in cache ==> cache[k].id == k
    requires forall x :: x in values <==> x in cache.Values
    ensures forall x :: x in Top(values, Newer, limit) ==> x.id in cache
    ensures forall id :: id in InteractionIds(Top(values, Newer, limit)) ==> id in cache
  {
    NewerIsTotalPreorder();
    TopShape(values, Newer, limit);
    var cached := Top(values, Newer, limit);
    forall x | x in cached ensures x.id in cache {
      assert x in cache.Values;
      var k :| k in cache && cache[k] == x;
    }
    forall id | id in InteractionIds(cached) ensures id in cache {
      var i :| 0 <= i < |cached| && cached[i].id == id;
      assert cached[i] in cached;
    }
  }

  /** The table fills what the cache leaves: a row whose id is not cached is
      left out of the final cut only when `limit` interactions are returned
      and every returned interaction that is not cached is at least as new. */
  lemma {:induction false} TableFilled(cache: map<string, Interaction>, rows: seq<Interaction>, values: seq<Interaction>, limit: nat,
                                       cached: seq<Interaction>, db: seq<Interaction>)
    requires forall k :: k in cache ==> cache[k].id == k
    requires forall x :: x in values <==> x in cache.Values
    requires |values| == |cache|
    requires cached == Top(values, Newer, limit)
    requires db == if |cached| < limit then OtherRows(rows, InteractionIds(cached), limit - |cached|) else []
    ensures var r := Top(db + cached, Newer, limit);
      forall row :: row in rows && row.id !in cache && row !in r ==>
        |r| == limit && forall i :: 0 <= i < |r| && r[i].id !in cache ==> Newer(r[i], row)
  {
    var r := Top(db + cached, Newer, limit);
    CachedIdsInCache(cache, values, limit);
    if |cached| >= limit {
      NewerIsTotalPreorder();
      assert db + cached == cached;
      TopShape(cached, Newer, limit);
      forall i | 0 <= i < |r| ensures r[i].id in cache {
        assert r[i] in r;
      }
    } else {
      forall row | row in rows && row.id !in cache && row !in r
        ensures |r| == limit && forall i :: 0 <= i < |r| && r[i].id !in cache ==> Newer(r[i], row)
      {
        ShortCacheFilled(rows, cached, limit, row);
      }
    }
  }

  /** Merging the newest cached interactions with the rows fetched beside
      them, then sorting and truncating, gives a `MergedRecent` result. */
  lemma {:induction false} MergedRecentSpec(cache: map<string, Interaction>, rows: seq<Interaction>, keys: seq<string>, limit: nat,
                         cached: seq<Interaction>, db: seq<Interaction>)
    requires UniqueBy(rows, InteractionId)
    requires forall k :: k in cache ==> cache[k].id == k
    requires forall k :: k in keys <==> k in cache
    requires Distinct(keys) && |keys| == |cache|
    requires cached == Top(ValuesAt(cache, keys), Newer, limit)
    requires db == if |cached| < limit then OtherRows(rows, InteractionIds(cached), limit - |cached|) else []
    ensures MergedRecent(cache, rows, limit, Top(db + cached, Newer, limit))
  {
    CacheValues(cache, keys);
    MergedShape(cache, rows, ValuesAt(cache, keys), limit, cached, db);
    MergedComplete(cache, rows, ValuesAt(cache, keys), limit, cached, db);
  }

  /** The first half of `MergedRecent`: the merged list is short enough,
      newest first, id-unique, and drawn from the cache and the table. */
  lemma MergedShape(cache: map<string, Interaction>, rows: seq<Interaction>, values: seq<Interaction>, limit: nat,
                    cached: seq<Interaction>, db: seq<Interaction>)
    requires UniqueBy(rows, InteractionId) && UniqueBy(values, InteractionId)
    requires forall x :: x in values <==> x in cache.Values
    requires |values| == |cache|
    requires cached == Top(values, Newer, limit)
    requires db == if |cached| < limit then OtherRows(rows, InteractionIds(cached), limit - |cached|) else []
    ensures var r := Top(db + cached, Newer, limit);
      |r| <= limit && SortedBy(r, Newer) && UniqueBy(r, InteractionId) &&
      (forall i :: 0 <= i < |r| ==> r[i] in cache.Values || r[i] in rows) &&
      (limit <= |cache| ==> forall i :: 0 <= i < |r| ==> r[i] in cache.Values)
  {
    MergedParts(rows, values, limit, cached, db);
    NewestUnique(db + cached, limit);
    MergedSources(cache, rows, values, limit, db + cached, cached);
  }

  /** The second half of `MergedRecent`: a cached interaction or a row
      outside the cache is left out only behind `limit` newer ones. */
  lemma MergedComplete(cache: map<string, Interaction>, rows: seq<Interaction>, values: seq<Interaction>, limit: nat,
                       cached: seq<Interaction>, db: seq<Interaction>)
    requires forall k :: k in cache ==> cache[k].id == k
    requires forall x :: x in values <==> x in cache.Values
    requires |values| == |cache|
    requires cached == Top(values, Newer, limit)
    requires db == if |cached| < limit then OtherRows(rows, InteractionIds(cached), limit - |cached|) else []
    ensures var r := Top(db + cached, Newer, limit);
      (forall k :: k in cache && cache[k] !in r ==>
         |r| == limit && forall i :: 0 <= i < |r| ==> Newer(r[i], cache[k])) &&
      (forall row :: row in rows && row.id !in cache && row !in r ==>
         |r| == limit && forall i :: 0 <= i < |r| && r[i].id !in cache ==> Newer(r[i], row))
  {
    CachedOutranked(cache, values, limit, cached, db);
    TableFilled(cache, rows, values, limit, cached, db);
  }

  /** `if category and entry.category != category: continue`, then the
      lower-cased substring test: the cache scan's hit. */
  predicate CacheHit(m: MemoryEntry, query: string, category: Option<string>)
  {
    InCategory(m, category) && TextMatches(m, query)
  }

  /** The search's SQL condition: `(content LIKE ? OR tags LIKE ?)`, given
      as `likeMatch`, and the category when one is given. */
  function RowMatches(likeMatch: MemoryEntry -> bool, category: Option<string>): MemoryEntry -> bool
  {
    (m: MemoryEntry) => likeMatch(m) && InCategory(m, category)
  }

  /** The rows of the search's SQL query, most relevant first, at most `limit`. */
  function SearchRows(rows: seq<MemoryEntry>, likeMatch: MemoryEntry -> bool, category: Option<string>, limit: nat): seq<MemoryEntry>
  {
    Top(Filter(rows, RowMatches(likeMatch, category)), MoreRelevant, limit)
  }

  /** A search result: at most `limit` entries, most relevant first, no id
      twice, each in the category and either a cache hit or a matching row;
      and a cache hit or a matching row is left out only when `limit`
      entries at least as relevant are returned. */
  ghost predicate SearchResult(cache: map<string, MemoryEntry>, rows: seq<MemoryEntry>, query: string,
                               category: Option<string>, limit: nat, likeMatch: MemoryEntry -> bool, r: seq<MemoryEntry>)
  {
    |r| <= limit && SortedBy(r, MoreRelevant) && UniqueBy(r, EntryId) &&
    (forall i :: 0 <= i < |r| ==>
       InCategory(r[i], category) &&
       ((r[i] in cache.Values && TextMatches(r[i], query)) || (r[i] in rows && likeMatch(r[i])))) &&
    (forall k :: k in cache && CacheHit(cache[k], query, category) && cache[k] !in r ==>
       |r| == limit && forall i :: 0 <= i < |r| ==> MoreRelevant(r[i], cache[k])) &&
    (forall row :: row in rows && likeMatch(row) && InCategory(row, category) && row !in r ==>
       |r| == limit && forall i :: 0 <= i < |r| ==> MoreRelevant(r[i], row))
  }

  /** Two rows of a table with unique primary keys that share an id are the same row. */
  lemma SameIdSameRow(rows: seq<MemoryEntry>, x: MemoryEntry, y: MemoryEntry)
    requires UniqueBy(rows, EntryId) && x in rows && y in rows && x.id == y.id
    ensures x == y
  {
    var i :| 0 <= i < |rows| && rows[i] == x;
    var j :| 0 <= j < |rows| && rows[j] == y;
    assert EntryId(rows[i]) == EntryId(rows[j]);
  }

  /** Every row the search query returns ends up among the merged entries:
      its id is there, and the entry holding that id is the row itself. */
  lemma {:induction false} SearchRowsInMerged(cache: map<string, MemoryEntry>, rows: seq<MemoryEntry>, found: seq<MemoryEntry>,
                                              hits: seq<MemoryEntry>, merged: seq<MemoryEntry>)
    requires MemoryCacheValid(cache, rows) && UniqueBy(rows, EntryId)
    requires forall x :: x in found ==> x in rows
    requires forall i :: 0 <= i < |hits| ==> hits[i] in cache.Values
    requires |merged| >= |hits| && merged[..|hits|] == hits
    requires forall i :: |hits| <= i < |merged| ==> merged[i] in found
    requires forall x :: x in found ==> x.id in EntryIds(merged)
    ensures forall x :: x in found ==> x in merged
  {
    forall x | x in found
      ensures x in merged
    {
      var j :| 0 <= j < |merged| && merged[j].id == x.id;
      if j < |hits| {
        assert merged[j] == hits[j];
        var k :| k in cache && cache[k] == hits[j];
      }
      SameIdSameRow(rows, merged[j], x);
    }
  }

  /** The cut of the merged entries leaves a matching row out only when
      `limit` entries at least as relevant are returned. */
  lemma {:induction false} MatchingRowsOutranked(rows: seq<MemoryEntry>, likeMatch: MemoryEntry -> bool, category: Option<string>,
                                                 limit: nat, merged: seq<MemoryEntry>)
    requires UniqueBy(rows, EntryId) && UniqueBy(merged, EntryId)
    requires forall x :: x in SearchRows(rows, likeMatch, category, limit) ==> x in merged
    ensures var r := Top(merged, MoreRelevant, limit);
      forall row :: row in rows && likeMatch(row) && InCategory(row, category) && row !in r ==>
        |r| == limit && forall i :: 0 <= i < |r| ==> MoreRelevant(r[i], row)
  {
    var matching := Filter(rows, RowMatches(likeMatch, category));
    MoreRelevantIsTotalPreorder();
    UniqueFilter(rows, RowMatches(likeMatch, category), EntryId);
    TopUnique(matching, MoreRelevant, limit, EntryId);
    UniqueIsDistinct(SearchRows(rows, likeMatch, category, limit), EntryId);
    TopUnique(merged, MoreRelevant, limit, EntryId);
    UniqueIsDistinct(Top(merged, MoreRelevant, limit), EntryId);
    forall row | row in rows && likeMatch(row) && InCategory(row, category) && row !in Top(merged, MoreRelevant, limit)
      ensures |Top(merged, MoreRelevant, limit)| == limit &&
        forall i :: 0 <= i < |Top(merged, MoreRelevant, limit)| ==> MoreRelevant(Top(merged, MoreRelevant, limit)[i], row)
    {
      FilterMembers(rows, RowMatches(likeMatch, category), row);
      TopOfSuperset(merged, matching, MoreRelevant, limit, row);
    }
  }

  /** The cache hits among the entries stored under `keys`, in key order. */
  function HitsAmong(cache: map<string, MemoryEntry>, keys: seq<string>, query: string, category: Option<string>): seq<MemoryEntry>
    requires forall i :: 0 <= i < |keys| ==> keys[i] in cache
  {
    if keys == [] then []
    else
      var init := HitsAmong(cache, keys[..|keys| - 1], query, category);
      var entry := cache[keys[|keys| - 1]];
      if CacheHit(entry, query, category) then init + [entry] else init
  }

  /** Each hit is a cache hit stored under one of the keys. */
  lemma {:induction false} HitsAmongStored(cache: map<string, MemoryEntry>, keys: seq<string>, query: string, category: Option<string>)
    requires forall i :: 0 <= i < |keys| ==> keys[i] in cache
    ensures forall i :: 0 <= i < |HitsAmong(cache, keys, query, category)| ==>
      CacheHit(HitsAmong(cache, keys, query, category)[i], query, category) &&
      exists j :: 0 <= j < |keys| && HitsAmong(cache, keys, query, category)[i] == cache[keys[j]]
  {
    if keys != [] {
      var init := keys[..|keys| - 1];
      HitsAmongStored(cache, init, query, category);
      var prior := HitsAmong(cache, init, query, category);
      var hits := HitsAmong(cache, keys, query, category);
      forall i | 0 <= i < |hits|
        ensures CacheHit(hits[i], query, category) && exists j :: 0 <= j < |keys| && hits[i] == cache[keys[j]]
      {
        if i < |prior| {
          var j :| 0 <= j < |init| && prior[i] == cache[init[j]];
          assert init[j] == keys[j];
        } else {
          assert hits[i] == cache[keys[|keys| - 1]];
        }
      }
    }
  }

  /** Every cache hit stored under one of the keys is among the hits. */
  lemma {:induction false} HitsAmongComplete(cache: map<string, MemoryEntry>, keys: seq<string>, query: string, category: Option<string>)
    requires forall i :: 0 <= i < |keys| ==> keys[i] in cache
    ensures forall i :: 0 <= i < |keys| && CacheHit(cache[keys[i]], query, category) ==>
      cache[keys[i]] in HitsAmong(cache, keys, query, category)
  {
    if keys != [] {
      var init := keys[..|keys| - 1];
      HitsAmongComplete(cache, init, query, category);
      assert forall j :: 0 <= j < |init| ==> init[j] == keys[j];
    }
  }

  /** Over distinct keys of a cache that stores each entry under its id, no
      id is hit twice. */
  lemma {:induction false} HitsAmongUnique(cache: map<string, MemoryEntry>, keys: seq<string>, query: string, category: Option<string>)
    requires forall i :: 0 <= i < |keys| ==> keys[i] in cache
    requires forall k :: k in cache ==> cache[k].id == k
    requires Distinct(keys)
    ensures UniqueBy(HitsAmong(cache, keys, query, category), EntryId)
  {
    if keys != [] {
      var init := keys[..|keys| - 1];
      var last := keys[|keys| - 1];
      HitsAmongUnique(cache, init, query, category);
      HitsAmongStored(cache, init, query, category);
      var prior := HitsAmong(cache, init, query, category);
      forall i | 0 <= i < |prior|
        ensures prior[i].id != last
      {
        var j :| 0 <= j < |init| && prior[i] == cache[init[j]];
        assert init[j] == keys[j];
      }
    }
  }

  /** Over all the keys of a cache that stores each entry under its id, the
      hits are exactly the cache hits, each once. */
  lemma HitsAmongAllKeys(cache: map<string, MemoryEntry>, keys: seq<string>, query: string, category: Option<string>)
    requires forall k :: k in keys <==> k in cache
    requires forall k :: k in cache ==> cache[k].id == k
    requires Distinct(keys)
    ensures var hits := HitsAmong(cache, keys, query, category);
      UniqueBy(hits, EntryId) &&
      (forall i :: 0 <= i < |hits| ==> hits[i] in cache.Values && CacheHit(hits[i], query, category)) &&
      (forall k :: k in cache && CacheHit(cache[k], query, category) ==> cache[k] in hits)
  {
    HitsAmongStored(cache, keys, query, category);
    HitsAmongComplete(cache, keys, query, category);
    HitsAmongUnique(cache, keys, query, category);
    forall k | k in cache && CacheHit(cache[k], query, category)
      ensures cache[k] in HitsAmong(cache, keys, query, category)
    {
      var i :| 0 <= i < |keys| && keys[i] == k;
    }
  }

  /** The loop over `self._memory_cache.values()` collecting the cache hits. */
  method ScanCache(cache: map<string, MemoryEntry>, query: string, category: Option<string>) returns (hits: seq<MemoryEntry>)
    requires forall k :: k in cache ==> cache[k].id == k
    ensures UniqueBy(hits, EntryId)
    ensures forall i :: 0 <= i < |hits| ==> hits[i] in cache.Values && CacheHit(hits[i], query, category)
    ensures forall k :: k in cache && CacheHit(cache[k], query, category) ==> cache[k] in hits
  {
    var keys := KeysOf(cache);
    hits := [];
    var j := 0;
    while j < |keys|
      invariant 0 <= j <= |keys|
      invariant hits == HitsAmong(cache, keys[..j], query, category)
    {
      var entry := cache[keys[j]];
      assert keys[..j + 1][..j] == keys[..j];
      if CacheHit(entry, query, category) {
        hits := hits + [entry];
      }
      j := j + 1;
    }
    assert keys[..j] == keys;
    HitsAmongAllKeys(cache, keys, query, category);
  }

  /** Appending the new rows to the cache hits, then sorting by relevance and
      truncating, gives a `SearchResult`. */
  lemma SearchMergeSpec(cache: map<string, MemoryEntry>, rows: seq<MemoryEntry>, query: string, category: Option<string>,
                        limit: nat, likeMatch: MemoryEntry -> bool, hits: seq<MemoryEntry>, merged: seq<MemoryEntry>)
    requires MemoryCacheValid(cache, rows) && UniqueBy(rows, EntryId)
    requires forall i :: 0 <= i < |hits| ==> hits[i] in cache.Values && CacheHit(hits[i], query, category)
    requires forall k :: k in cache && CacheHit(cache[k], query, category) ==> cache[k] in hits
    requires UniqueBy(merged, EntryId)
    requires |merged| >= |hits| && merged[..|hits|] == hits
    requires forall i :: |hits| <= i < |merged| ==> merged[i] in SearchRows(rows, likeMatch, category, limit)
    requires forall x :: x in SearchRows(rows, likeMatch, category, limit) ==> x.id in EntryIds(merged)
    ensures SearchResult(cache, rows, query, category, limit, likeMatch, Top(merged, MoreRelevant, limit))
  {
    MoreRelevantIsTotalPreorder();
    TopShape(merged, MoreRelevant, limit);
    TopUnique(merged, MoreRelevant, limit, EntryId);
    SearchRowsMatch(rows, likeMatch, category, limit);
    MergedEntriesMatch(cache, rows, query, category, limit, likeMatch, hits, merged);
    forall k | k in cache && CacheHit(cache[k], query, category)
      ensures cache[k] in merged
    {
      var i :| 0 <= i < |hits| && hits[i] == cache[k];
      assert merged[i] == hits[i];
    }
    SearchRowsInMerged(cache, rows, SearchRows(rows, likeMatch, category, limit), hits, merged);
    MatchingRowsOutranked(rows, likeMatch, category, limit, merged);
  }

  /** Every row the search query returns is a stored row that matches and is in the category. */
  lemma SearchRowsMatch(rows: seq<MemoryEntry>, likeMatch: MemoryEntry -> bool, category: Option<string>, limit: nat)
    ensures forall x :: x in SearchRows(rows, likeMatch, category, limit) ==> x in rows && likeMatch(x) && InCategory(x, category)
  {
    var found := Filter(rows, RowMatches(likeMatch, category));
    MoreRelevantIsTotalPreorder();
    TopShape(found, MoreRelevant, limit);
    forall x | x in SearchRows(rows, likeMatch, category, limit)
      ensures x in rows && likeMatch(x) && InCategory(x, category)
    {
      FilterMembers(rows, RowMatches(likeMatch, category), x);
    }
  }

  /** The cache hits followed by the query's rows are each in the category
      and either a matching cache entry or a matching row. */
  lemma MergedEntriesMatch(cache: map<string, MemoryEntry>, rows: seq<MemoryEntry>, query: string, category: Option<string>,
                           limit: nat, likeMatch: MemoryEntry -> bool, hits: seq<MemoryEntry>, merged: seq<MemoryEntry>)
    requires forall i :: 0 <= i < |hits| ==> hits[i] in cache.Values && CacheHit(hits[i], query, category)
    requires |merged| >= |hits| && merged[..|hits|] == hits
    requires forall i :: |hits| <= i < |merged| ==> merged[i] in SearchRows(rows, likeMatch, category, limit)
    requires forall x :: x in SearchRows(rows, likeMatch, category, limit) ==> x in rows && likeMatch(x) && InCategory(x, category)
    ensures forall x :: x in merged ==>
      InCategory(x, category) && ((x in cache.Values && TextMatches(x, query)) || (x in rows && likeMatch(x)))
  {
    forall x | x in merged
      ensures InCategory(x, category) && ((x in cache.Values && TextMatches(x, query)) || (x in rows && likeMatch(x)))
    {
      var i :| 0 <= i < |merged| && merged[i] == x;
      if i < |hits| {
        assert x == hits[i];
      }
    }
  }

  function IsExpired(now: int): MemoryEntry -> bool
  {
    (m: MemoryEntry) => Expired(m, now)
  }

  function NotExpired(now: int): MemoryEntry -> bool
  {
    (m: MemoryEntry) => !Expired(m, now)
  }

  /** `SELECT id FROM memory_entries WHERE expires_at IS NOT NULL AND expires_at < now`. */
  function ExpiredIds(rows: seq<MemoryEntry>, now: int): seq<string>
  {
    Map(Filter(rows, IsExpired(now)), EntryId)
  }

  /** The table after `DELETE FROM memory_entries WHERE id IN (expired ids)`. */
  function Unexpired(rows: seq<MemoryEntry>, now: int): seq<MemoryEntry>
  {
    Filter(rows, NotExpired(now))
  }

  /** A cached entry's id is among the expired ids exactly when the entry has
      expired: each cached entry is the one row with its id. */
  lemma ExpiredIdsOfCache(cache: map<string, MemoryEntry>, rows: seq<MemoryEntry>, now: int)
    requires MemoryCacheValid(cache, rows) && UniqueBy(rows, EntryId)
    ensures forall k :: k in cache ==> (k in ExpiredIds(rows, now) <==> Expired(cache[k], now))
  {
    forall k | k in cache
      ensures k in ExpiredIds(rows, now) <==> Expired(cache[k], now)
    {
      if Expired(cache[k], now) {
        ExpiredRowListed(rows, now, cache[k]);
      }
      if k in ExpiredIds(rows, now) {
        ListedRowExpired(rows, now, cache[k]);
      }
    }
  }

  /** An expired row's id is selected. */
  lemma ExpiredRowListed(rows: seq<MemoryEntry>, now: int, c: MemoryEntry)
    requires c in rows && Expired(c, now)
    ensures c.id in ExpiredIds(rows, now)
  {
    var expired := Filter(rows, IsExpired(now));
    FilterMembers(rows, IsExpired(now), c);
    var i :| 0 <= i < |expired| && expired[i] == c;
    assert ExpiredIds(rows, now)[i] == c.id;
  }

  /** A row whose id is selected has expired, since no other row has its id. */
  lemma ListedRowExpired(rows: seq<MemoryEntry>, now: int, c: MemoryEntry)
    requires UniqueBy(rows, EntryId) && c in rows && c.id in ExpiredIds(rows, now)
    ensures Expired(c, now)
  {
    var expired := Filter(rows, IsExpired(now));
    var ids := ExpiredIds(rows, now);
    var i :| 0 <= i < |ids| && ids[i] == c.id;
    var e := expired[i];
    FilterMembers(rows, IsExpired(now), e);
    SameIdSameRow(rows, e, c);
  }

  /** With no expired id, deleting the expired rows changes nothing. */
  lemma NoExpiredIds(rows: seq<MemoryEntry>, now: int)
    requires ExpiredIds(rows, now) == []
    ensures Unexpired(rows, now) == rows
  {
    assert Filter(rows, IsExpired(now)) == [];
    FilterKeepsAll(rows, NotExpired(now));
  }

  /** A cache without its expired entries is valid for the table without them. */
  lemma CleanedCacheValid(cache: map<string, MemoryEntry>, rows: seq<MemoryEntry>, now: int, after: map<string, MemoryEntry>)
    requires MemoryCacheValid(cache, rows)
    requires forall k :: k in after ==> k in cache && after[k] == cache[k] && !Expired(cache[k], now)
    ensures MemoryCacheValid(after, Unexpired(rows, now))
  {
    forall k | k in after
      ensures after[k] in Unexpired(rows, now)
    {
      FilterMembers(rows, NotExpired(now), after[k]);
    }
  }

  class MemoryManager {
    /** `str(self.db_path)`. */
    const dbPath: string
    var interactionCache: map<string, Interaction>
    var memoryCache: map<string, MemoryEntry>
    /** The interactions table. */
    var interactionRows: seq<Interaction>
    /** The memory_entries table. */
    var memoryRows: seq<MemoryEntry>
    /** Opening the database raises. */
    var storeFails: bool

    /** Primary keys are unique; rows hold what reading them back gives; each
        cache is keyed by id and holds only entries that are in its table. */
    ghost predicate Valid()
      reads this`interactionRows, this`interactionCache, this`memoryRows, this`memoryCache
    {
      InteractionRowsValid(interactionRows) &&
      InteractionCacheValid(interactionCache, interactionRows) &&
      UniqueBy(memoryRows, EntryId) &&
      MemoryCacheValid(memoryCache, memoryRows)
    }

    /** A manager over the database file in `memoryDir`, whose tables already
        hold `interactions` and `entries`. Both caches start empty. */
    constructor (memoryDir: string, interactions: seq<Interaction>, entries: seq<MemoryEntry>, fails: bool)
      requires UniqueBy(interactions, InteractionId) && UniqueBy(entries, EntryId)
      requires forall i :: 0 <= i < |interactions| ==> Stored(interactions[i]) == interactions[i]
      ensures Valid()
      ensures dbPath == memoryDir + "/memory.db"
      ensures interactionCache == map[] && memoryCache == map[]
      ensures interactionRows == interactions && memoryRows == entries && storeFails == fails
    {
      dbPath := memoryDir + "/memory.db";
      interactionCache := map[];
      memoryCache := map[];
      interactionRows := interactions;
      memoryRows := entries;
      storeFails := fails;
    }

    /** `initialize`: create the tables, then load the newest 100 interactions
        and the 50 most relevant retained memory entries into the caches. */
    method Initialize() returns (r: Outcome)
      requires Valid()
      modifies this`interactionCache, this`memoryCache
      ensures Valid()
      ensures r.Fail? <==> storeFails
      ensures r.Fail? ==> r.error == StoreUnavailable && interactionCache == old(interactionCache) && memoryCache == old(memoryCache)
      ensures r.Pass? ==> interactionCache == PutAll(old(interactionCache), RecentRows(interactionRows), InteractionId)
      ensures r.Pass? ==> memoryCache == PutAll(old(memoryCache), ImportantRows(memoryRows), EntryId)
      ensures |interactionCache| <= |old(interactionCache)| + LoadedInteractions
      ensures |memoryCache| <= |old(memoryCache)| + LoadedMemories
    {
      if storeFails {
        return Fail(StoreUnavailable);
      }
      LoadRecentInteractions();
      LoadImportantMemories();
      r := Pass;
    }

    /** The first half of `_load_recent_to_cache`. */
    method LoadRecentInteractions()
      requires Valid()
      modifies this`interactionCache
      ensures Valid()
      ensures interactionCache == PutAll(old(interactionCache), RecentRows(interactionRows), InteractionId)
      ensures |interactionCache| <= |old(interactionCache)| + LoadedInteractions
    {
      var recent := RecentRows(interactionRows);
      LoadedInteractionsValid(interactionCache, interactionRows, recent);
      interactionCache := PutEach(interactionCache, recent, InteractionId);
    }

    /** The second half of `_load_recent_to_cache`. */
    method LoadImportantMemories()
      requires Valid()
      modifies this`memoryCache
      ensures Valid()
      ensures memoryCache == PutAll(old(memoryCache), ImportantRows(memoryRows), EntryId)
      ensures |memoryCache| <= |old(memoryCache)| + LoadedMemories
    {
      var important := ImportantRows(memoryRows);
      LoadedMemoriesValid(memoryCache, memoryRows, important);
      memoryCache := PutEach(memoryCache, important, EntryId);
    }

    /** `store_interaction`: build the record, insert its row, and only then
        cache it and trim the cache back to 100 entries. */
    method StoreInteraction(data: Dict, env: Env) returns (r: Outcome)
      requires Valid()
      modifies this`interactionRows, this`interactionCache
      ensures Valid()
      ensures old(storeFails) ==> r == Fail(StoreUnavailable)
      ensures !old(storeFails) && BuildInteraction(data, env).Err? ==> r == Fail(BuildInteraction(data, env).error)
      ensures r.Pass? <==>
        !old(storeFails) && BuildInteraction(data, env).Ok? &&
        !HasInteractionId(old(interactionRows), BuildInteraction(data, env).value.id)
      ensures r.Fail? && !old(storeFails) && BuildInteraction(data, env).Ok? ==> r.error == DuplicateInteraction
      ensures r.Fail? ==> interactionCache == old(interactionCache) && interactionRows == old(interactionRows)
      ensures r.Pass? ==>
        var it := BuildInteraction(data, env).value;
        interactionRows == old(interactionRows) + [Stored(it)] &&
        KeepsNewest(old(interactionCache)[it.id := it], interactionCache, CacheCapacity) &&
        |interactionCache| <= CacheCapacity
    {
      if storeFails {
        return Fail(StoreUnavailable);
      }
      var built := BuildInteraction(data, env);
      if built.Err? {
        return Fail(built.error);
      }
      var it := built.value;
      if HasInteractionId(interactionRows, it.id) {
        return Fail(DuplicateInteraction);
      }
      InsertInteractionRow(it);
      CacheInteraction(it);
      r := Pass;
    }

    /** The INSERT of `store_interaction`, once it is known to succeed. */
    method InsertInteractionRow(it: Interaction)
      requires Valid() && !HasInteractionId(interactionRows, it.id)
      modifies this`interactionRows
      ensures Valid()
      ensures interactionRows == old(interactionRows) + [Stored(it)]
    {
      InsertedInteractionValid(interactionCache, interactionRows, it);
      interactionRows := interactionRows + [Stored(it)];
    }

    /** Caching a stored interaction and trimming the cache to 100 entries. */
    method CacheInteraction(it: Interaction)
      requires Valid() && Stored(it) in interactionRows
      modifies this`interactionCache
      ensures Valid()
      ensures KeepsNewest(old(interactionCache)[it.id := it], interactionCache, CacheCapacity)
      ensures |interactionCache| <= CacheCapacity
    {
      var grown := interactionCache[it.id := it];
      interactionCache := EvictOldest(grown, CacheCapacity);
      SubCacheValid(old(interactionCache), it, interactionCache, interactionRows);
    }

    /** `store_memory`: build the entry, insert its row, and only then cache
        it when its importance is above 0.7. */
    method StoreMemory(data: Dict, env: Env) returns (r: Outcome)
      requires Valid()
      modifies this`memoryRows, this`memoryCache
      ensures Valid()
      ensures old(storeFails) ==> r == Fail(StoreUnavailable)
      ensures !old(storeFails) && BuildMemoryEntry(data, env).Err? ==> r == Fail(BuildMemoryEntry(data, env).error)
      ensures r.Pass? <==>
        !old(storeFails) && BuildMemoryEntry(data, env).Ok? &&
        !HasEntryId(old(memoryRows), BuildMemoryEntry(data, env).value.id)
      ensures r.Fail? ==> memoryCache == old(memoryCache) && memoryRows == old(memoryRows)
      ensures r.Pass? ==>
        var m := BuildMemoryEntry(data, env).value;
        memoryRows == old(memoryRows) + [m] &&
        (m.id in memoryCache <==> m.importance > ImportanceThreshold) &&
        memoryCache == (if m.importance > ImportanceThreshold then old(memoryCache)[m.id := m] else old(memoryCache))
    {
      if storeFails {
        return Fail(StoreUnavailable);
      }
      var built := BuildMemoryEntry(data, env);
      if built.Err? {
        return Fail(built.error);
      }
      var m := built.value;
      if HasEntryId(memoryRows, m.id) {
        return Fail("UNIQUE constraint failed: memory_entries.id");
      }
      UniqueConcat(memoryRows, [m], EntryId);
      memoryRows := memoryRows + [m];
      if m.importance > ImportanceThreshold {
        memoryCache := memoryCache[m.id := m];
      }
      r := Pass;
    }

    /** `get_recent_interactions`: a user's newest rows straight from the
        table; without a user, the newest cached interactions topped up from
        the table only when the cache holds fewer than `limit`. */
    method GetRecentInteractions(userId: Option<string>, limit: nat) returns (r: Result<seq<Interaction>>)
      requires Valid()
      ensures r.Err? <==> storeFails && (FiltersUser(userId) || |interactionCache| < limit)
      ensures r.Err? ==> r.error == StoreUnavailable
      ensures r.Ok? && FiltersUser(userId) ==> UserRecent(interactionRows, userId.value, limit, r.value)
      ensures r.Ok? && !FiltersUser(userId) ==> MergedRecent(interactionCache, interactionRows, limit, r.value)
    {
      if FiltersUser(userId) {
        if storeFails {
          return Err(StoreUnavailable);
        }
        UserRowsSpec(interactionRows, userId.value, limit);
        return Ok(UserRows(interactionRows, userId.value, limit));
      }
      var keys := KeysOf(interactionCache);
      var cached := Top(ValuesAt(interactionCache, keys), Newer, limit);
      CachedSize(interactionCache, keys, limit);
      var db: seq<Interaction> := [];
      if |cached| < limit {
        if storeFails {
          return Err(StoreUnavailable);
        }
        db := OtherRows(interactionRows, InteractionIds(cached), limit - |cached|);
      }
      MergedRecentSpec(interactionCache, interactionRows, keys, limit, cached, db);
      r := Ok(Top(db + cached, Newer, limit));
    }

    /** `search_memory`: the cache hits, then the matching rows not already
        among them, sorted by (importance, timestamp) descending and cut to
        `limit`. `likeMatch` is the SQL `LIKE` test on a row. */
    method SearchMemory(query: string, category: Option<string>, limit: nat, likeMatch: MemoryEntry -> bool)
      returns (r: Result<seq<MemoryEntry>>)
      requires Valid()
      ensures r.Err? <==> storeFails
      ensures r.Err? ==> r.error == StoreUnavailable
      ensures r.Ok? ==> SearchResult(memoryCache, memoryRows, query, category, limit, likeMatch, r.value)
    {
      var hits := ScanCache(memoryCache, query, category);
      if storeFails {
        return Err(StoreUnavailable);
      }
      var found := SearchRows(memoryRows, likeMatch, category, limit);
      var merged := AppendNewIds(hits, found);
      SearchMergeSpec(memoryCache, memoryRows, query, category, limit, likeMatch, hits, merged);
      r := Ok(Top(merged, MoreRelevant, limit));
    }

    /** `cleanup_expired_entries`: delete the rows whose expiry is before
        `now` and drop their ids from the memory cache. */
    method CleanupExpiredEntries(now: int) returns (r: Outcome)
      requires Valid()
      modifies this`memoryRows, this`memoryCache
      ensures Valid()
      ensures r.Fail? <==> storeFails
      ensures r.Fail? ==> r.error == StoreUnavailable && memoryRows == old(memoryRows) && memoryCache == old(memoryCache)
      ensures r.Pass? ==> memoryRows == Unexpired(old(memoryRows), now)
      ensures r.Pass? ==> forall k :: k in memoryCache <==> k in old(memoryCache) && !Expired(old(memoryCache)[k], now)
      ensures r.Pass? ==> forall k :: k in memoryCache ==> memoryCache[k] == old(memoryCache)[k]
    {
      if storeFails {
        return Fail(StoreUnavailable);
      }
      var expiredIds := ExpiredIds(memoryRows, now);
      ExpiredIdsOfCache(memoryCache, memoryRows, now);
      if expiredIds != [] {
        var kept := PopEach(memoryCache, expiredIds);
        CleanedCacheValid(memoryCache, memoryRows, now, kept);
        UniqueFilter(memoryRows, NotExpired(now), EntryId);
        memoryRows := Unexpired(memoryRows, now);
        memoryCache := kept;
      } else {
        NoExpiredIds(memoryRows, now);
      }
      r := Pass;
    }

    /** `health_check`: the table sizes and the number of cached items, or
        the error once the database cannot be opened. */
    method HealthCheck(now: int) returns (report: Dict)
      ensures "status" in report && report["status"] == Str(if storeFails then "error" else "healthy")
      ensures "timestamp" in report && report["timestamp"] == Iso(now)
      ensures storeFails ==> report.Keys == {"status", "error", "timestamp"} && report["error"] == Str(StoreUnavailable)
      ensures !storeFails ==>
        report.Keys == {"status", "database_path", "interactions_count", "memory_entries_count", "cache_size", "timestamp"} &&
        report["database_path"] == Str(dbPath) &&
        report["interactions_count"] == Int(|interactionRows|) &&
        report["memory_entries_count"] == Int(|memoryRows|) &&
        report["cache_size"] == Int(|interactionCache| + |memoryCache|)
    {
      if storeFails {
        return map["status" := Str("error"), "error" := Str(StoreUnavailable), "timestamp" := Iso(now)];
      }
      report := map[
        "status" := Str("healthy"),
        "database_path" := Str(dbPath),
        "interactions_count" := Int(|interactionRows|),
        "memory_entries_count" := Int(|memoryRows|),
        "cache_size" := Int(|interactionCache| + |memoryCache|),
        "timestamp" := Iso(now)];
    }

    /** `close`: both caches are emptied; the tables stay. */
    method Close()
      requires Valid()
      modifies this`interactionCache, this`memoryCache
      ensures Valid()
      ensures interactionCache == map[] && memoryCache == map[]
    {
      interactionCache := map[];
      memoryCache := map[];
    }
  }
}

=== FILE: registry.dfy ===
/** The tool registry of src/tools/registry.py: tools are named after their
    class, kept in a name-to-tool map, described by a JSON-like schema, run
    behind a wrapper that turns failures into results, and given their
    parameters through a validator that fills defaults. */
module Tools {
  import opened Wrappers
  import opened Values
  import opened Text
  import opened Collections

  /** A parameter of a tool's `run`, as the signature describes it: a
      parameter without a default is required and has default None. */
  datatype Parameter = Parameter(name: string, typeName: string, description: string, required: bool, default: Value)

  /** A registered tool. `docstring` is the class's `__doc__`, None when the
      class has none; `run` stands for the tool's own `run` coroutine: given
      the keyword arguments it returns a value or raises with a message. */
  datatype Tool = Tool(className: string, docstring: Option<string>, parameters: seq<Parameter>, run: Dict -> Result<Value>)
  {
    /** `self.name`, fixed when the tool is built. */
    function Name(): string
    {
      ToolName(className)
    }
  }

  /** `ToolResult`; its metadata is never set on these paths. */
  datatype ToolResult = ToolResult(success: bool, result: Value, error: Option<string>)

  /** `cls.__name__.lower().replace('tool', '')`. */
  function ToolName(className: string): (name: string)
    ensures |name| <= |className|
  {
    RemoveAll(Lower(className), "tool")
  }

  /** `ReadFileTool` is registered as `readfile`. */
  lemma ReadFileToolName()
    ensures ToolName("ReadFileTool") == "readfile"
  {
    var lower := Lower("ReadFileTool");
    assert lower == "readfiletool" by {
      assert forall i :: 0 <= i < 12 ==> lower[i] == LowerChar("ReadFileTool"[i]);
    }
    assert lower == "readfile" + "tool";
    assert RemoveAll("tool", "tool") == "";
    RemoveAllKeepsPrefix("readfile", "tool", "tool");
  }

  /** A class name keeps its lower-cased spelling as the tool name exactly
      when the lower-cased name does not contain `tool`. */
  lemma ToolNameIsLowerIff(className: string)
    ensures ToolName(className) == Lower(className) <==> !Contains(Lower(className), "tool")
  {
    RemoveAllUnchangedIff(Lower(className), "tool");
  }

  function ParamName(p: Parameter): string { p.name }

  predicate IsRequired(p: Parameter) { p.required }

  /** The schema's `required` list: the required parameters' names, in
      declaration order. */
  function RequiredNames(params: seq<Parameter>): (names: seq<string>)
    ensures |names| <= |params|
  {
    Map(Filter(params, IsRequired), ParamName)
  }

  /** Declaring one more parameter appends its name to the `required`
      list when it is required, and leaves the list alone otherwise: the
      list follows declaration order. */
  lemma RequiredNamesSnoc(params: seq<Parameter>, p: Parameter)
    ensures RequiredNames(params + [p]) == RequiredNames(params) + (if p.required then [p.name] else [])
  {
    FilterAppend(params, [p], IsRequired);
    assert Filter([p], IsRequired) == if p.required then [p] else [];
    var left := Filter(params, IsRequired);
    var right := Filter([p], IsRequired);
    assert Map(left + right, ParamName) == Map(left, ParamName) + Map(right, ParamName);
  }

  /** A name is in the `required` list exactly when a required parameter has it. */
  lemma RequiredNamesMembers(params: seq<Parameter>, x: string)
    ensures x in RequiredNames(params) <==> exists p :: p in params && p.required && p.name == x
  {
    var required := Filter(params, IsRequired);
    if x in RequiredNames(params) {
      var i :| 0 <= i < |required| && RequiredNames(params)[i] == x;
      FilterMembers(params, IsRequired, required[i]);
    }
    if p :| p in params && p.required && p.name == x {
      FilterMembers(params, IsRequired, p);
      var i :| 0 <= i < |required| && required[i] == p;
      assert RequiredNames(params)[i] == x;
    }
  }

  /** The schema entry of one parameter. */
  function Property(p: Parameter): Value
  {
    Obj(map["type" := Str(Lower(p.typeName)), "description" := Str(p.description)])
  }

  /** `{param.name: {...} for param in parameters}`: a later parameter of
      the same name overwrites an earlier one. */
  function Properties(params: seq<Parameter>): (props: map<string, Value>)
    ensures forall k :: k in props <==> exists p :: p in params && p.name == k
  {
    if params == [] then map[]
    else
      var init := Properties(params[..|params| - 1]);
      var last := params[|params| - 1];
      assert forall p :: p in params <==> p in params[..|params| - 1] || p == last;
      init[last.name := Property(last)]
  }

  /** Each uniquely named parameter is described by its own entry. */
  lemma {:induction false} PropertiesOfUnique(params: seq<Parameter>, i: nat)
    requires UniqueBy(params, ParamName) && i < |params|
    ensures Properties(params)[params[i].name] == Property(params[i])
  {
    if i < |params| - 1 {
      PropertiesOfUnique(params[..|params| - 1], i);
    }
  }

  /** `get_schema`. */
  function Schema(tool: Tool): (schema: Value)
    ensures schema.Obj? && "name" in schema.fields && schema.fields["name"] == Str(tool.Name())
    ensures "description" in schema.fields && (schema.fields["description"] == Null <==> tool.docstring.None?)
  {
    Obj(map[
      "name" := Str(tool.Name()),
      "description" := if tool.docstring.Some? then Str(tool.docstring.value) else Null,
      "parameters" := Obj(map[
        "type" := Str("object"),
        "properties" := Obj(Properties(tool.parameters)),
        "required" := List(Map(RequiredNames(tool.parameters), (n: string) => Str(n)))])])
  }

  /** A parameter that is absent from the call, required and without a default. */
  predicate Missing(p: Parameter, given: Dict)
  {
    p.name !in given && p.required && p.default.Null?
  }

  /** The result of `validate_parameters` for a known tool: the declared
      parameters taken in order; the first missing required one raises. */
  function Validate(params: seq<Parameter>, given: Dict): Result<Dict>
  {
    if params == [] then Ok(map[])
    else
      var init :- Validate(params[..|params| - 1], given);
      var p := params[|params| - 1];
      if p.name in given then Ok(init[p.name := given[p.name]])
      else if Missing(p, given) then Err("Required parameter '" + p.name + "' is missing")
      else if !p.default.Null? then Ok(init[p.name := p.default])
      else Ok(init)
  }

  /** Validation fails exactly when a declared parameter is missing, and then
      it names the first one in declaration order. */
  lemma {:induction false} ValidateErrIff(params: seq<Parameter>, given: Dict)
    ensures Validate(params, given).Err? <==> exists i :: 0 <= i < |params| && Missing(params[i], given)
    ensures Validate(params, given).Err? ==>
      exists i :: 0 <= i < |params| && Missing(params[i], given) &&
        (forall j :: 0 <= j < i ==> !Missing(params[j], given)) &&
        Validate(params, given).error == "Required parameter '" + params[i].name + "' is missing"
  {
    if params != [] {
      var init := params[..|params| - 1];
      ValidateErrIff(init, given);
      assert forall i :: 0 <= i < |init| ==> init[i] == params[i];
    }
  }

  /** A successful validation keeps exactly the declared names that were given
      or have a default other than None. */
  lemma {:induction false} ValidateKeys(params: seq<Parameter>, given: Dict)
    requires Validate(params, given).Ok?
    ensures forall k :: k in Validate(params, given).value <==>
      exists p :: p in params && p.name == k && (k in given || !p.default.Null?)
  {
    if params != [] {
      var init := params[..|params| - 1];
      ValidateKeys(init, given);
      assert forall p :: p in params <==> p in init || p == params[|params| - 1];
    }
  }

  /** Once a prefix of the parameters fails, validating all of them fails
      the same way. */
  lemma {:induction false} ValidateErrPersists(params: seq<Parameter>, given: Dict, j: nat)
    requires j <= |params|
    requires Validate(params[..j], given).Err?
    ensures Validate(params, given) == Validate(params[..j], given)
    decreases |params|
  {
    if j < |params| {
      var init := params[..|params| - 1];
      assert init[..j] == params[..j];
      ValidateErrPersists(init, given, j);
    } else {
      assert params[..j] == params;
    }
  }

  /** With uniquely named parameters, a given value is passed through and an
      absent one takes its default. */
  lemma {:induction false} ValidateValues(params: seq<Parameter>, given: Dict, i: nat)
    requires UniqueBy(params, ParamName) && i < |params|
    requires Validate(params, given).Ok?
    ensures var p := params[i]; var out := Validate(params, given).value;
      (p.name in given ==> p.name in out && out[p.name] == given[p.name]) &&
      (p.name !in given && !p.default.Null? ==> p.name in out && out[p.name] == p.default)
  {
    if i < |params| - 1 {
      ValidateValues(params[..|params| - 1], given, i);
    }
  }

  /** The registry: tools by name. Each is stored under its own name. */
  class ToolRegistry {
    var tools: map<string, Tool>

    ghost predicate Valid()
      reads this
    {
      forall k :: k in tools ==> tools[k].Name() == k
    }

    constructor ()
      ensures Valid() && tools == map[]
    {
      tools := map[];
    }

    /** `register`: insert or overwrite by name. */
    method Register(tool: Tool)
      requires Valid()
      modifies this`tools
      ensures Valid()
      ensures tools == old(tools)[tool.Name() := tool]
    {
      tools := tools[tool.Name() := tool];
    }

    /** `unregister`: delete the name if present; otherwise nothing changes. */
    method Unregister(name: string)
      requires Valid()
      modifies this`tools
      ensures Valid()
      ensures tools == old(tools) - {name}
      ensures name !in old(tools) ==> tools == old(tools)
    {
      if name in tools {
        tools := tools - {name};
      }
    }

    /** `get_tool`. */
    function GetTool(name: string): (r: Option<Tool>)
      reads this
      ensures r.Some? <==> name in tools
      ensures r.Some? ==> r.value == tools[name]
    {
      if name in tools then Some(tools[name]) else None
    }

    /** `list_tools`: every registered name, once. */
    method ListTools() returns (names: seq<string>)
      ensures forall k :: k in names <==> k in tools
      ensures Distinct(names) && |names| == |tools|
    {
      names := KeysOf(tools);
    }

    /** `get_tool_schema`. */
    function GetToolSchema(name: string): (r: Option<Value>)
      reads this
      ensures r.Some? <==> name in tools
      ensures r.Some? ==> r.value == Schema(tools[name])
    {
      match GetTool(name)
      case Some(tool) => Some(Schema(tool))
      case None => None
    }

    /** `get_all_schemas`: one schema per registered tool. */
    method GetAllSchemas() returns (schemas: seq<Value>)
      ensures |schemas| == |tools|
      ensures forall i :: 0 <= i < |schemas| ==> exists k :: k in tools && schemas[i] == Schema(tools[k])
      ensures forall k :: k in tools ==> Schema(tools[k]) in schemas
    {
      var names := KeysOf(tools);
      schemas := Map(ValuesAt(tools, names), Schema);
      MapValuesAtCovers(tools, names, Schema);
      forall i | 0 <= i < |schemas|
        ensures names[i] in tools && schemas[i] == Schema(tools[names[i]])
      {
      }
    }

    /** `execute_tool`: an unknown name and a raising tool both give a
        failed result carrying the message; otherwise the tool's value. */
    method ExecuteTool(name: string, kwargs: Dict) returns (r: ToolResult)
      ensures name !in tools ==> r == ToolResult(false, Null, Some("Tool '" + name + "' not found"))
      ensures name in tools && tools[name].run(kwargs).Err? ==>
        r == ToolResult(false, Null, Some(tools[name].run(kwargs).error))
      ensures name in tools && tools[name].run(kwargs).Ok? ==>
        r == ToolResult(true, tools[name].run(kwargs).value, None)
      ensures r.success <==> r.error.None?
    {
      var tool := GetTool(name);
      if tool.None? {
        return ToolResult(false, Null, Some("Tool '" + name + "' not found"));
      }
      var outcome := tool.value.run(kwargs);
      if outcome.Err? {
        return ToolResult(false, Null, Some(outcome.error));
      }
      r := ToolResult(true, outcome.value, None);
    }

    /** `validate_parameters`: the loop over the tool's declared parameters. */
    method ValidateParameters(name: string, given: Dict) returns (r: Result<Dict>)
      ensures name !in tools ==> r == Err("Tool '" + name + "' not found")
      ensures name in tools ==> r == Validate(tools[name].parameters, given)
    {
      var tool := GetTool(name);
      if tool.None? {
        return Err("Tool '" + name + "' not found");
      }
      var params := tool.value.parameters;
      var validated: Dict := map[];
      var i := 0;
      while i < |params|
        invariant 0 <= i <= |params|
        invariant Validate(params[..i], given) == Ok(validated)
      {
        var p := params[i];
        assert params[..i + 1][..i] == params[..i];
        if p.name in given {
          validated := validated[p.name := given[p.name]];
        } else if p.required && p.default.Null? {
          ValidateErrPersists(params, given, i + 1);
          return Err("Required parameter '" + p.name + "' is missing");
        } else if !p.default.Null? {
          validated := validated[p.name := p.default];
        }
        i := i + 1;
      }
      assert params[..i] == params;
      r := Ok(validated);
    }
  }
}

=== FILE: sorting.dfy ===
/** Python's `list.sort(key=..., reverse=...)` and `sorted(...)`, modelled as a
    stable insertion sort under an ordering `above`, where `above(a, b)` means
    "a may come before b". Elements that compare equal keep their original
    relative order, as Python's sort promises. */
module Sorting {
  import opened Collections

  /** `above` is total and transitive, as a comparison of sort keys is. */
  ghost predicate TotalPreorder<T(!new)>(above: (T, T) -> bool)
  {
    (forall a, b :: above(a, b) || above(b, a)) &&
    (forall a, b, c :: above(a, b) && above(b, c) ==> above(a, c))
  }

  /** Every element may come before every later one. */
  ghost predicate SortedBy<T>(s: seq<T>, above: (T, T) -> bool)
  {
    forall i, j :: 0 <= i < j < |s| ==> above(s[i], s[j])
  }

  /** Puts `x` in front of the first element it may precede. */
  function Insert<T>(x: T, s: seq<T>, above: (T, T) -> bool): (r: seq<T>)
    ensures |r| == |s| + 1
    ensures multiset(r) == multiset(s) + multiset{x}
  {
    if s == [] || above(x, s[0]) then [x] + s
    else
      assert s == [s[0]] + s[1..];
      [s[0]] + Insert(x, s[1..], above)
  }

  /** The sorted permutation of `s`. */
  function SortBy<T>(s: seq<T>, above: (T, T) -> bool): (r: seq<T>)
    ensures |r| == |s|
    ensures multiset(r) == multiset(s)
  {
    if s == [] then []
    else
      assert s == [s[0]] + s[1..];
      Insert(s[0], SortBy(s[1..], above), above)
  }

  lemma {:induction false} InsertSorted<T(!new)>(x: T, s: seq<T>, above: (T, T) -> bool)
    requires TotalPreorder(above)
    requires SortedBy(s, above)
    ensures SortedBy(Insert(x, s, above), above)
  {
    if s != [] && !above(x, s[0]) {
      InsertSorted(x, s[1..], above);
      var rest := Insert(x, s[1..], above);
      assert above(s[0], x);
      forall j | 0 <= j < |rest|
        ensures above(s[0], rest[j])
      {
        assert rest[j] in multiset(rest);
        assert rest[j] == x || rest[j] in multiset(s[1..]);
        if rest[j] != x {
          var k :| 0 <= k < |s[1..]| && s[1..][k] == rest[j];
          assert s[k + 1] == rest[j];
        }
      }
    }
  }

  /** The sort's result is ordered by `above`. */
  lemma {:induction false} SortBySorted<T(!new)>(s: seq<T>, above: (T, T) -> bool)
    requires TotalPreorder(above)
    ensures SortedBy(SortBy(s, above), above)
  {
    if s != [] {
      SortBySorted(s[1..], above);
      InsertSorted(s[0], SortBy(s[1..], above), above);
    }
  }

  /** Sorting neither adds nor drops an element. */
  lemma SortByMembers<T>(s: seq<T>, above: (T, T) -> bool, x: T)
    ensures x in SortBy(s, above) <==> x in s
  {
    var r := SortBy(s, above);
    assert x in r <==> x in multiset(r);
    assert x in s <==> x in multiset(s);
  }

  lemma {:induction false} InsertUnique<T, K>(x: T, s: seq<T>, above: (T, T) -> bool, key: T -> K)
    requires UniqueBy(s, key)
    requires forall i :: 0 <= i < |s| ==> key(s[i]) != key(x)
    ensures UniqueBy(Insert(x, s, above), key)
  {
    if s != [] && !above(x, s[0]) {
      InsertUnique(x, s[1..], above, key);
      var rest := Insert(x, s[1..], above);
      forall j | 0 <= j < |rest|
        ensures key(s[0]) != key(rest[j])
      {
        assert rest[j] in multiset(rest);
        if rest[j] != x {
          assert rest[j] in multiset(s[1..]);
          var k :| 0 <= k < |s[1..]| && s[1..][k] == rest[j];
          assert s[k + 1] == rest[j];
        }
      }
    }
  }

  /** Sorting a key-unique sequence keeps it key-unique. */
  lemma {:induction false} SortByUnique<T, K>(s: seq<T>, above: (T, T) -> bool, key: T -> K)
    requires UniqueBy(s, key)
    ensures UniqueBy(SortBy(s, above), key)
  {
    if s != [] {
      SortByUnique(s[1..], above, key);
      var sorted := SortBy(s[1..], above);
      forall i | 0 <= i < |sorted|
        ensures key(sorted[i]) != key(s[0])
      {
        assert sorted[i] in multiset(s[1..]);
        var k :| 0 <= k < |s[1..]| && s[1..][k] == sorted[i];
        assert s[k + 1] == sorted[i];
      }
      InsertUnique(s[0], sorted, above, key);
    }
  }

  /** Truncating a sorted sequence to `n` drops only elements that every kept
      element may precede, and drops one only when `n` elements are kept. */
  lemma TakeSortedDropsLast<T>(s: seq<T>, n: nat, above: (T, T) -> bool, x: T)
    requires SortedBy(s, above)
    requires x in s && x !in Take(s, n)
    ensures |Take(s, n)| == n
    ensures forall i :: 0 <= i < n ==> above(Take(s, n)[i], x)
  {
    var i :| 0 <= i < |s| && s[i] == x;
    assert n <= i;
  }

  /** `sorted(s, ...)[:n]`: the first `n` elements in sorted order. */
  function Top<T>(s: seq<T>, above: (T, T) -> bool, n: nat): seq<T>
  {
    Take(SortBy(s, above), n)
  }

  /** The top `n` are sorted, are drawn from `s` (each element at most as
      often as in `s`, and all of `s` when it is no longer than `n`), number
      `min(n, |s|)`, and leave out only elements that all of them may precede,
      and only when there are `n` of them. */
  lemma TopSpec<T(!new)>(s: seq<T>, above: (T, T) -> bool, n: nat)
    requires TotalPreorder(above)
    ensures |Top(s, above, n)| == if |s| <= n then |s| else n
    ensures SortedBy(Top(s, above, n), above)
    ensures multiset(Top(s, above, n)) <= multiset(s)
    ensures |s| <= n ==> multiset(Top(s, above, n)) == multiset(s)
    ensures forall x :: x in Top(s, above, n) ==> x in s
    ensures forall x :: x in s && x !in Top(s, above, n) ==>
      |Top(s, above, n)| == n && forall i :: 0 <= i < n ==> above(Top(s, above, n)[i], x)
  {
    TopShape(s, above, n);
    var sorted := SortBy(s, above);
    var top := Top(s, above, n);
    assert sorted == top + sorted[|top|..];
    assert multiset(sorted) == multiset(top) + multiset(sorted[|top|..]);
  }

  /** The part of `TopSpec` that says nothing of multiplicities: the size,
      the order, where the elements come from and what a left-out element
      is outranked by. */
  lemma TopShape<T(!new)>(s: seq<T>, above: (T, T) -> bool, n: nat)
    requires TotalPreorder(above)
    ensures |Top(s, above, n)| == if |s| <= n then |s| else n
    ensures SortedBy(Top(s, above, n), above)
    ensures forall x :: x in Top(s, above, n) ==> x in s
    ensures forall x :: x in s && x !in Top(s, above, n) ==>
      |Top(s, above, n)| == n && forall i :: 0 <= i < n ==> above(Top(s, above, n)[i], x)
  {
    var sorted := SortBy(s, above);
    var top := Top(s, above, n);
    SortBySorted(s, above);
    assert sorted == top + sorted[|top|..];
    forall x | x in top
      ensures x in s
    {
      SortByMembers(s, above, x);
    }
    forall x | x in s && x !in top
      ensures |top| == n && forall i :: 0 <= i < n ==> above(top[i], x)
    {
      SortByMembers(s, above, x);
      TakeSortedDropsLast(sorted, n, above, x);
    }
  }

  /** When the top `n` of `f` all occur in `s`, the top `n` of `s` leave
      out an element of `f` only when there are `n` of them and each may
      come before it. */
  lemma TopOfSuperset<T(!new)>(s: seq<T>, f: seq<T>, above: (T, T) -> bool, n: nat, x: T)
    requires TotalPreorder(above)
    requires Distinct(Top(f, above, n)) && Distinct(Top(s, above, n))
    requires forall y :: y in Top(f, above, n) ==> y in s
    requires x in f && x !in Top(s, above, n)
    ensures |Top(s, above, n)| == n
    ensures forall i :: 0 <= i < n ==> above(Top(s, above, n)[i], x)
  {
    var top := Top(s, above, n);
    var found := Top(f, above, n);
    TopShape(s, above, n);
    TopShape(f, above, n);
    if x !in found {
      DistinctFitsIn(found, s);
      forall i | 0 <= i < n
        ensures above(top[i], x)
      {
        if y :| y in found && y !in top {
          assert above(top[i], y) && above(y, x);
        } else {
          DistinctFill(found, top);
          assert top[i] in top;
        }
      }
    }
  }

  /** A sequence no longer than `n` loses nothing to the cut. */
  lemma TopKeepsShort<T(!new)>(s: seq<T>, above: (T, T) -> bool, n: nat)
    requires TotalPreorder(above) && |s| <= n
    ensures |Top(s, above, n)| == |s|
    ensures forall x :: x in Top(s, above, n) <==> x in s
  {
    TopSpec(s, above, n);
    forall x ensures x in Top(s, above, n) <==> x in s {
      assert x in Top(s, above, n) <==> x in multiset(Top(s, above, n));
      assert x in s <==> x in multiset(s);
    }
  }

  /** The elements that rank equal to `c`: each may come before the other. */
  function SameRank<T>(above: (T, T) -> bool, c: T): T -> bool
  {
    (x: T) => above(x, c) && above(c, x)
  }

  /** Two elements of the same rank may come before each other, so one that
      may not come before another does not share its rank. */
  lemma RankOrdersPeers<T(!new)>(above: (T, T) -> bool, c: T, x: T, y: T)
    requires TotalPreorder(above) && !above(x, y)
    ensures !(SameRank(above, c)(x) && SameRank(above, c)(y))
  {
  }

  /** Inserting `x` puts it ahead of every element of its own rank, and
      leaves the order among the other elements of every rank alone. */
  lemma {:induction false} InsertStable<T(!new)>(x: T, t: seq<T>, above: (T, T) -> bool, c: T)
    requires TotalPreorder(above)
    ensures Filter(Insert(x, t, above), SameRank(above, c)) ==
      (if SameRank(above, c)(x) then [x] else []) + Filter(t, SameRank(above, c))
  {
    var same := SameRank(above, c);
    if t == [] || above(x, t[0]) {
      FilterCons(x, t, same);
    } else {
      var rest := Insert(x, t[1..], above);
      assert Insert(x, t, above) == [t[0]] + rest;
      InsertStable(x, t[1..], above, c);
      FilterCons(t[0], rest, same);
      FilterCons(t[0], t[1..], same);
      assert [t[0]] + t[1..] == t;
      RankOrdersPeers(above, c, x, t[0]);
      if same(x) {
        assert Filter(Insert(x, t, above), same) == Filter(rest, same) == [x] + Filter(t[1..], same);
        assert Filter(t, same) == Filter(t[1..], same);
      } else {
        assert Filter(rest, same) == Filter(t[1..], same);
      }
    }
  }

  /** The sort is stable: the elements of any one rank appear in the result
      in the order they had in `s`. */
  lemma {:induction false} SortByStable<T(!new)>(s: seq<T>, above: (T, T) -> bool, c: T)
    requires TotalPreorder(above)
    ensures Filter(SortBy(s, above), SameRank(above, c)) == Filter(s, SameRank(above, c))
  {
    if s != [] {
      SortByStable(s[1..], above, c);
      InsertStable(s[0], SortBy(s[1..], above), above, c);
    }
  }

  /** The top `n` of a key-unique sequence are key-unique. */
  lemma TopUnique<T, K>(s: seq<T>, above: (T, T) -> bool, n: nat, key: T -> K)
    requires UniqueBy(s, key)
    ensures UniqueBy(Top(s, above, n), key)
  {
    SortByUnique(s, above, key);
    UniquePrefix(SortBy(s, above), n, key);
  }
}

=== FILE: text.dfy ===
/** The string operations the core relies on: `str.lower()` (ASCII letters
    only), the `in` substring test, `str.replace(pattern, '')`, `str.join`
    and `str(int)`. */
module Text {

  function LowerChar(c: char): char
  {
    if 'A' <= c <= 'Z' then (c as int + 32) as char else c
  }

  /** `s.lower()` restricted to ASCII upper-case letters. */
  function Lower(s: string): (r: string)
    ensures |r| == |s|
    ensures forall i :: 0 <= i < |s| ==> r[i] == LowerChar(s[i])
  {
    seq(|s|, i requires 0 <= i < |s| => LowerChar(s[i]))
  }

  /** Lower-casing twice is lower-casing once. */
  lemma LowerIdempotent(s: string)
    ensures Lower(Lower(s)) == Lower(s)
  {
  }

  /** `sub` occurs in `s` starting at index `i`. */
  ghost predicate OccursAt(s: string, sub: string, i: nat)
  {
    i + |sub| <= |s| && s[i..i + |sub|] == sub
  }

  /** Python's `sub in s`, scanning from the left. */
  function Contains(s: string, sub: string): bool
    decreases |s|
  {
    if |sub| > |s| then false
    else if s[..|sub|] == sub then true
    else if s == [] then false
    else Contains(s[1..], sub)
  }

  /** The scan finds `sub` exactly when it occurs at some index. */
  lemma {:induction false} ContainsIff(s: string, sub: string)
    ensures Contains(s, sub) <==> exists i: nat :: OccursAt(s, sub, i)
    decreases |s|
  {
    if |sub| > |s| {
    } else if s[..|sub|] == sub {
      assert OccursAt(s, sub, 0);
    } else if s == [] {
    } else {
      ContainsIff(s[1..], sub);
      if Contains(s[1..], sub) {
        var i: nat :| OccursAt(s[1..], sub, i);
        assert s[i + 1..i + 1 + |sub|] == s[1..][i..i + |sub|];
        assert OccursAt(s, sub, i + 1);
      } else {
        forall i: nat | OccursAt(s, sub, i)
          ensures false
        {
          assert i != 0;
          assert s[1..][i - 1..i - 1 + |sub|] == s[i..i + |sub|];
          assert OccursAt(s[1..], sub, i - 1);
        }
      }
    }
  }

  /** A string contains every string it ends with. */
  lemma {:induction false} ContainsSuffix(prefix: string, sub: string)
    ensures Contains(prefix + sub, sub)
  {
    var s := prefix + sub;
    assert s[|prefix|..|prefix| + |sub|] == sub;
    assert OccursAt(s, sub, |prefix|);
    ContainsIff(s, sub);
  }

  /** A string contains every string it starts with. */
  lemma ContainsPrefix(sub: string, suffix: string)
    ensures Contains(sub + suffix, sub)
  {
    assert (sub + suffix)[..|sub|] == sub;
  }

  /** A string contains whatever sits between a prefix and a suffix. */
  lemma ContainsMiddle(prefix: string, sub: string, suffix: string)
    ensures Contains(prefix + sub + suffix, sub)
  {
    var s := prefix + sub + suffix;
    assert s[|prefix|..|prefix| + |sub|] == sub;
    assert OccursAt(s, sub, |prefix|);
    ContainsIff(s, sub);
  }

  /** `s.replace(pattern, '')`: occurrences are removed left to right,
      never overlapping, and scanning resumes after each removal. */
  function RemoveAll(s: string, pattern: string): (r: string)
    requires pattern != ""
    ensures |r| <= |s|
    decreases |s|
  {
    if |s| < |pattern| then s
    else if s[..|pattern|] == pattern then RemoveAll(s[|pattern|..], pattern)
    else [s[0]] + RemoveAll(s[1..], pattern)
  }

  /** Removal shortens the string whenever the pattern occurs in it. */
  lemma {:induction false} RemoveAllShortens(s: string, pattern: string)
    requires pattern != ""
    requires Contains(s, pattern)
    ensures |RemoveAll(s, pattern)| < |s|
    decreases |s|
  {
    if s[..|pattern|] != pattern {
      RemoveAllShortens(s[1..], pattern);
    }
  }

  /** `s.replace(pattern, '')` leaves `s` as it is exactly when the pattern
      does not occur in `s`. */
  lemma {:induction false} RemoveAllUnchangedIff(s: string, pattern: string)
    requires pattern != ""
    ensures RemoveAll(s, pattern) == s <==> !Contains(s, pattern)
    decreases |s|
  {
    if Contains(s, pattern) {
      RemoveAllShortens(s, pattern);
    } else if |s| >= |pattern| {
      RemoveAllUnchangedIff(s[1..], pattern);
      assert s == [s[0]] + s[1..];
    }
  }

  /** A prefix without the pattern's first character passes through removal untouched. */
  lemma {:induction false} RemoveAllKeepsPrefix(prefix: string, s: string, pattern: string)
    requires pattern != ""
    requires forall i :: 0 <= i < |prefix| ==> prefix[i] != pattern[0]
    ensures RemoveAll(prefix + s, pattern) == prefix + RemoveAll(s, pattern)
    decreases |prefix|
  {
    if prefix != [] {
      var t := prefix + s;
      RemoveAllKeepsPrefix(prefix[1..], s, pattern);
      assert t[1..] == prefix[1..] + s;
      if |t| < |pattern| {
        assert RemoveAll(t, pattern) == t;
        assert RemoveAll(s, pattern) == s;
      } else {
        assert t[..|pattern|] != pattern by {
          assert t[..|pattern|][0] == prefix[0];
        }
        calc {
          RemoveAll(t, pattern);
          [t[0]] + RemoveAll(t[1..], pattern);
          [prefix[0]] + (prefix[1..] + RemoveAll(s, pattern));
          { assert [prefix[0]] + prefix[1..] == prefix; }
          prefix + RemoveAll(s, pattern);
        }
      }
    } else {
      assert prefix + s == s;
    }
  }

  /** `sep.join(parts)`. */
  function Join(sep: string, parts: seq<string>): string
  {
    if parts == [] then ""
    else if |parts| == 1 then parts[0]
    else parts[0] + sep + Join(sep, parts[1..])
  }

  function Digit(d: nat): char
    requires d < 10
  {
    "0123456789"[d]
  }

  /** `str(n)` for a natural number. */
  function NatToString(n: nat): (r: string)
    ensures |r| >= 1
    decreases n
  {
    if n < 10 then [Digit(n)] else NatToString(n / 10) + [Digit(n % 10)]
  }

  /** Every character of a decimal numeral is a digit. */
  lemma {:induction false} NatToStringDigits(n: nat)
    ensures forall i :: 0 <= i < |NatToString(n)| ==> '0' <= NatToString(n)[i] <= '9'
    decreases n
  {
    if n >= 10 {
      NatToStringDigits(n / 10);
    }
  }

  lemma DigitInjective(a: nat, b: nat)
    requires a < 10 && b < 10 && Digit(a) == Digit(b)
    ensures a == b
  {
    assert forall d :: 0 <= d < 10 ==> "0123456789"[d] as int == '0' as int + d;
  }

  /** Different numbers have different decimal numerals. */
  lemma {:induction false} NatToStringInjective(a: nat, b: nat)
    requires NatToString(a) == NatToString(b)
    ensures a == b
    decreases a
  {
    var s := NatToString(a);
    if a < 10 && b < 10 {
      DigitInjective(a, b);
    } else if a >= 10 && b >= 10 {
      var pa, pb := NatToString(a / 10), NatToString(b / 10);
      assert s == pa + [Digit(a % 10)] && s == pb + [Digit(b % 10)];
      assert pa == s[..|s| - 1] == pb;
      NatToStringInjective(a / 10, b / 10);
      DigitInjective(a % 10, b % 10);
    }
  }

  /** `str(i)` for an integer. */
  function IntToString(i: int): string
  {
    if i < 0 then "-" + NatToString(-i) else NatToString(i)
  }
}

=== FILE: values.dfy ===
/** The dynamically typed values that travel in the gateway's message
    dictionaries, events and results, with Python's truthiness rules. */
module Values {
  import Text

  datatype Value =
    | Null                          // Python None
    | Bool(b: bool)
    | Int(i: int)
    | Real(r: real)                 // a Python float, kept exact
    | Str(s: string)
    | Time(t: int)                  // a datetime object for instant t
    | Iso(t: int)                   // the string datetime(t).isoformat(), kept symbolic
    | List(items: seq<Value>)
    | Obj(fields: map<string, Value>)

  /** A Python `Dict[str, Any]`. */
  type Dict = map<string, Value>

  /** The environment a call would read from the clock or an id generator:
      `now` is datetime.now(), `clockText` its strftime('%Y-%m-%d %H:%M:%S')
      rendering, and `freshId` the `timestamp()` suffix of generated ids. */
  datatype Env = Env(now: int, clockText: string, freshId: string)

  /** `d.get(key)`: the value, or None when the key is absent. */
  function Get(d: Dict, key: string): (v: Value)
    ensures key !in d ==> v == Null
  {
    if key in d then d[key] else Null
  }

  /** `d.get(key, default)`: a present key wins even when its value is falsy. */
  function GetOr(d: Dict, key: string, default: Value): (v: Value)
    ensures key in d ==> v == d[key]
    ensures key !in d ==> v == default
  {
    if key in d then d[key] else default
  }

  /** Python's `bool(v)`. */
  predicate Truthy(v: Value)
  {
    match v
    case Null => false
    case Bool(b) => b
    case Int(i) => i != 0
    case Real(r) => r != 0.0
    case Str(s) => s != ""
    case Time(_) => true
    case Iso(_) => true
    case List(items) => items != []
    case Obj(fields) => fields != map[]
  }

  /** `type(v).__name__`, as it appears in Python's error messages. */
  function TypeName(v: Value): string
  {
    match v
    case Null => "NoneType"
    case Bool(_) => "bool"
    case Int(_) => "int"
    case Real(_) => "float"
    case Str(_) => "str"
    case Time(_) => "datetime"
    case Iso(_) => "str"
    case List(_) => "list"
    case Obj(_) => "dict"
  }

  /** Whether `v` can be a dictionary key or a set element (lists and dicts are unhashable). */
  predicate Hashable(v: Value)
  {
    !v.List? && !v.Obj?
  }

  /** `str(v)` for the scalar values the model renders; other values render
      as a placeholder naming their type. */
  function Render(v: Value): string
  {
    match v
    case Null => "None"
    case Bool(b) => if b then "True" else "False"
    case Int(i) => Text.IntToString(i)
    case Str(s) => s
    case _ => "<" + TypeName(v) + ">"
  }

  /** Whether `v[:n]` succeeds: strings and lists slice. */
  predicate Sliceable(v: Value)
  {
    v.Str? || v.Iso? || v.List?
  }

  /** The TypeError `v[:n]` raises for a value that does not slice. */
  function SliceError(v: Value): string
  {
    if v.Obj? then "unhashable type: 'slice'" else "'" + TypeName(v) + "' object is not subscriptable"
  }

  /** The TypeError raised when an unhashable value is used as a set element or a dict key. */
  function UnhashableError(v: Value): string
  {
    "unhashable type: '" + TypeName(v) + "'"
  }

  /** The AttributeError raised when `v` has no attribute of that name. */
  function NoAttributeError(v: Value, attribute: string): string
  {
    "'" + TypeName(v) + "' object has no attribute '" + attribute + "'"
  }
}

=== FILE: wrappers.dfy ===
/** Failure-carrying result types shared by every module of the model.
    A Python exception that propagates to the caller becomes `Err(message)`,
    where `message` is what `str(e)` would give. */
module Wrappers {

  datatype Option<T> = None | Some(value: T)

  datatype Result<T> = Ok(value: T) | Err(error: string)
  {
    predicate IsFailure() { Err? }

    function PropagateFailure<U>(): Result<U>
      requires Err?
    {
      Err(error)
    }

    function Extract(): T
      requires Ok?
    {
      value
    }
  }

  /** The outcome of an operation that returns nothing (Python `None`) or raises. */
  datatype Outcome = Pass | Fail(error: string)
}
